=== FILE: README.md ===
# Jetson dashcam core in Dafny

This project models the rules that sit under the dashcam's threads and devices:

- **GPS reader.** NMEA 0183 GGA and RMC sentences update a position state. That state has a bounded fix buffer and a moving average over it.
- **Utility module.** A second coordinate parser and smoother, byte-size formatting, disk usage arithmetic, the configuration dictionary, and the segment file name.
- **AI detector.** One pass combines plate candidates with classifier attributes. A single-slot frame register feeds a published detection list.
- **Video recorder.**
  - The hardware and software encoder command lines and how one is chosen.
  - The camera probe order.
  - The encoder and camera close protocol.
  - Segment rotation, one frame step at a time.
  - The overlay text lines.
- **Disk cleanup manager.**
  - The low-space trigger and age-based deletion.
  - Size-based deletion, oldest file first.
  - Selection of the oldest video and the sorted video listing.
- **Event database.** The parameterised search statement. An in-memory event table with its `UNIQUE(timestamp, video_filename, license_plate)` constraint, and the cutoff delete.
- **Application.** The overlay dictionary, the events logged for a detection pass, and the start-up result.
- **Web dashboard.** The login gate, the video file name guard, the listing flags, the cleanup action dispatch, and the search limit.

Outside inputs are function or value parameters, and every operation is a pure function or a method over immutable data. These inputs are:

- device and process outcomes: serial port, camera, `ffmpeg` launch, file removal, `os.stat`;
- the detector and classifier;
- the clock, and the local time zone with its daylight-saving rules (a map from epoch seconds to naive local wall-clock seconds);
- whether the database opens, once per call (a batch of inserts gets one answer per insert).

A video directory is a sequence of entries in `os.listdir` order, not a map from name to metadata. That order decides which of two equally old videos is selected first (app/cleanup.py:271-285).

One module per source file:

| Module | Models |
|---|---|
| `Gps` | app/gps_reader.py |
| `Utils` | app/utils.py |
| `Detector` | app/ai_detector.py |
| `Recorder` | app/video_recorder.py |
| `Cleanup` | app/cleanup.py |
| `EventStore` | app/database.py |
| `App` | app/main.py |
| `Web` | app/web_server.py |

Four support modules are shared:

- `Common`: option type, string helpers, Python slicing, `split`/`join`, lexicographic order.
- `Numbers`: the subset of Python `int()`/`float()` used here, read exactly into `int`/`real`.
- `Clock`: date-time texts and the segment file name.
- `Coordinates`: DDMM.MMMM arithmetic and the mean of a fix buffer.

Behaviour of the code worth knowing when reading the model:

- **GPS smoothing.** The GPS reader averages the whole buffer (up to ten fixes) once five are present, not the last five (app/gps_reader.py:239-245).
- **Encoder after rotation.** The recorder does not retry an encoder that failed to start at a rotation. Frames are then read but not written until the segment's time runs out (app/video_recorder.py:263-275).
- **Cleanup target.** `/api/cleanup` reads `target_percent` with a default of 15.0 and passes it to `float`. An explicit `null` therefore makes `float` raise, and the request gets a 400; it does not fall back to 15 (app/web_server.py:239).
- **Unknown cleanup action.** An unknown action reports disk usage with success, not a 400 (app/web_server.py:246-248).
- **Plate-less events.** The uniqueness constraint follows SQLite's rule that NULLs are distinct, so plate-less events never collide (app/database.py:45).

## Model

| member | source | states |
|---|---|---|
| Numbers.ParseInt | app/gps_reader.py:147-150 | Python `int()` accepts exactly an optional sign followed by at least one digit. On all-digit text it yields the decimal value. |
| Numbers.ParseIntMeaning | app/gps_reader.py:147-150 | Text is accepted exactly when it is all digits, or a '-' or '+' followed by digits. A signed text yields the digits' value, negated for '-'. |
| Numbers.IntToStringRoundTrip | app/video_recorder.py:102-103 | `int(str(n)) == n`: the frame size and rate written into the encoder command read back as the same numbers. |
| Numbers.PadDigits | app/utils.py:77-80 | The zero-padded `%02d`/`%04d` field has exactly the requested width, only digits, and the value of the number. |
| Clock.StampRoundTrip | app/utils.py:77-80 | The "%Y%m%d-%H%M%S" stamp loses nothing: reading it back gives the clock reading it came from. |
| Clock.VideoFilename | app/video_recorder.py:177-180 | A segment name is 29 characters: "jetsoncam-", the 15-character stamp with '-' at its index 8, then ".mp4". |
| Clock.VideoFilenameRoundTrip | app/video_recorder.py:177-180 | The clock reading can be recovered from a segment name. |
| Clock.VideoFilenameInjective | app/video_recorder.py:177-180 | Two segment names are equal exactly when their clock readings are equal, so names never collide within one-second granularity. |
| Clock.DateTimeText | app/main.py:204-206 | "%Y-%m-%d %H:%M:%S" is the date text, a space, then the time text: 19 characters. |
| Coordinates.DegreesMinutesOfDdmm | app/gps_reader.py:226-233 | `int(degrees) + float(minutes)/60` on DDMM.MMMM digits is the exact degrees-and-minutes value, negated for S and W. |
| Coordinates.MeanWithinBounds | app/gps_reader.py:239-245 | The mean of a fix buffer lies inside the bounding box of its fixes. |
| Utils.ParseGpsCoordinate | app/utils.py:141-146 | Missing or empty coordinate or direction, or a coordinate shorter than five characters, gives `None`. |
| Utils.ParseGpsCoordinateDecodes | app/utils.py:149-162 | A DDMM.MMMM text of five or more characters decodes to its signed degrees value. |
| Utils.DotlessShortRejected | app/utils.py:153-155 | Without '.', degrees are all but the last seven characters, so any text of five to seven characters yields `None`. |
| Utils.ParseGpsCoordinateNorth | app/utils.py:149-162 | "3723.2475" N is 37.387458 to within 1e-4. |
| Utils.ParseGpsCoordinateSouth | app/utils.py:158-159 | The southern hemisphere gives a negative value. |
| Utils.ParseGpsCoordinateWest | app/utils.py:149-162 | "12158.3416" W is -121.972360 to within 1e-4. |
| Utils.ParseGpsCoordinateRejects | app/utils.py:141-164 | Empty, missing and malformed ("invalid") inputs give `None`. |
| Utils.SmoothGpsCoordinates | app/utils.py:178-185 | No average until `buffer_size` samples exist. From then on the result times `buffer_size` is the sum of the last `buffer_size` samples, for latitude and longitude alike: it is their mean. |
| Utils.SmoothIgnoresOlderSamples | app/utils.py:181-185 | Only the newest `buffer_size` samples are averaged; older history has no effect. |
| Utils.SmoothWithinBounds | app/utils.py:181-185 | The smoothed position lies inside the bounding box of the samples. |
| Utils.FormatBytes | app/utils.py:121-127 | The unit chosen is the first of B, KB, MB, GB, TB at which the scaled value drops below 1024, else PB. Every earlier unit's value is at least 1024. |
| Utils.FormatBytesExamples | app/utils.py:121-127 | 1024 is 1.00 KB, 1024² is 1.00 MB, 1024³ is 1.00 GB, 512 is 512 B. |
| Utils.UnitUnique | app/utils.py:123-127 | Any unit meeting the two defining conditions is the unit `format_bytes` picks. |
| Utils.ComputeUsage | app/utils.py:106-117 | `percent = used/total*100` (0 for a zero-sized disk) and `free_percent` is its complement to 100; both lie in [0, 100] when used ≤ total. |
| Utils.GetAfterSet | app/utils.py:188-200 | After `set(k, v)`, `get(k)` is `v` and every other key reads as before. |
| Utils.NewConfig | app/utils.py:191-192 | A missing configuration dictionary starts empty. |
| Utils.FormattedTimestamp | app/utils.py:77-80 | The timestamp has 15 characters with '-' at index 8, and reads back as the clock reading. |
| Utils.GetVideoFilename | app/utils.py:83-90 | The file name is "jetsoncam-" + timestamp + ".mp4" and reads back as the clock reading. The directory argument is not used. |
| Gps.Init | app/gps_reader.py:34-46 | A new reader knows no position and has an empty buffer, and satisfies the state invariant. |
| Gps.ParseCoordinate | app/gps_reader.py:220-224 | An empty coordinate or direction, or no '.', gives `None`. |
| Gps.ParseCoordinateDecodes | app/gps_reader.py:226-233 | DDMM.MMMM decodes to degrees + minutes/60, negated exactly for S and W. |
| Gps.DotTooEarlyRejected | app/gps_reader.py:226-235 | A '.' before index 2 makes the Python slices `s[:dot-2]` and `s[dot-2:]` count from the end. Either the degrees slice still holds the '.' or is empty, so `int` raises, or (for a two-character text such as "1.") the minutes slice is the lone ".", so `float` raises. The result is `None`. |
| Gps.ParsersAgree | app/gps_reader.py:208-237 | On texts with '.' of five or more characters, the reader's and the utility module's parsers agree. |
| Gps.StripChecksum | app/gps_reader.py:113-114 | The text from the first '*' on is dropped; a line without '*' is kept whole. |
| Gps.BoundedAppend | app/gps_reader.py:44 | The bounded deque keeps the newest `buffer_size` entries, oldest dropped first, with the new entry last. |
| Gps.AddFix | app/gps_reader.py:163-169 | A fix sets the raw position, appends to the bounded buffer, and keeps the invariant. The invariant says smoothed values exist exactly with five or more fixes and are then the whole-buffer mean. |
| Gps.ParseGga | app/gps_reader.py:126-181 | Fewer than ten fields, or an unparsable quality or satellite field, change nothing. Otherwise quality and satellites are written, then position, altitude and time in that order. The invariant is kept. |
| Gps.RecordPosition | app/gps_reader.py:159-169 | The position moves only with quality ≥ 1 and both coordinates parsed; nothing else changes. |
| Gps.RecordAltitude | app/gps_reader.py:171-175 | The altitude changes only to the `float` of a non-empty field 9, and nothing else changes. |
| Gps.RecordTime | app/gps_reader.py:177-178 | A non-empty time field sets the timestamp to exactly today's date text, a space, and the first eight characters of the field. An empty field leaves the timestamp alone. |
| Gps.GgaWithFix | app/gps_reader.py:159-169 | A valid fix overwrites quality and satellites, moves the raw position, and appends it to the buffer. |
| Gps.GgaWithoutFix | app/gps_reader.py:159-169 | Without a valid fix, quality and satellites are still overwritten, and position, buffer and smoothing are untouched. |
| Gps.ParseRmc | app/gps_reader.py:183-206 | An RMC sentence changes only the speed, and only to a parsable field 7. |
| Gps.ParseSentence | app/gps_reader.py:106-124 | A line without '$', or with a tag other than GPGGA/GPRMC, changes nothing. The invariant is kept. |
| Gps.ChecksumIgnored | app/gps_reader.py:113-114 | Appending "*checksum" to a sentence never changes its effect; the checksum is not verified. |
| Gps.GetCurrentData | app/gps_reader.py:247-261 | `has_fix` holds exactly when the fix quality is at least 1. |
| Gps.FixAcquiredIff | app/gps_reader.py:276-287 | The fix `wait_for_fix` waits for is quality ≥ 1 together with at least four satellites. |
| Gps.GetPosition | app/gps_reader.py:263-270 | Smoothed when both smoothed values exist, else raw when both exist, else (None, None); the two are never mixed. |
| Gps.PositionAfterFix | app/gps_reader.py:239-270 | With a fix buffered, a position is always available. It is the newest raw fix below five fixes and the buffer mean from then on. |
| Gps.PositionWithinBuffer | app/gps_reader.py:239-270 | The reported position lies inside the bounding box of the buffered fixes. |
| Gps.Start | app/gps_reader.py:70-82 | Start succeeds exactly when not running and the port opens. |
| Gps.Stop | app/gps_reader.py:84-90 | Stop leaves the reader not running and keeps its position state. |
| Detector.Enrich | app/ai_detector.py:297-308 | A kept candidate takes the classifier's color, make and model. Its confidence becomes the smaller of the two, where an absent classifier confidence counts as 0.5, so it is at most both. |
| Detector.Kept | app/ai_detector.py:288-290 | Only candidates at or above the threshold are kept. |
| Detector.KeptAppend | app/ai_detector.py:288-290 | Filtering a concatenation is concatenating the filtered parts, so the kept candidates keep their original order. |
| Detector.KeptSingle | app/ai_detector.py:288-290 | A single candidate is kept exactly when its confidence reaches the threshold; with KeptAppend this fixes the filter on every list. |
| Detector.PassAppend | app/ai_detector.py:281-312 | A pass over a concatenation succeeds exactly when the passes over both parts do, and then yields the first part's results followed by the second's. |
| Detector.PassMeaning | app/ai_detector.py:281-312 | A pass fails exactly when some kept candidate cannot be classified. Otherwise it yields each kept candidate, in order, enriched by its own classification. |
| Detector.PassFailureSticks | app/ai_detector.py:314-316 | Once classification fails partway, the whole pass fails; nothing partial is published. |
| Detector.RunInference | app/ai_detector.py:279-316 | The loop computes the pass, returns `[]` on any exception, and publishes no more detections than candidates. |
| Detector.InferenceOutputs | app/ai_detector.py:279-316 | Every published detection comes, in order, from a candidate at or above the threshold. It keeps that candidate's plate and box and takes the classifier's attributes, with a confidence at most both inputs. |
| Detector.FailedClassificationGivesZero | app/ai_detector.py:186-188 | A failed classification still publishes the candidate, with no attributes and confidence 0.0. |
| Detector.BelowThresholdNotClassified | app/ai_detector.py:288-290 | A below-threshold candidate, at any position, never reaches the classifier: the pass is the same as without it, whatever the classifier would say. |
| Detector.SetInputFrameOverwrites | app/ai_detector.py:230-233 | The frame slot holds only the newest frame. |
| Detector.InferenceStep | app/ai_detector.py:252-277 | With no frame nothing happens. Otherwise the published list is replaced by the pass result, and the callback fires exactly when that result is non-empty. |
| Detector.LatestIsLastPass | app/ai_detector.py:318-321 | Readers see exactly the last pass's result, never a mix with earlier passes. |
| Detector.Start | app/ai_detector.py:235-243 | Start returns true only when not already running. |
| Detector.Stop | app/ai_detector.py:245-250 | Stop leaves the detector not running. |
| Recorder.HardwareCommand | app/video_recorder.py:81-113 | The NVENC command is the shared raw-input prefix, `-c:v h264_nvenc`, and the output file last. |
| Recorder.FallbackCommand | app/video_recorder.py:115-131 | The software command is the same prefix, `-c:v libx264`, and the output file last. |
| Recorder.CommandsAgree | app/video_recorder.py:81-131 | Both commands read the same "WxH" raw stream at the same rate and write the same file; they differ in the codec. |
| Recorder.StartEncoder | app/video_recorder.py:133-175 | The hardware encoder is used when it launches, else the fallback; there is no encoder exactly when both launches fail. |
| Recorder.GetCameraSource | app/video_recorder.py:58-79 | The first device among 0–3 that opens is chosen; there is none exactly when all four fail. |
| Recorder.CloseEncoder | app/video_recorder.py:208-218 | No writer means no action. Otherwise stdin is closed first, the wait is bounded by 5 s, and the process is killed exactly when closing or waiting fails. The writer is always cleared. |
| Recorder.CloseCamera | app/video_recorder.py:202-206 | An open camera is released and forgotten. |
| Recorder.StartNewSegment | app/video_recorder.py:220-230 | A new segment closes the old encoder and takes the "jetsoncam-<stamp>.mp4" name of the current clock. It resets the frame count and restarts the segment clock. |
| Recorder.FrameStep | app/video_recorder.py:245-275 | A failed read changes nothing. No step changes the running flag, camera or configuration. |
| Recorder.FrameCounted | app/video_recorder.py:263-270 | A good frame in an unexpired segment increments the frame count and does nothing else. |
| Recorder.ExpiredSegmentRotates | app/video_recorder.py:273-275 | When the segment duration has elapsed, the segment rotates and the new one starts with zero frames. |
| Recorder.WriteErrorRotates | app/video_recorder.py:263-270 | A write error rotates before counting, so the new segment starts at one frame. |
| Recorder.SegmentAgeBounded | app/video_recorder.py:245-275 | After any good frame, the current segment is younger than the segment duration. |
| Recorder.BeginRecording | app/video_recorder.py:232-241 | With no camera among 0–3 the recorder stops running, with nothing else changed and no action. Otherwise it uses the first of cameras 0–3 that opens: that one opens and none below it does. It starts a fresh segment: the previous encoder is closed, the segment gets a new time-stamped name, zero frames and the current start time, and its encoder is the one `StartEncoder` launches for that name. |
| Recorder.FirstOpeningUnique | app/video_recorder.py:66-69 | At most one index opens with no opening index below it, so the camera recording uses is determined. |
| Recorder.Start | app/video_recorder.py:182-190 | Start succeeds exactly from the stopped state. |
| Recorder.Stop | app/video_recorder.py:192-200 | Stop leaves no running flag, no encoder and no camera. It closes stdin exactly when there was an encoder and releases exactly when there was a camera. |
| Recorder.StopIdempotent | app/video_recorder.py:192-218 | A second stop does nothing. |
| Recorder.VehicleLine | app/video_recorder.py:317-321 | A line starts with "Vehicle: " + description (default "Unknown"). It ends in "]" exactly when the plate is truthy. |
| Recorder.VehicleLineText | app/video_recorder.py:317-321 | The line is exactly "Vehicle: " + description, followed by " [" + plate + "]" when the plate is truthy; the plate text can be read back from the line. |
| Recorder.OverlayLayout | app/video_recorder.py:301-321 | The time line comes first when a timestamp is given. A GPS line follows when both GPS keys exist; it reads "No Fix" exactly when either value is None. Then at most three vehicle lines, in order. |
| Recorder.OverlayLines | app/video_recorder.py:301-321 | There are at most five overlay lines. |
| Cleanup.DiskUsage | app/cleanup.py:72-101 | Usage is absent exactly when the disk cannot be queried. Otherwise the used share is `used/total*100` (0 on an empty disk) and the free share is its complement. |
| Cleanup.CheckDiskSpace | app/cleanup.py:103-123 | Without known usage or with a free share at or above the minimum, nothing is deleted and the answer is false. Otherwise the age-based cleanup runs with the retention period: the directory becomes its survivors and the answer is whether a record or an expired video went. |
| Cleanup.AtThresholdNoCleanup | app/cleanup.py:119-123 | At exactly the minimum free share the cleanup is not triggered. |
| Cleanup.SurvivorsMeaning | app/cleanup.py:163-187 | Age-based deletion keeps exactly the entries that are not an inspectable, removable ".mp4" whose local modification time is before the cutoff. Every other file is untouched. |
| Cleanup.SurvivorsShrink | app/cleanup.py:163-187 | Something is deleted exactly when some entry of the listing is expired. |
| Cleanup.CleanupVideos | app/cleanup.py:151-187 | The count is the number of entries deleted; a missing directory deletes nothing. |
| Cleanup.CleanupOldFiles | app/cleanup.py:125-176 | The cutoff is `days` (default: the retention period) before now, and file times are compared with it as naive local wall-clock times, as `datetime.now()` and `datetime.fromtimestamp` give them. The result is true exactly when a database record went or the directory held an expired video. |
| Cleanup.FirstOldest | app/cleanup.py:271-285 | The first ".mp4" of least modification time is selected, or none when there is no ".mp4". |
| Cleanup.GetOldestVideo | app/cleanup.py:264-285 | The oldest video is a ".mp4" no younger than any other. There is none exactly when the directory is missing, holds no video, or a video cannot be inspected. |
| Cleanup.CleanupBySize | app/cleanup.py:225-262 | Only videos are deleted, and nothing is lost or invented. When the free share already meets the target, nothing is deleted. Each deletion happens below target and takes the oldest video (the first one, on equal times). It stops with the target met; or below target when no video is left or one cannot be inspected; or below target when the oldest video cannot be removed. |
| Cleanup.CleanupBySizeOldestFirst | app/cleanup.py:237-262 | Every deleted video is at least as old as every video left behind. |
| Cleanup.CleanupBySizeCount | app/cleanup.py:225-262 | The count is the number of files deleted; a missing directory deletes nothing. |
| Cleanup.Infos | app/cleanup.py:304-321 | The listing holds exactly the inspectable ".mp4" entries. |
| Cleanup.InsertSorted | app/cleanup.py:323-328 | Inserting into a sorted listing keeps it sorted. |
| Cleanup.SortVideos | app/cleanup.py:323-328 | Sorting permutes the listing into order by the key, reversed when descending. |
| Cleanup.InsertKeyClass | app/cleanup.py:323-328 | Inserting into a sorted listing puts the new video after every video with the same key. |
| Cleanup.SortVideosStable | app/cleanup.py:323-328 | The sort is stable, as `list.sort` is also with `reverse=True`: for every key, the videos with that key keep their input order. |
| Cleanup.GetVideoListStable | app/cleanup.py:323-328 | In the listing, videos with equal date text or equal size keep their directory order. |
| Cleanup.GetVideoList | app/cleanup.py:287-334 | The result is a permutation of the inspectable videos. It is ordered by modification time text for "date" and by size for "size", descending when asked. Any other key keeps listing order. |
| Cleanup.Start | app/cleanup.py:45-53 | Start returns true only when not already running. |
| EventStore.RenderCount | app/database.py:131-163 | The rendered statement has exactly as many '?' as placeholder tokens, because no literal fragment contains one. |
| EventStore.DescParams | app/database.py:146-160 | There is one "%v%" pattern per truthy attribute (color, make, model, at most three), and none exactly when no attribute is truthy. |
| EventStore.SearchTokens | app/database.py:131-163 | The search statement has one placeholder per parameter. |
| EventStore.SearchQueryBalanced | app/database.py:131-163 | The SQL text holds exactly as many '?' as there are parameters, so every filter value is bound and none is spliced into the text. |
| EventStore.SearchQueryFrame | app/database.py:131-162 | The statement starts with the selection and always ends "ORDER BY timestamp DESC LIMIT ?". |
| EventStore.SearchQuery | app/database.py:162-163 | The limit is always the last parameter. |
| EventStore.SearchParams | app/database.py:134-163 | Parameters come in this order, each present exactly when its filter is truthy: "<start> 00:00:00", "<end> 23:59:59", "%plate%", the description patterns, then the limit. |
| EventStore.SqlDependsOnlyOnShape | app/database.py:131-163 | The SQL text depends only on which filters are in effect, never on their values. |
| EventStore.SearchEvents | app/database.py:165-175 | A failing query yields the empty list; otherwise its rows. |
| EventStore.EventsByDateQuery | app/database.py:177-179 | The date is passed as both bounds. |
| EventStore.EventsByPlateQuery | app/database.py:181-183 | Only the plate pattern and the limit are passed. |
| EventStore.LogVehicleEvent | app/database.py:71-106 | An insert succeeds exactly when the database is reachable, a file name is given, and no stored row has the same (timestamp, file, non-null plate). A failed insert leaves the table unchanged; the table stays free of collisions. |
| EventStore.DuplicateRejected | app/database.py:45 | Logging the same plate sighting twice stores it once. |
| EventStore.PlatelessAlwaysStored | app/database.py:45 | Plate-less sightings never collide. |
| EventStore.KeepNewerNoCollisions | app/database.py:213-223 | Deleting rows never creates a collision. |
| EventStore.KeepNewerIncreasing | app/database.py:213-223 | Deleting rows keeps them in id order. |
| EventStore.IncreasingSameMembersEqual | app/database.py:34-46 | Two row lists in strictly increasing id order with the same rows are equal: the table's content is fixed by which rows it holds. |
| EventStore.DeleteOldEvents | app/database.py:202-229 | Exactly the rows whose timestamp text sorts before "<cutoff date> 00:00:00" are removed, and their number is returned. The rest stay in id order and the next id is kept. On error nothing is removed and 0 is returned. |
| EventStore.DeleteOldEventsDetermined | app/database.py:202-229 | The rows left are exactly the id-ordered list of the rows from the cutoff day on. |
| EventStore.DeleteByDay | app/database.py:211-219 | For dashcam timestamps, the text comparison is a comparison of days: an event goes exactly when its day precedes the cutoff day. |
| App.OrReal | app/main.py:209-211 | Python `or`: the first value when truthy (present and non-zero), else the second. |
| App.OverlayDescription | app/main.py:219 | The overlay description is "color make model" when color and make are both truthy, else "Unknown". |
| App.GetOverlayData | app/main.py:202-225 | The overlay always has the current time text, and for each coordinate the smoothed value when truthy, else the raw one. It has vehicle entries exactly when there are detections: one per detection, in order, with its plate, overlay description and confidence. |
| App.OverlayOnFrame | app/main.py:202-225 | On the frame: time first, then always a GPS line ("No Fix" exactly when a chosen coordinate is None), then up to three vehicle lines in detection order. |
| App.OverlayHasPositionAfterFix | app/main.py:209-211 | Once the GPS reader has buffered a fix, the overlay never says "No Fix". |
| App.ZeroSmoothedFallsBack | app/main.py:210 | A smoothed coordinate of exactly 0.0 is falsy, so the raw reading is shown instead. |
| App.CarDescription | app/main.py:234 | The stored description is "color make model" whenever make is truthy (color is not checked), else "Unknown". |
| App.DescriptionsDiffer | app/main.py:219-234 | With make but no color, the frame says "Unknown" and the store keeps the attributes. |
| App.DetectionEvents | app/main.py:233-245 | There is one event per detection, in order. |
| App.LogAll | app/main.py:233-245 | Logging only appends rows, never more than one per event, each from the batch; the table stays valid. |
| App.LogAllStoresAdmitted | app/main.py:233-245 | Logging a batch appends exactly its admitted events, in batch order. Each insert opens its own connection, so reachability is decided per event. An event is admitted when its own insert reaches the database, it has a file name, and it collides neither with a stored row nor with an event of the batch that was stored before it. |
| App.AllAdmittedAllStored | app/main.py:233-245 | When every event of a batch is admitted against the events before it, one row per event is appended, in batch order. |
| App.RetryAfterFailedInsert | app/main.py:233-245 | Two sightings of the same plate in one pass, where the first insert cannot open the database and the second can: the second is stored, as one row. |
| App.OnAiDetection | app/main.py:227-247 | Every row added carries the one shared timestamp, the current segment and the raw (unsmoothed) fix, and comes from one of the detections. The rows added are exactly the admitted events of the pass, in detection order, with each detection's insert reaching the database or not on its own. |
| App.OnAiDetectionAllStored | app/main.py:227-247 | With a segment and every insert reaching the database, every detection is stored, in order, when no two detections share a plate and no stored row has this time, this segment and one of their plates. |
| App.NoSegmentStoresNothing | app/main.py:229-245 | Without a current segment nothing is stored. |
| App.PlatelessAllStored | app/main.py:233-245 | With a segment and every insert reaching the database, plate-less detections each add a row, in detection order. |
| App.OnAiDetectionStores | app/main.py:227-247 | No segment means no rows. With a segment and every insert reaching the database, plate-less detections add exactly one row each. |
| App.Start | app/main.py:131-173 | Start fails exactly when already running or when the recorder does not start. On success everything runs; GPS, detector and cleanup failures only warn. |
| App.StartIgnoresGps | app/main.py:140-147 | Whether the GPS port opens has no bearing on the start result. |
| App.StartOnce | app/main.py:133-135 | A second start after a successful one fails and changes nothing. |
| Web.RequireLogin | app/web_server.py:254-261 | A protected route redirects to login exactly when "user" is not in the session, and otherwise answers as the route does. |
| Web.GetVideo | app/web_server.py:187-204 | A name containing ".." or "/" gets a 400 before the disk is consulted. A name whose joined path does not exist gets a 404. Only an existing joined path is served. |
| Web.ServedInsideDir | app/web_server.py:193-199 | A served path is the video directory followed by one name with no separator and no "..". |
| Web.TraversalRefused | app/web_server.py:193-194 | "../x" and "x/.." are refused whatever exists on disk. |
| Web.VideoListFlags | app/web_server.py:148-149 | The sort key defaults to "date". Descending holds exactly when the lower-cased `desc` (default "true") equals "true". |
| Web.VideoListFlagExamples | app/web_server.py:148-149 | No arguments, "TRUE" and "True" mean descending; "1" and "" mean ascending. |
| Web.ApiVideos | app/web_server.py:143-156 | The listing holds exactly the inspectable videos (none without a directory). It is ordered by the key `sort_by` selects, descending exactly when the `desc` argument (default "true"), lower-cased, is "true". For an unknown key it is in directory order. |
| Web.DefaultListingNewestFirst | app/web_server.py:143-156 | Without arguments the dashboard lists videos newest first. |
| Web.ToFloat | app/web_server.py:239 | Python `float` takes numbers as they are and raises on null. |
| Web.Trunc | app/web_server.py:100 | Python `int` on a float truncates toward zero. |
| Web.ToInt | app/web_server.py:100 | Python `int` takes integers as they are and raises on null. |
| Web.CleanupDispatch | app/web_server.py:224-252 | "cleanup" runs the age-based cleanup. "cleanup_by_size" runs the size cleanup with `float(target_percent)` (default 15.0), or gives a 400 when that raises. Any other action, including the default "check", reports usage. |
| Web.CleanupDispatchExamples | app/web_server.py:229-248 | No target means 15; 20 means 20; a null target is a 400; no or unknown action reports usage. |
| Web.SearchRequest | app/web_server.py:89-119 | A search runs exactly when the body is present and the limit converts to an integer. It uses the converted limit and the body's start, end, plate, color, make and model text fields. Otherwise the answer is 400. |
| Web.SearchLimitExamples | app/web_server.py:100 | The limit defaults to 100. 5 stays 5, -2.5 becomes -2, "25" becomes 25; null and "ten" are a 400. |
| Web.SearchRequestBalanced | app/web_server.py:102-110 | Every search the dashboard runs binds each filter value as a parameter. |

## Left out

- Threads, sleeps and polling loops are not modelled: `_read_loop`, `_inference_loop` pacing, the body of `_recording_loop` beyond one iteration, `_cleanup_loop`, `wait_for_fix` polling, thread joins and locks. Single steps are modelled instead, with time as a parameter.
- Devices and processes are not modelled; their outcomes are parameters. This covers the serial port, `cv2.VideoCapture`, frame bytes, resizing and `putText`, and `subprocess.Popen`.
- The bodies of the plate detector and the vehicle classifier, and model loading, are placeholders. They are the parameters `detect` and `classify`.
- Detector.Inference: the classifier is a function of the frame and the box. A classifier that answers differently when asked twice about the same region of the same frame is not modelled.
- Float rendering is not modelled: `:.6f`, `:.2f` and `round(..., 2)`. Values are exact `real`s; `size_mb` is not rounded. Python floats are not IEEE-rounded here, so `float()` reads decimal text exactly.
- Cleanup.DiskUsage: `percent_free` is the exact share, not `round(100 - percent_used, 2)` (app/cleanup.py:92-98). That rounded value decides the low-space trigger and the size-cleanup target. So a free share within 0.005 of a threshold can be decided differently from the exact `real`, for example 9.996% against a minimum of 10%.
- Python `int()`/`float()` are modelled only on sign-and-digits text with at most one '.'. Whitespace, underscores, exponents, "inf" and "nan" are rejected, though Python accepts them.
- SQLite execution is not modelled: LIKE matching, ordering and limiting of search results, and `_cleanup_database_records` (its count is a parameter of `Cleanup.CleanupOldFiles`). The event table is an in-memory sequence of rows.
- Flask machinery, password hashing, templates, `send_file`, `jsonify`, the statistics and export routes, and logging are not modelled.
- `datetime.now()` and `time.time()` are parameters. `Clock.Valid` restricts readings to four-digit years, as strftime renders them.
- `get_events_by_video`, `get_stats`, `export_csv`, the CSV export route, `setup_logging`, `overlay_text_on_frame` and `ensure_directory_exists` are outside the modelled core.
- The cleanup manager's `_format_bytes` (app/cleanup.py:336-342) only feeds log messages. Its algorithm is the same as `format_bytes`, modelled once as `Utils.FormatBytes`.
- Gps.ParseSentence: only the properties of a rejected line are stated. The effect of an accepted GGA or RMC line is that of `Gps.ParseGga` or `Gps.ParseRmc`.
- Recorder.FrameStep: when the encoder failed to start at a rotation, frames are read but not written. The step's contract covers that only through the general lemmas.
- Web.SearchRequest: a truthy filter value that is not a JSON string (a number, a boolean, an array or an object) is read as absent. The source would render it with `str()` inside the LIKE pattern or the date bound (app/database.py:134-157).
- Utils.SmoothGpsCoordinates: only buffer sizes of at least 1 are modelled. In Python a size of 0 slices the whole buffer (`coords_buffer[-0:]`), and an empty buffer then divides by zero; a negative size drops the leading samples. Every caller passes 5.
- App.Start: the wait for a fix is not modelled because its result only logs. The component states are those of their modules' `Start` functions.

=== FILE: app.dfy ===
/** The application glue: the overlay dictionary handed to the recorder for
    every frame, the events logged for every detection pass, and the start-up
    order of the components. The GPS, detector, recorder and event-store
    states are those of their own modules; `datetime.now()` is a parameter. */
module App {
  import opened Common
  import Clock
  import Gps
  import Detector
  import Recorder
  import EventStore
  import Cleanup

  // ---------------------------------------------------------------------
  // Overlay
  // ---------------------------------------------------------------------

  /** Python's `a or b` on two optional numbers: `a` when it is truthy
      (present and non-zero), otherwise `b`. */
  function OrReal(a: Option<real>, b: Option<real>): (r: Option<real>)
    ensures r == a || r == b
    ensures a.Some? && a.value != 0.0 ==> r == a
    ensures r == a && r != b ==> a.Some? && a.value != 0.0
  {
    if a.Some? && a.value != 0.0 then a else b
  }

  /** "color make model" (each rendered by `str`), used when color and make are truthy. */
  function Attributes(d: Detector.Detection): string {
    StrOf(d.color) + " " + StrOf(d.make) + " " + StrOf(d.model)
  }

  /** The overlay's description of a vehicle: its attributes when color and
      make are both truthy, otherwise "Unknown". */
  function OverlayDescription(d: Detector.Detection): (s: string)
    ensures s != "Unknown" ==> Truthy(d.color) && Truthy(d.make)
    ensures Truthy(d.color) && Truthy(d.make) ==> s == Attributes(d)
  {
    if Truthy(d.color) && Truthy(d.make) then Attributes(d) else "Unknown"
  }

  function OverlayVehicles(ds: seq<Detector.Detection>): (vs: seq<Recorder.OverlayVehicle>)
    ensures |vs| == |ds|
    ensures forall i :: 0 <= i < |ds| ==>
      vs[i] == Recorder.OverlayVehicle(ds[i].licensePlate, Some(OverlayDescription(ds[i])), ds[i].confidence)
  {
    if |ds| == 0 then []
    else OverlayVehicles(ds[..|ds| - 1])
           + [Recorder.OverlayVehicle(ds[|ds| - 1].licensePlate, Some(OverlayDescription(ds[|ds| - 1])), ds[|ds| - 1].confidence)]
  }

  /** `_get_overlay_data`: the GPS reading and the published detections are
      snapshots taken by the caller. */
  function GetOverlayData(now: Clock.DateTime, gps: Gps.Snapshot, detections: seq<Detector.Detection>): (o: Recorder.OverlayData)
    requires Clock.Valid(now)
    ensures o.timestamp == Some(Clock.DateTimeText(now))
    ensures o.gpsLat == Some(OrReal(gps.smoothedLatitude, gps.latitude))
    ensures o.gpsLon == Some(OrReal(gps.smoothedLongitude, gps.longitude))
    ensures o.vehicleDetections.Some? <==> |detections| > 0
    ensures o.vehicleDetections.Some? ==> o.vehicleDetections.value == OverlayVehicles(detections)
  {
    Recorder.OverlayData(
      Some(Clock.DateTimeText(now)),
      Some(OrReal(gps.smoothedLatitude, gps.latitude)),
      Some(OrReal(gps.smoothedLongitude, gps.longitude)),
      if |detections| > 0 then Some(OverlayVehicles(detections)) else None)
  }

  /** The first three detections, as the recorder receives them. */
  function Shown(detections: seq<Detector.Detection>): seq<Recorder.OverlayVehicle> {
    if |detections| > 0 then Recorder.PyPrefix3(OverlayVehicles(detections)) else []
  }

  /** What the recorder draws from the application's overlay: the time first,
      always a GPS line ("No Fix" exactly when either chosen coordinate is
      `None`), then one line for each of the first three detections, in order. */
  lemma OverlayOnFrame(now: Clock.DateTime, gps: Gps.Snapshot, detections: seq<Detector.Detection>)
    requires Clock.Valid(now)
    ensures var lines := Recorder.OverlayLines(GetOverlayData(now, gps, detections));
      && |lines| == 2 + |Shown(detections)|
      && lines[0] == Recorder.TextLine("Time: " + Clock.DateTimeText(now))
      && (lines[1] == Recorder.TextLine("GPS: No Fix") <==>
            OrReal(gps.smoothedLatitude, gps.latitude).None? || OrReal(gps.smoothedLongitude, gps.longitude).None?)
      && forall i :: 0 <= i < |Shown(detections)| ==>
           lines[2 + i] == Recorder.TextLine(Recorder.VehicleLine(Shown(detections)[i]))
  {
    var o := GetOverlayData(now, gps, detections);
    FullOverlay(o, Clock.DateTimeText(now), OrReal(gps.smoothedLatitude, gps.latitude),
                OrReal(gps.smoothedLongitude, gps.longitude), Shown(detections));
  }

  /** The lines of an overlay that carries a time and both coordinate keys. */
  lemma FullOverlay(o: Recorder.OverlayData, time: string, lat: Option<real>, lon: Option<real>,
                    shown: seq<Recorder.OverlayVehicle>)
    requires o.timestamp == Some(time) && o.gpsLat == Some(lat) && o.gpsLon == Some(lon)
    requires shown == if o.vehicleDetections.Some? then Recorder.PyPrefix3(o.vehicleDetections.value) else []
    ensures var lines := Recorder.OverlayLines(o);
      && |lines| == 2 + |shown|
      && lines[0] == Recorder.TextLine("Time: " + time)
      && (lines[1] == Recorder.TextLine("GPS: No Fix") <==> lat.None? || lon.None?)
      && forall i :: 0 <= i < |shown| ==> lines[2 + i] == Recorder.TextLine(Recorder.VehicleLine(shown[i]))
  {
    var tl, gl, vl := Recorder.TimeLines(o), Recorder.GpsLines(o), Recorder.VehicleLines(shown);
    assert Recorder.OverlayLines(o) == tl + gl + vl;
    assert |tl| == 1 && |gl| == 1;
    forall i | 0 <= i < |shown| ensures (tl + gl + vl)[2 + i] == Recorder.TextLine(Recorder.VehicleLine(shown[i])) {
      assert (tl + gl + vl)[2 + i] == vl[i];
    }
  }

  /** The vehicles shown are the first three detections, in order, each with
      its plate, confidence and overlay description. */
  lemma ShownVehicles(detections: seq<Detector.Detection>)
    ensures |Shown(detections)| == if |detections| < Recorder.MaxVehicleLines then |detections| else Recorder.MaxVehicleLines
    ensures forall i :: 0 <= i < |Shown(detections)| ==>
      Shown(detections)[i] == Recorder.OverlayVehicle(detections[i].licensePlate, Some(OverlayDescription(detections[i])), detections[i].confidence)
  {
  }

  /** Once the GPS reader has buffered a fix, the overlay never says "No Fix":
      the smoothed value is used when truthy and the raw fix otherwise. */
  lemma OverlayHasPositionAfterFix(st: Gps.State, now: Clock.DateTime, detections: seq<Detector.Detection>)
    requires Gps.Inv(st) && |st.buffer| > 0 && Clock.Valid(now)
    ensures var o := GetOverlayData(now, Gps.GetCurrentData(st), detections);
      o.gpsLat.value.Some? && o.gpsLon.value.Some?
    ensures Recorder.OverlayLines(GetOverlayData(now, Gps.GetCurrentData(st), detections))[1] != Recorder.TextLine("GPS: No Fix")
  {
    var o := GetOverlayData(now, Gps.GetCurrentData(st), detections);
    OverlayOnFrame(now, Gps.GetCurrentData(st), detections);
  }

  /** A smoothed coordinate of exactly 0.0 is falsy, so the raw reading is shown instead. */
  lemma ZeroSmoothedFallsBack(now: Clock.DateTime, gps: Gps.Snapshot, detections: seq<Detector.Detection>)
    requires Clock.Valid(now) && gps.smoothedLatitude == Some(0.0)
    ensures GetOverlayData(now, gps, detections).gpsLat == Some(gps.latitude)
  {
  }

  // ---------------------------------------------------------------------
  // Detection events
  // ---------------------------------------------------------------------

  /** The stored description of a detection: its attributes whenever make is
      truthy (color is not looked at), otherwise "Unknown". */
  function CarDescription(d: Detector.Detection): (s: string)
    ensures s != "Unknown" ==> Truthy(d.make)
    ensures Truthy(d.make) ==> s == Attributes(d)
  {
    if Truthy(d.make) then Attributes(d) else "Unknown"
  }

  /** The event `_on_ai_detection` logs for one detection. */
  function DetectionEvent(d: Detector.Detection, timestamp: string, segment: Option<string>, gps: Gps.Snapshot): EventStore.Event {
    EventStore.Event(timestamp, segment, gps.latitude, gps.longitude, d.licensePlate, Some(CarDescription(d)), d.confidence)
  }

  /** The events of one pass, in detection order. */
  function DetectionEvents(ds: seq<Detector.Detection>, timestamp: string, segment: Option<string>, gps: Gps.Snapshot): (es: seq<EventStore.Event>)
    ensures |es| == |ds|
    ensures forall i :: 0 <= i < |ds| ==> es[i] == DetectionEvent(ds[i], timestamp, segment, gps)
  {
    if |ds| == 0 then []
    else DetectionEvents(ds[..|ds| - 1], timestamp, segment, gps) + [DetectionEvent(ds[|ds| - 1], timestamp, segment, gps)]
  }

  /** Logs the events one after another, ignoring each call's result. Every
      call opens its own connection: `reachable(i)` is whether the database
      could be opened for the `i`-th event of the batch. */
  function LogAll(t: EventStore.Table, es: seq<EventStore.Event>, reachable: nat -> bool): (r: EventStore.Table)
    requires EventStore.Valid(t)
    ensures EventStore.Valid(r)
    ensures |t.rows| <= |r.rows| <= |t.rows| + |es|
    ensures r.rows[..|t.rows|] == t.rows
    ensures forall k :: |t.rows| <= k < |r.rows| ==> r.rows[k].event in es
  {
    if |es| == 0 then t
    else
      var before := LogAll(t, es[..|es| - 1], reachable);
      var r := EventStore.LogVehicleEvent(before, es[|es| - 1], reachable(|es| - 1)).0;
      assert forall e :: e in es[..|es| - 1] ==> e in es;
      r
  }

  /** Whether an insert of `e` that could open the database (`ok`) stores it,
      after the events `stored` of the same batch were stored: `e` has a file
      name and collides neither with a row of `t` nor with a stored event. */
  predicate Admitted(t: EventStore.Table, stored: seq<EventStore.Event>, e: EventStore.Event, ok: bool) {
    && ok && e.videoFilename.Some?
    && (forall k :: 0 <= k < |t.rows| ==> !EventStore.Collide(t.rows[k].event, e))
    && (forall x :: x in stored ==> !EventStore.Collide(x, e))
  }

  /** The admitted events of a batch, in batch order: a reference definition
      of what logging the batch stores, on events rather than rows. */
  function AdmittedEvents(t: EventStore.Table, es: seq<EventStore.Event>, reachable: nat -> bool): (a: seq<EventStore.Event>)
    ensures |a| <= |es|
  {
    if |es| == 0 then []
    else
      var ai := AdmittedEvents(t, es[..|es| - 1], reachable);
      ai + (if Admitted(t, ai, es[|es| - 1], reachable(|es| - 1)) then [es[|es| - 1]] else [])
  }

  /** Logging a batch stores exactly its admitted events, in batch order,
      after the rows already there. */
  lemma {:induction false} LogAllStoresAdmitted(t: EventStore.Table, es: seq<EventStore.Event>, reachable: nat -> bool)
    requires EventStore.Valid(t)
    ensures var r := LogAll(t, es, reachable);
            var a := AdmittedEvents(t, es, reachable);
      && |r.rows| == |t.rows| + |a|
      && forall i :: 0 <= i < |a| ==> r.rows[|t.rows| + i].event == a[i]
  {
    if |es| > 0 {
      var init := es[..|es| - 1];
      var e := es[|es| - 1];
      var ok := reachable(|es| - 1);
      LogAllStoresAdmitted(t, init, reachable);
      var before := LogAll(t, init, reachable);
      var ai := AdmittedEvents(t, init, reachable);
      StoredIffAdmitted(t, before, ai, e, ok);
      var r := LogAll(t, es, reachable);
      if Admitted(t, ai, e, ok) {
        assert r.rows == before.rows + [EventStore.Row(before.nextId, e)];
        assert AdmittedEvents(t, es, reachable) == ai + [e];
      } else {
        assert r == before;
        assert AdmittedEvents(t, es, reachable) == ai;
      }
    }
  }

  /** The next log call of a batch succeeds exactly when its event is admitted
      against the events stored so far, given that the rows logged after those
      of `t` hold exactly those events. */
  lemma StoredIffAdmitted(t: EventStore.Table, before: EventStore.Table, stored: seq<EventStore.Event>,
                          e: EventStore.Event, ok: bool)
    requires EventStore.Valid(before)
    requires |before.rows| == |t.rows| + |stored|
    requires before.rows[..|t.rows|] == t.rows
    requires forall i :: 0 <= i < |stored| ==> before.rows[|t.rows| + i].event == stored[i]
    ensures EventStore.LogVehicleEvent(before, e, ok).1 <==> Admitted(t, stored, e, ok)
  {
    if EventStore.LogVehicleEvent(before, e, ok).1 {
      forall k | 0 <= k < |t.rows| ensures !EventStore.Collide(t.rows[k].event, e) {
        assert before.rows[k] == t.rows[k];
      }
      forall y | y in stored ensures !EventStore.Collide(y, e) {
        var m :| 0 <= m < |stored| && stored[m] == y;
        assert before.rows[|t.rows| + m].event == stored[m];
      }
    }
    if Admitted(t, stored, e, ok) {
      forall k | 0 <= k < |before.rows| ensures !EventStore.Collide(before.rows[k].event, e) {
        if k < |t.rows| {
          assert before.rows[k] == t.rows[k];
        } else {
          assert before.rows[k].event == stored[k - |t.rows|];
        }
      }
    }
  }

  /** When every event of a batch is admitted against the events before it,
      all are stored, in order. */
  lemma AllAdmittedAllStored(t: EventStore.Table, es: seq<EventStore.Event>, reachable: nat -> bool)
    requires EventStore.Valid(t)
    requires forall i :: 0 <= i < |es| ==> Admitted(t, es[..i], es[i], reachable(i))
    ensures var r := LogAll(t, es, reachable);
      && |r.rows| == |t.rows| + |es|
      && forall i :: 0 <= i < |es| ==> r.rows[|t.rows| + i].event == es[i]
  {
    AllAdmittedIdentity(t, es, reachable);
    LogAllStoresAdmitted(t, es, reachable);
  }

  /** A batch whose every event is admitted is its own admitted events. */
  lemma {:induction false} AllAdmittedIdentity(t: EventStore.Table, es: seq<EventStore.Event>, reachable: nat -> bool)
    requires forall i :: 0 <= i < |es| ==> Admitted(t, es[..i], es[i], reachable(i))
    ensures AdmittedEvents(t, es, reachable) == es
  {
    if |es| > 0 {
      var init := es[..|es| - 1];
      forall i | 0 <= i < |init| ensures Admitted(t, init[..i], init[i], reachable(i)) {
        assert init[..i] == es[..i] && init[i] == es[i];
      }
      AllAdmittedIdentity(t, init, reachable);
      assert es == init + [es[|es| - 1]];
    }
  }

  /** Each insert has its own connection: when the first of two sightings of
      the same plate cannot open the database, the second is still stored. */
  lemma RetryAfterFailedInsert(t: EventStore.Table, e: EventStore.Event, reachable: nat -> bool)
    requires EventStore.Valid(t) && e.videoFilename.Some? && e.licensePlate.Some?
    requires forall k :: 0 <= k < |t.rows| ==> !EventStore.Collide(t.rows[k].event, e)
    requires !reachable(0) && reachable(1)
    ensures LogAll(t, [e, e], reachable).rows == t.rows + [EventStore.Row(t.nextId, e)]
  {
    var first := LogAll(t, [e], reachable);
    assert [e][..0] == [] && LogAll(t, [], reachable) == t;
    assert first == EventStore.LogVehicleEvent(t, e, false).0 == t;
    assert [e, e][..1] == [e];
    assert LogAll(t, [e, e], reachable) == EventStore.LogVehicleEvent(first, e, true).0;
  }

  /** `_on_ai_detection`: one event per detection, all stamped with the same
      time and the recorder's current segment, with the raw (unsmoothed) fix;
      `reachable(i)` is whether the `i`-th detection's insert opens the database. */
  function OnAiDetection(t: EventStore.Table, detections: seq<Detector.Detection>, segment: Option<string>,
                         gps: Gps.Snapshot, now: Clock.DateTime, reachable: nat -> bool): (r: EventStore.Table)
    requires EventStore.Valid(t) && Clock.Valid(now)
    ensures EventStore.Valid(r)
    ensures |t.rows| <= |r.rows| <= |t.rows| + |detections|
    ensures r.rows[..|t.rows|] == t.rows
    ensures forall k :: |t.rows| <= k < |r.rows| ==>
      var e := r.rows[k].event;
      && e.timestamp == Clock.DateTimeText(now)
      && e.videoFilename == segment
      && e.lat == gps.latitude && e.lon == gps.longitude
      && exists i :: 0 <= i < |detections| && e == DetectionEvent(detections[i], Clock.DateTimeText(now), segment, gps)
    ensures var a := AdmittedEvents(t, DetectionEvents(detections, Clock.DateTimeText(now), segment, gps), reachable);
      && |r.rows| == |t.rows| + |a|
      && forall i :: 0 <= i < |a| ==> r.rows[|t.rows| + i].event == a[i]
  {
    var es := DetectionEvents(detections, Clock.DateTimeText(now), segment, gps);
    LogAllStoresAdmitted(t, es, reachable);
    DetectionEventsFrom(detections, Clock.DateTimeText(now), segment, gps);
    LogAll(t, es, reachable)
  }

  /** Every event of a pass carries the shared fields and comes from a detection. */
  lemma DetectionEventsFrom(ds: seq<Detector.Detection>, timestamp: string, segment: Option<string>, gps: Gps.Snapshot)
    ensures forall e :: e in DetectionEvents(ds, timestamp, segment, gps) ==>
      && e.timestamp == timestamp
      && e.videoFilename == segment
      && e.lat == gps.latitude && e.lon == gps.longitude
      && exists i :: 0 <= i < |ds| && e == DetectionEvent(ds[i], timestamp, segment, gps)
  {
    var es := DetectionEvents(ds, timestamp, segment, gps);
    forall e | e in es
      ensures exists i :: 0 <= i < |ds| && e == DetectionEvent(ds[i], timestamp, segment, gps)
    {
      var i :| 0 <= i < |es| && es[i] == e;
    }
  }

  /** With a segment and every insert reaching the database, every detection
      is stored, in order, when no two detections share a plate and no stored
      row already has this time, this segment and one of their plates. */
  lemma OnAiDetectionAllStored(t: EventStore.Table, detections: seq<Detector.Detection>, segment: Option<string>,
                               gps: Gps.Snapshot, now: Clock.DateTime, reachable: nat -> bool)
    requires EventStore.Valid(t) && Clock.Valid(now) && segment.Some?
    requires forall i :: 0 <= i < |detections| ==> reachable(i)
    requires forall i, j :: 0 <= i < j < |detections| && detections[i].licensePlate.Some? ==>
      detections[i].licensePlate != detections[j].licensePlate
    requires forall i, k :: 0 <= i < |detections| && 0 <= k < |t.rows| && detections[i].licensePlate.Some? ==>
      t.rows[k].event.licensePlate != detections[i].licensePlate
      || t.rows[k].event.timestamp != Clock.DateTimeText(now) || t.rows[k].event.videoFilename != segment
    ensures var r := OnAiDetection(t, detections, segment, gps, now, reachable);
      && |r.rows| == |t.rows| + |detections|
      && forall i :: 0 <= i < |detections| ==>
           r.rows[|t.rows| + i].event == DetectionEvent(detections[i], Clock.DateTimeText(now), segment, gps)
  {
    var es := DetectionEvents(detections, Clock.DateTimeText(now), segment, gps);
    forall i | 0 <= i < |es| ensures Admitted(t, es[..i], es[i], reachable(i)) {
      forall x | x in es[..i] ensures !EventStore.Collide(x, es[i]) {
        var j :| 0 <= j < i && es[j] == x;
      }
    }
    AllAdmittedAllStored(t, es, reachable);
  }

  /** Without a current segment every insert violates NOT NULL: nothing is stored. */
  lemma {:induction false} NoSegmentStoresNothing(t: EventStore.Table, es: seq<EventStore.Event>, reachable: nat -> bool)
    requires EventStore.Valid(t)
    requires forall i :: 0 <= i < |es| ==> es[i].videoFilename.None?
    ensures LogAll(t, es, reachable) == t
  {
    if |es| > 0 {
      NoSegmentStoresNothing(t, es[..|es| - 1], reachable);
    }
  }

  /** With a segment and every insert reaching the database, plate-less
      sightings are all stored, one row per detection in detection order. */
  lemma {:induction false} PlatelessAllStored(t: EventStore.Table, es: seq<EventStore.Event>, reachable: nat -> bool)
    requires EventStore.Valid(t)
    requires forall i :: 0 <= i < |es| ==> reachable(i)
    requires forall i :: 0 <= i < |es| ==> es[i].videoFilename.Some? && es[i].licensePlate.None?
    ensures var r := LogAll(t, es, reachable);
      && |r.rows| == |t.rows| + |es|
      && forall i :: 0 <= i < |es| ==> r.rows[|t.rows| + i].event == es[i]
  {
    if |es| > 0 {
      var init := es[..|es| - 1];
      PlatelessAllStored(t, init, reachable);
      var before := LogAll(t, init, reachable);
      assert reachable(|es| - 1);
      EventStore.PlatelessAlwaysStored(before, es[|es| - 1]);
      var r := LogAll(t, es, reachable);
      assert r.rows == before.rows + [EventStore.Row(before.nextId, es[|es| - 1])];
      forall i | 0 <= i < |es|
        ensures r.rows[|t.rows| + i].event == es[i]
      {
        if i < |es| - 1 {
          assert r.rows[|t.rows| + i] == before.rows[|t.rows| + i];
          assert init[i] == es[i];
        }
      }
    }
  }

  /** `_on_ai_detection` on its inputs: nothing is stored without a segment;
      with one, plate-less detections whose inserts all reach the database
      each add a row. */
  lemma OnAiDetectionStores(t: EventStore.Table, detections: seq<Detector.Detection>, segment: Option<string>,
                            gps: Gps.Snapshot, now: Clock.DateTime, reachable: nat -> bool)
    requires EventStore.Valid(t) && Clock.Valid(now)
    ensures segment.None? ==> OnAiDetection(t, detections, segment, gps, now, reachable) == t
    ensures segment.Some? && (forall i :: 0 <= i < |detections| ==> reachable(i) && detections[i].licensePlate.None?) ==>
      |OnAiDetection(t, detections, segment, gps, now, reachable).rows| == |t.rows| + |detections|
  {
    var es := DetectionEvents(detections, Clock.DateTimeText(now), segment, gps);
    if segment.None? {
      NoSegmentStoresNothing(t, es, reachable);
    } else if forall i :: 0 <= i < |detections| ==> reachable(i) && detections[i].licensePlate.None? {
      PlatelessAllStored(t, es, reachable);
    }
  }

  /** The overlay and the event store describe the same vehicle differently
      when only the color is missing: "Unknown" on the frame, the attributes in the store. */
  lemma DescriptionsDiffer(d: Detector.Detection)
    requires !Truthy(d.color) && Truthy(d.make)
    ensures OverlayDescription(d) == "Unknown"
    ensures CarDescription(d) == Attributes(d) && CarDescription(d) != "Unknown"
  {
    var a := Attributes(d);
    assert a[|StrOf(d.color)|] == ' ';
    assert |a| >= 2;
  }

  // ---------------------------------------------------------------------
  // Start-up
  // ---------------------------------------------------------------------

  /** The application and the component states it starts. */
  datatype Components<F> = Components(
    running: bool,
    gps: Gps.State,
    recorder: Recorder.State,
    detector: Detector.State<F>,
    cleanupRunning: bool)

  /** `start`: `serialOpens` is whether the GPS port opens. The GPS, detector
      and cleanup failures are only warnings; the wait for a fix only logs.
      Only an already running application or a recorder that does not start
      make it fail. */
  function Start<F>(app: Components<F>, serialOpens: bool): (r: (Components<F>, bool))
    ensures r.1 <==> !app.running && !app.recorder.running
    ensures app.running ==> r.0 == app
    ensures r.1 ==> r.0.running && r.0.recorder.running && r.0.detector.running && r.0.cleanupRunning
    ensures !r.1 ==> r.0.running == app.running
  {
    if app.running then (app, false)
    else
      var (gps, _) := Gps.Start(app.gps, serialOpens);
      var (recorder, recorderOk) := Recorder.Start(app.recorder);
      if !recorderOk then (app.(gps := gps), false)
      else
        var (detector, _) := Detector.Start(app.detector);
        var (cleanupRunning, _) := Cleanup.Start(app.cleanupRunning);
        (Components(true, gps, recorder, detector, cleanupRunning), true)
  }

  /** Whether the GPS port opens has no bearing on whether start-up succeeds. */
  lemma StartIgnoresGps<F>(app: Components<F>)
    ensures Start(app, true).1 == Start(app, false).1
  {
  }

  /** A second start after a successful one fails and changes nothing. */
  lemma StartOnce<F>(app: Components<F>, a: bool, b: bool)
    requires Start(app, a).1
    ensures Start(Start(app, a).0, b) == (Start(app, a).0, false)
  {
  }
}

=== FILE: cleanup.dfy ===
/** The retention policy of the disk cleanup manager: age-based deletion,
    size-based deletion of the oldest segments, the oldest-video query, the
    sorted video listing, and the low-space trigger. The video directory is
    its listing: a sequence of entries in `os.listdir` order, or `None` when
    the directory does not exist. File system outcomes live in the entries. */
module Cleanup {
  import opened Common
  import Utils

  /** `DiskCleanupManager()` defaults. */
  const DefaultMinFreePercent: real := 10.0
  const DefaultRetentionDays: nat := 30
  /** `cleanup_by_size(target_free_percent=15.0)`. */
  const DefaultTargetFreePercent: real := 15.0
  const SecondsPerDay: real := 86400.0
  const VideoSuffix := ".mp4"

  /** A directory entry: its modification time (seconds since the epoch), its
      size, whether stat calls on it succeed, and whether `os.remove` succeeds. */
  datatype Entry = Entry(name: string, mtime: real, size: nat, statOk: bool, removable: bool)

  predicate IsVideo(e: Entry) {
    EndsWith(e.name, VideoSuffix)
  }

  /** The names of a listing are distinct. */
  predicate UniqueNames(es: seq<Entry>) {
    forall i, j :: 0 <= i < j < |es| ==> es[i].name != es[j].name
  }

  // ---------------------------------------------------------------------
  // Disk usage and the low-space trigger
  // ---------------------------------------------------------------------

  /** `get_disk_usage`: `None` (the empty dictionary) when `shutil.disk_usage` raises. */
  function DiskUsage(stat: Option<Utils.DiskStat>): (u: Option<Utils.Usage>)
    ensures u.None? <==> stat.None?
    ensures u.Some? ==> u.value.percentUsed + u.value.percentFree == 100.0
    ensures u.Some? && stat.value.total > 0 ==>
      u.value.percentUsed * stat.value.total as real == stat.value.used as real * 100.0
    ensures u.Some? && stat.value.total == 0 ==> u.value.percentFree == 100.0
  {
    match stat
    case None => None
    case Some(st) => Some(Utils.ComputeUsage(st))
  }

  /** `usage.get('percent_free', 0)` on a possibly empty usage dictionary. */
  function PercentFree(u: Option<Utils.Usage>): real {
    if u.Some? then u.value.percentFree else 0.0
  }

  datatype Settings = Settings(minFreePercent: real, retentionDays: int)

  /** The low-space trigger of `check_disk_space`: a usage was read and its
      free share is strictly below the minimum. */
  predicate LowSpace(s: Settings, usage: Option<Utils.Usage>) {
    usage.Some? && usage.value.percentFree < s.minFreePercent
  }

  /** Exactly at the minimum free share nothing is triggered. */
  lemma AtThresholdNoCleanup(s: Settings, u: Utils.Usage)
    requires u.percentFree == s.minFreePercent
    ensures !LowSpace(s, Some(u))
  {
  }

  // ---------------------------------------------------------------------
  // Age-based deletion
  // ---------------------------------------------------------------------

  /** An entry `_cleanup_videos` deletes: a video that can be inspected and
      removed, whose modification time, read as a naive local wall-clock time
      by `local`, is strictly before the cutoff. */
  predicate Expired(e: Entry, cutoff: real, local: real -> real) {
    IsVideo(e) && e.statOk && local(e.mtime) < cutoff && e.removable
  }

  /** The listing after age-based deletion, in listing order. */
  function Survivors(es: seq<Entry>, cutoff: real, local: real -> real): (r: seq<Entry>)
    ensures |r| <= |es|
  {
    if |es| == 0 then []
    else
      var last := es[|es| - 1];
      Survivors(es[..|es| - 1], cutoff, local) + (if Expired(last, cutoff, local) then [] else [last])
  }

  /** The survivors are exactly the entries that are not expired; in particular
      every non-video and every recent video is left alone. */
  lemma {:induction false} SurvivorsMeaning(es: seq<Entry>, cutoff: real, local: real -> real)
    ensures forall e :: e in Survivors(es, cutoff, local) <==> e in es && !Expired(e, cutoff, local)
  {
    if |es| > 0 {
      var init := es[..|es| - 1];
      SurvivorsMeaning(init, cutoff, local);
      assert es == init + [es[|es| - 1]];
    }
  }

  /** Something is deleted exactly when some entry of the listing is expired. */
  lemma {:induction false} SurvivorsShrink(es: seq<Entry>, cutoff: real, local: real -> real)
    ensures |Survivors(es, cutoff, local)| < |es| <==> exists k :: 0 <= k < |es| && Expired(es[k], cutoff, local)
  {
    if |es| > 0 {
      var init := es[..|es| - 1];
      SurvivorsShrink(init, cutoff, local);
      if exists k :: 0 <= k < |init| && Expired(init[k], cutoff, local) {
        var k :| 0 <= k < |init| && Expired(init[k], cutoff, local);
        assert es[k] == init[k];
      }
      if exists k :: 0 <= k < |es| && Expired(es[k], cutoff, local) {
        var k :| 0 <= k < |es| && Expired(es[k], cutoff, local);
        if k < |init| {
          assert init[k] == es[k];
        }
      }
    }
  }

  /** `_cleanup_videos`: the number deleted and the directory afterwards.
      A missing directory deletes nothing; a file that cannot be inspected or
      removed is skipped. */
  method CleanupVideos(dir: Option<seq<Entry>>, cutoff: real, local: real -> real) returns (deleted: nat, after: Option<seq<Entry>>)
    ensures dir.None? ==> deleted == 0 && after.None?
    ensures dir.Some? ==> after == Some(Survivors(dir.value, cutoff, local))
    ensures dir.Some? ==> deleted == |dir.value| - |after.value|
  {
    if dir.None? {
      return 0, None;
    }
    var es := dir.value;
    var kept: seq<Entry> := [];
    deleted := 0;
    var i := 0;
    while i < |es|
      invariant 0 <= i <= |es|
      invariant kept == Survivors(es[..i], cutoff, local)
      invariant deleted == i - |kept|
    {
      assert es[..i + 1][..i] == es[..i];
      if Expired(es[i], cutoff, local) {
        deleted := deleted + 1;
      } else {
        kept := kept + [es[i]];
      }
      i := i + 1;
    }
    assert es[..i] == es;
    return deleted, Some(kept);
  }

  /** `cleanup_old_files`: the cutoff is `days` (default: the retention period)
      before the local wall-clock time of `now`, in naive local time, as
      `datetime.now() - timedelta(days=days)` is; `local` maps epoch seconds
      to local wall-clock seconds. `dbDeleted` is what the database cleanup
      reports. True iff a database record or an expired video was deleted. */
  method CleanupOldFiles(s: Settings, days: Option<int>, now: real, local: real -> real,
                         dir: Option<seq<Entry>>, dbDeleted: nat)
    returns (cleaned: bool, after: Option<seq<Entry>>)
    ensures var cutoff := local(now) - days.GetOr(s.retentionDays) as real * SecondsPerDay;
      && (dir.None? ==> after.None?)
      && (dir.Some? ==> after == Some(Survivors(dir.value, cutoff, local)))
      && (cleaned <==> dbDeleted > 0 || (dir.Some? && exists k :: 0 <= k < |dir.value| && Expired(dir.value[k], cutoff, local)))
  {
    var cutoff := local(now) - days.GetOr(s.retentionDays) as real * SecondsPerDay;
    var videos;
    videos, after := CleanupVideos(dir, cutoff, local);
    if dir.Some? {
      SurvivorsShrink(dir.value, cutoff, local);
    }
    cleaned := videos > 0 || dbDeleted > 0;
  }

  /** `check_disk_space`: without low space nothing is deleted and the answer
      is false; with low space the age-based cleanup runs with the retention
      period, and its answer is returned. */
  method CheckDiskSpace(s: Settings, usage: Option<Utils.Usage>, now: real, local: real -> real,
                        dir: Option<seq<Entry>>, dbDeleted: nat)
    returns (cleaned: bool, after: Option<seq<Entry>>)
    ensures !LowSpace(s, usage) ==> !cleaned && after == dir
    ensures LowSpace(s, usage) ==>
      var cutoff := local(now) - s.retentionDays as real * SecondsPerDay;
      && (dir.None? ==> after.None?)
      && (dir.Some? ==> after == Some(Survivors(dir.value, cutoff, local)))
      && (cleaned <==> dbDeleted > 0 || (dir.Some? && exists k :: 0 <= k < |dir.value| && Expired(dir.value[k], cutoff, local)))
  {
    if usage.None? {
      return false, dir;
    }
    if usage.value.percentFree < s.minFreePercent {
      cleaned, after := CleanupOldFiles(s, None, now, local, dir, dbDeleted);
    } else {
      cleaned, after := false, dir;
    }
  }

  // ---------------------------------------------------------------------
  // Oldest video and size-based deletion
  // ---------------------------------------------------------------------

  /** Index of the first video with the least modification time among `es[..n]`
      (Python's `min` keeps the first of equal keys), if there is a video. */
  function FirstOldest(es: seq<Entry>, n: nat): (r: Option<nat>)
    requires n <= |es|
    ensures r.Some? ==> r.value < n && IsVideo(es[r.value])
    ensures r.Some? ==> forall k :: 0 <= k < n && IsVideo(es[k]) ==> es[r.value].mtime <= es[k].mtime
    ensures r.Some? ==> forall k :: 0 <= k < r.value && IsVideo(es[k]) ==> es[r.value].mtime < es[k].mtime
    ensures r.None? <==> forall k :: 0 <= k < n ==> !IsVideo(es[k])
  {
    if n == 0 then None
    else
      var prev := FirstOldest(es, n - 1);
      if !IsVideo(es[n - 1]) then prev
      else if prev.Some? && es[prev.value].mtime <= es[n - 1].mtime then prev
      else Some(n - 1)
  }

  /** Every video can be inspected. */
  predicate VideosReadable(es: seq<Entry>) {
    forall k :: 0 <= k < |es| && IsVideo(es[k]) ==> es[k].statOk
  }

  /** `_get_oldest_video`: `None` for a missing directory, a directory without
      videos, or when some video cannot be inspected (the error is caught). */
  function GetOldestVideo(dir: Option<seq<Entry>>): (r: Option<nat>)
    ensures r.Some? ==> dir.Some? && r.value < |dir.value| && IsVideo(dir.value[r.value])
    ensures r.Some? ==> forall k :: 0 <= k < |dir.value| && IsVideo(dir.value[k]) ==>
      dir.value[r.value].mtime <= dir.value[k].mtime
    ensures r.None? <==> dir.None? || !VideosReadable(dir.value)
                         || forall k :: 0 <= k < |dir.value| ==> !IsVideo(dir.value[k])
  {
    if dir.None? || !VideosReadable(dir.value) then None
    else FirstOldest(dir.value, |dir.value|)
  }

  function RemoveAt(es: seq<Entry>, i: nat): (r: seq<Entry>)
    requires i < |es|
    ensures |r| == |es| - 1
    ensures multiset(r) + multiset{es[i]} == multiset(es)
  {
    assert es == es[..i] + [es[i]] + es[i + 1..];
    es[..i] + es[i + 1..]
  }

  /** How `cleanup_by_size` ended: the target was met, no video was left to
      delete, or deleting raised and the loop was abandoned. */
  datatype Stop = TargetMet | NoVideo | Aborted

  datatype SizeCleanup = SizeCleanup(deleted: seq<Entry>, remaining: seq<Entry>, stop: Stop)

  /** `cleanup_by_size` on an existing directory: delete the oldest video until
      the free share reaches the target. `usageOf` is the disk usage a
      directory content leaves (`None` when it cannot be read, counting as 0%
      free). Each round removes one entry, which bounds the loop. */
  function CleanupBySize(target: real, es: seq<Entry>, usageOf: seq<Entry> -> Option<Utils.Usage>): (r: SizeCleanup)
    ensures multiset(r.remaining) + multiset(r.deleted) == multiset(es)
    ensures forall d :: d in r.deleted ==> IsVideo(d)
    ensures r.stop == TargetMet ==> PercentFree(usageOf(r.remaining)) >= target
    ensures r.stop == NoVideo ==>
      && PercentFree(usageOf(r.remaining)) < target
      && (!VideosReadable(r.remaining) || forall k :: 0 <= k < |r.remaining| ==> !IsVideo(r.remaining[k]))
    ensures r.stop == Aborted ==> PercentFree(usageOf(r.remaining)) < target
    ensures r.stop == Aborted ==>
      var o := GetOldestVideo(Some(r.remaining));
      o.Some? && !r.remaining[o.value].removable
    ensures PercentFree(usageOf(es)) >= target ==> r == SizeCleanup([], es, TargetMet)
    ensures |r.deleted| > 0 ==>
      var o := GetOldestVideo(Some(es));
      && PercentFree(usageOf(es)) < target
      && o.Some? && r.deleted[0] == es[o.value]
    decreases |es|
  {
    if PercentFree(usageOf(es)) >= target then SizeCleanup([], es, TargetMet)
    else match GetOldestVideo(Some(es))
      case None => SizeCleanup([], es, NoVideo)
      case Some(i) =>
        if !es[i].removable then SizeCleanup([], es, Aborted)
        else
          var rest := CleanupBySize(target, RemoveAt(es, i), usageOf);
          SizeCleanup([es[i]] + rest.deleted, rest.remaining, rest.stop)
  }

  /** Oldest first: every deleted video is at least as old as every video left behind. */
  lemma {:induction false} CleanupBySizeOldestFirst(target: real, es: seq<Entry>,
                                                    usageOf: seq<Entry> -> Option<Utils.Usage>)
    ensures var r := CleanupBySize(target, es, usageOf);
      forall d, e :: d in r.deleted && e in r.remaining && IsVideo(e) ==> d.mtime <= e.mtime
    decreases |es|
  {
    var r := CleanupBySize(target, es, usageOf);
    if PercentFree(usageOf(es)) < target && GetOldestVideo(Some(es)).Some? {
      var i := GetOldestVideo(Some(es)).value;
      if es[i].removable {
        var rest := RemoveAt(es, i);
        CleanupBySizeOldestFirst(target, rest, usageOf);
        var sub := CleanupBySize(target, rest, usageOf);
        assert r.deleted == [es[i]] + sub.deleted && r.remaining == sub.remaining;
        RemainingFrom(target, rest, usageOf);
        forall e | e in sub.remaining && IsVideo(e) ensures es[i].mtime <= e.mtime {
          RemoveAtFrom(es, i, e);
          var k :| 0 <= k < |es| && es[k] == e;
        }
      }
    }
  }

  /** What is left by the size-based cleanup was in the directory. */
  lemma RemainingFrom(target: real, es: seq<Entry>, usageOf: seq<Entry> -> Option<Utils.Usage>)
    ensures forall e :: e in CleanupBySize(target, es, usageOf).remaining ==> e in es
  {
    var r := CleanupBySize(target, es, usageOf);
    PartFrom(r.remaining, r.deleted, es);
  }

  lemma PartFrom(a: seq<Entry>, b: seq<Entry>, c: seq<Entry>)
    requires multiset(a) + multiset(b) == multiset(c)
    ensures forall e :: e in a ==> e in c
  {
    forall e | e in a ensures e in c {
      assert multiset(a)[e] > 0;
      assert multiset(c)[e] == multiset(a)[e] + multiset(b)[e];
    }
  }

  lemma RemoveAtFrom(es: seq<Entry>, i: nat, e: Entry)
    requires i < |es|
    ensures e in RemoveAt(es, i) ==> e in es
  {
    assert multiset(RemoveAt(es, i)) <= multiset(es);
    if e in RemoveAt(es, i) {
      assert e in multiset(RemoveAt(es, i));
    }
  }

  /** `cleanup_by_size`: the number of files deleted; nothing for a missing directory. */
  function CleanupBySizeCount(target: real, dir: Option<seq<Entry>>, usageOf: seq<Entry> -> Option<Utils.Usage>): (n: nat)
    ensures dir.None? ==> n == 0
    ensures dir.Some? ==> n == |dir.value| - |CleanupBySize(target, dir.value, usageOf).remaining|
  {
    if dir.None? then 0
    else
      var r := CleanupBySize(target, dir.value, usageOf);
      assert |r.remaining| + |r.deleted| == |dir.value| by {
        assert |multiset(r.remaining) + multiset(r.deleted)| == |multiset(dir.value)|;
      }
      |r.deleted|
  }

  // ---------------------------------------------------------------------
  // Video listing
  // ---------------------------------------------------------------------

  /** One element of `get_video_list`; `sizeMb` is kept exact (the rounding to
      two decimals is not modelled). */
  datatype VideoInfo = VideoInfo(filename: string, size: nat, modifiedTime: string, sizeMb: real)

  /** The listing's entry for a video; `render` is the local-time formatting
      "%Y-%m-%d %H:%M:%S" of a modification time. */
  function Info(e: Entry, render: real -> string): VideoInfo {
    VideoInfo(e.name, e.size, render(e.mtime), e.size as real / (1024 * 1024) as real)
  }

  /** The videos that can be inspected, in listing order. */
  function Infos(es: seq<Entry>, render: real -> string): (r: seq<VideoInfo>)
    ensures |r| <= |es|
    ensures forall v :: v in r <==> exists e :: e in es && IsVideo(e) && e.statOk && v == Info(e, render)
  {
    if |es| == 0 then []
    else
      var rest := Infos(es[1..], render);
      assert forall e :: e in es <==> e == es[0] || e in es[1..];
      if IsVideo(es[0]) && es[0].statOk then [Info(es[0], render)] + rest else rest
  }

  /** The sort keys `get_video_list` knows; any other value leaves the order alone. */
  datatype SortKey = ByDate | BySize | Unsorted

  function ParseSortKey(sortBy: string): (k: SortKey)
    ensures k == ByDate <==> sortBy == "date"
    ensures k == BySize <==> sortBy == "size"
  {
    if sortBy == "date" then ByDate else if sortBy == "size" then BySize else Unsorted
  }

  /** `a` may precede `b` in the sorted listing. */
  predicate InOrder(a: VideoInfo, b: VideoInfo, key: SortKey, descending: bool) {
    match key
    case ByDate => if descending then LexLe(b.modifiedTime, a.modifiedTime) else LexLe(a.modifiedTime, b.modifiedTime)
    case BySize => if descending then b.size <= a.size else a.size <= b.size
    case Unsorted => true
  }

  lemma InOrderTotal(a: VideoInfo, b: VideoInfo, key: SortKey, descending: bool)
    ensures InOrder(a, b, key, descending) || InOrder(b, a, key, descending)
  {
    if key == ByDate {
      LexLeTotal(a.modifiedTime, b.modifiedTime);
    }
  }

  lemma InOrderTransitive(a: VideoInfo, b: VideoInfo, c: VideoInfo, key: SortKey, descending: bool)
    requires InOrder(a, b, key, descending) && InOrder(b, c, key, descending)
    ensures InOrder(a, c, key, descending)
  {
    if key == ByDate {
      if descending {
        LexLeTransitive(c.modifiedTime, b.modifiedTime, a.modifiedTime);
      } else {
        LexLeTransitive(a.modifiedTime, b.modifiedTime, c.modifiedTime);
      }
    }
  }

  predicate Sorted(vs: seq<VideoInfo>, key: SortKey, descending: bool) {
    forall i, j :: 0 <= i < j < |vs| ==> InOrder(vs[i], vs[j], key, descending)
  }

  /** Inserts `x` after the leading elements that may precede it (which keeps
      equal keys in arrival order). */
  function Insert(vs: seq<VideoInfo>, x: VideoInfo, key: SortKey, descending: bool): (r: seq<VideoInfo>)
    ensures multiset(r) == multiset(vs) + multiset{x}
  {
    if |vs| == 0 then [x]
    else if InOrder(vs[0], x, key, descending) then
      assert vs == [vs[0]] + vs[1..];
      [vs[0]] + Insert(vs[1..], x, key, descending)
    else [x] + vs
  }

  /** Inserting into a sorted listing keeps it sorted. */
  lemma {:induction false} InsertSorted(vs: seq<VideoInfo>, x: VideoInfo, key: SortKey, descending: bool)
    requires Sorted(vs, key, descending)
    ensures Sorted(Insert(vs, x, key, descending), key, descending)
  {
    if |vs| > 0 {
      if InOrder(vs[0], x, key, descending) {
        var rest := Insert(vs[1..], x, key, descending);
        InsertSorted(vs[1..], x, key, descending);
        forall k | 0 <= k < |rest| ensures InOrder(vs[0], rest[k], key, descending) {
          assert rest[k] in multiset(rest);
          if rest[k] != x {
            assert rest[k] in multiset(vs[1..]);
            var m :| 0 <= m < |vs[1..]| && vs[1..][m] == rest[k];
            assert vs[m + 1] == rest[k];
          }
        }
        ConsSorted(vs[0], rest, key, descending);
      } else {
        InOrderTotal(vs[0], x, key, descending);
        forall k | 0 <= k < |vs| ensures InOrder(x, vs[k], key, descending) {
          if k > 0 {
            InOrderTransitive(x, vs[0], vs[k], key, descending);
          }
        }
        ConsSorted(x, vs, key, descending);
      }
    }
  }

  /** A head that may precede every element of a sorted listing keeps it sorted. */
  lemma ConsSorted(h: VideoInfo, rest: seq<VideoInfo>, key: SortKey, descending: bool)
    requires Sorted(rest, key, descending)
    requires forall k :: 0 <= k < |rest| ==> InOrder(h, rest[k], key, descending)
    ensures Sorted([h] + rest, key, descending)
  {
    var r := [h] + rest;
    forall i, j | 0 <= i < j < |r| ensures InOrder(r[i], r[j], key, descending) {
      if i == 0 {
        assert r[j] == rest[j - 1];
      } else {
        assert r[i] == rest[i - 1] && r[j] == rest[j - 1];
      }
    }
  }

  /** An insertion sort. Like Python's `list.sort`, also with `reverse=True`,
      it is stable: see `SortVideosStable`. */
  function SortVideos(vs: seq<VideoInfo>, key: SortKey, descending: bool): (r: seq<VideoInfo>)
    ensures multiset(r) == multiset(vs)
    ensures Sorted(r, key, descending)
  {
    if |vs| == 0 then []
    else
      assert vs == vs[..|vs| - 1] + [vs[|vs| - 1]];
      InsertSorted(SortVideos(vs[..|vs| - 1], key, descending), vs[|vs| - 1], key, descending);
      Insert(SortVideos(vs[..|vs| - 1], key, descending), vs[|vs| - 1], key, descending)
  }

  /** `a` and `b` have the same sort key. */
  predicate SameKey(a: VideoInfo, b: VideoInfo, key: SortKey) {
    match key
    case ByDate => a.modifiedTime == b.modifiedTime
    case BySize => a.size == b.size
    case Unsorted => true
  }

  /** The videos of `vs` whose key equals that of `v`, in `vs` order. */
  function KeyClass(vs: seq<VideoInfo>, v: VideoInfo, key: SortKey): seq<VideoInfo> {
    Select(vs, (e: VideoInfo) => SameKey(e, v, key))
  }

  /** Equal keys may precede each other. */
  lemma SameKeyInOrder(a: VideoInfo, b: VideoInfo, key: SortKey, descending: bool)
    ensures SameKey(a, b, key) ==> InOrder(a, b, key, descending)
  {
    LexLeReflexive(a.modifiedTime);
  }

  /** Behind a head that `x` may not follow, a sorted listing holds nothing
      with the key of `x`. */
  lemma BehindNotSame(h: VideoInfo, e: VideoInfo, x: VideoInfo, v: VideoInfo, key: SortKey, descending: bool)
    ensures InOrder(h, e, key, descending) && !InOrder(h, x, key, descending) && SameKey(x, v, key)
            ==> !SameKey(e, v, key)
  {
    if InOrder(h, e, key, descending) && SameKey(e, v, key) && SameKey(x, v, key) {
      SameKeyInOrder(e, x, key, descending);
      InOrderTransitive(h, e, x, key, descending);
    }
  }

  /** The class of a listing with a known head. */
  lemma KeyClassCons(h: VideoInfo, rest: seq<VideoInfo>, v: VideoInfo, key: SortKey)
    ensures KeyClass([h] + rest, v, key) == (if SameKey(h, v, key) then [h] else []) + KeyClass(rest, v, key)
  {
    SelectCons(h, rest, (e: VideoInfo) => SameKey(e, v, key));
  }

  lemma KeyClassAppend(a: seq<VideoInfo>, b: seq<VideoInfo>, v: VideoInfo, key: SortKey)
    ensures KeyClass(a + b, v, key) == KeyClass(a, v, key) + KeyClass(b, v, key)
  {
    SelectAppend(a, b, (e: VideoInfo) => SameKey(e, v, key));
  }

  /** A listing without the key of `v` has an empty class for it. */
  lemma KeyClassEmpty(s: seq<VideoInfo>, v: VideoInfo, key: SortKey)
    ensures (forall k :: 0 <= k < |s| ==> !SameKey(s[k], v, key)) ==> KeyClass(s, v, key) == []
  {
    SelectNone(s, (e: VideoInfo) => SameKey(e, v, key));
  }

  /** The tail of a sorted listing is sorted. */
  lemma SortedTail(s: seq<VideoInfo>, key: SortKey, descending: bool)
    requires |s| > 0 && Sorted(s, key, descending)
    ensures Sorted(s[1..], key, descending)
  {
    forall i, j | 0 <= i < j < |s[1..]| ensures InOrder(s[1..][i], s[1..][j], key, descending) {
      assert s[1..][i] == s[i + 1] && s[1..][j] == s[j + 1];
    }
  }

  /** When `x` may not follow the head, nothing in a sorted listing has its key. */
  lemma NoneWithKeyOf(s: seq<VideoInfo>, x: VideoInfo, v: VideoInfo, key: SortKey, descending: bool)
    requires |s| > 0 && Sorted(s, key, descending) && !InOrder(s[0], x, key, descending)
    ensures SameKey(x, v, key) ==> KeyClass(s, v, key) == []
  {
    SameKeyInOrder(s[0], s[0], key, descending);
    forall k | 0 <= k < |s| ensures !SameKey(s[k], v, key) || !SameKey(x, v, key) {
      BehindNotSame(s[0], s[k], x, v, key, descending);
    }
    KeyClassEmpty(s, v, key);
  }

  /** Inserting `x` into a sorted listing puts it after every video with its key. */
  lemma {:induction false} InsertKeyClass(s: seq<VideoInfo>, x: VideoInfo, v: VideoInfo, key: SortKey, descending: bool)
    requires Sorted(s, key, descending)
    ensures KeyClass(Insert(s, x, key, descending), v, key)
         == KeyClass(s, v, key) + (if SameKey(x, v, key) then [x] else [])
  {
    var tail := if SameKey(x, v, key) then [x] else [];
    if |s| == 0 {
      KeyClassCons(x, [], v, key);
      assert Insert(s, x, key, descending) == [x] + [];
      assert KeyClass(s, v, key) == [];
    } else if InOrder(s[0], x, key, descending) {
      var rest := Insert(s[1..], x, key, descending);
      var head := if SameKey(s[0], v, key) then [s[0]] else [];
      SortedTail(s, key, descending);
      InsertKeyClass(s[1..], x, v, key, descending);
      assert KeyClass(rest, v, key) == KeyClass(s[1..], v, key) + tail;
      KeyClassCons(s[0], rest, v, key);
      assert Insert(s, x, key, descending) == [s[0]] + rest;
      assert KeyClass(Insert(s, x, key, descending), v, key) == head + (KeyClass(s[1..], v, key) + tail);
      KeyClassCons(s[0], s[1..], v, key);
      HeadTail(s);
      ConcatAssoc(head, KeyClass(s[1..], v, key), tail);
    } else {
      NoneWithKeyOf(s, x, v, key, descending);
      KeyClassCons(x, s, v, key);
      assert Insert(s, x, key, descending) == [x] + s;
      var k := KeyClass(s, v, key);
      assert KeyClass(Insert(s, x, key, descending), v, key) == tail + k;
      if SameKey(x, v, key) {
        assert k == [];
        assert tail + k == k + tail;
      } else {
        assert tail == [];
        assert tail + k == k + tail;
      }
    }
  }

  /** Stability: for every key, the sorted listing holds the videos with that
      key in the order they came in. */
  lemma {:induction false} SortVideosStable(vs: seq<VideoInfo>, v: VideoInfo, key: SortKey, descending: bool)
    ensures KeyClass(SortVideos(vs, key, descending), v, key) == KeyClass(vs, v, key)
  {
    if |vs| > 0 {
      var init := vs[..|vs| - 1];
      var x := vs[|vs| - 1];
      SortVideosStable(init, v, key, descending);
      InsertKeyClass(SortVideos(init, key, descending), x, v, key, descending);
      assert vs == init + [x];
      KeyClassAppend(init, [x], v, key);
      KeyClassCons(x, [], v, key);
      assert [x] + [] == [x];
    }
  }

  /** `get_video_list`: the inspectable videos, sorted by the modification time
      text for "date" or the size for "size", largest first when descending;
      for any other key, in listing order. */
  function GetVideoList(dir: Option<seq<Entry>>, sortBy: string, descending: bool, render: real -> string): (r: seq<VideoInfo>)
    ensures dir.None? ==> r == []
    ensures dir.Some? ==> multiset(r) == multiset(Infos(dir.value, render))
    ensures ParseSortKey(sortBy) == ByDate ==>
      forall i, j :: 0 <= i < j < |r| ==>
        if descending then LexLe(r[j].modifiedTime, r[i].modifiedTime) else LexLe(r[i].modifiedTime, r[j].modifiedTime)
    ensures ParseSortKey(sortBy) == BySize ==>
      forall i, j :: 0 <= i < j < |r| ==> if descending then r[j].size <= r[i].size else r[i].size <= r[j].size
    ensures dir.Some? && ParseSortKey(sortBy) == Unsorted ==> r == Infos(dir.value, render)
  {
    if dir.None? then []
    else
      var vs := Infos(dir.value, render);
      var key := ParseSortKey(sortBy);
      if key == Unsorted then vs
      else
        var r := SortVideos(vs, key, descending);
        assert forall i, j :: 0 <= i < j < |r| ==> InOrder(r[i], r[j], key, descending);
        r
  }

  /** Videos with equal keys keep their listing order in `get_video_list`. */
  lemma GetVideoListStable(dir: Option<seq<Entry>>, sortBy: string, descending: bool, render: real -> string, v: VideoInfo)
    requires dir.Some?
    ensures var key := ParseSortKey(sortBy);
      KeyClass(GetVideoList(dir, sortBy, descending, render), v, key) == KeyClass(Infos(dir.value, render), v, key)
  {
    var key := ParseSortKey(sortBy);
    if key != Unsorted {
      SortVideosStable(Infos(dir.value, render), v, key, descending);
    }
  }

  // ---------------------------------------------------------------------
  // Lifecycle
  // ---------------------------------------------------------------------

  /** `start`: true only when the monitor was not already running. */
  function Start(running: bool): (r: (bool, bool))
    ensures r.0 && (r.1 <==> !running)
  {
    if running then (true, false) else (true, true)
  }
}

=== FILE: clock.dfy ===
/** Wall-clock readings and the texts the dashcam derives from them.
    `datetime.now()` is not modelled: callers pass a `DateTime` in. */
module Clock {
  import opened Common
  import opened Numbers

  datatype DateTime = DateTime(year: nat, month: nat, day: nat, hour: nat, minute: nat, second: nat)

  /** A reading whose fields fit their strftime widths (four-digit years). */
  predicate Valid(dt: DateTime) {
    && 1000 <= dt.year <= 9999
    && 1 <= dt.month <= 12
    && 1 <= dt.day <= 31
    && dt.hour < 24
    && dt.minute < 60
    && dt.second < 60
  }

  /** strftime("%Y%m%d-%H%M%S"): the segment stamp. */
  function Stamp(dt: DateTime): (s: string)
    requires Valid(dt)
    ensures |s| == 15 && s[8] == '-'
  {
    PadDigits(dt.year, 4) + PadDigits(dt.month, 2) + PadDigits(dt.day, 2) + "-"
      + PadDigits(dt.hour, 2) + PadDigits(dt.minute, 2) + PadDigits(dt.second, 2)
  }

  /** strftime("%Y-%m-%d"). */
  function DateText(dt: DateTime): (s: string)
    requires Valid(dt)
    ensures |s| == 10 && s[4] == '-' && s[7] == '-'
  {
    PadDigits(dt.year, 4) + "-" + PadDigits(dt.month, 2) + "-" + PadDigits(dt.day, 2)
  }

  /** strftime("%H:%M:%S"). */
  function TimeText(dt: DateTime): (s: string)
    requires Valid(dt)
    ensures |s| == 8 && s[2] == ':' && s[5] == ':'
    ensures forall i :: 0 <= i < 8 && i != 2 && i != 5 ==> IsDigit(s[i])
  {
    PadDigits(dt.hour, 2) + ":" + PadDigits(dt.minute, 2) + ":" + PadDigits(dt.second, 2)
  }

  /** strftime("%Y-%m-%d %H:%M:%S"): the timestamp of overlays and events. */
  function DateTimeText(dt: DateTime): (s: string)
    requires Valid(dt)
    ensures |s| == 19 && s[..10] == DateText(dt) && s[10] == ' ' && s[11..] == TimeText(dt)
  {
    DateText(dt) + " " + TimeText(dt)
  }

  /** Reads a "%Y%m%d-%H%M%S" stamp back into its fields. */
  function ParseStamp(s: string): Option<DateTime> {
    if |s| == 15 && s[8] == '-' && AllDigits(s[..8]) && AllDigits(s[9..]) then
      assert AllDigits(s[0..4]) && AllDigits(s[4..6]) && AllDigits(s[6..8]);
      assert AllDigits(s[9..11]) && AllDigits(s[11..13]) && AllDigits(s[13..15]);
      Some(DateTime(DigitsValue(s[0..4]), DigitsValue(s[4..6]), DigitsValue(s[6..8]),
                    DigitsValue(s[9..11]), DigitsValue(s[11..13]), DigitsValue(s[13..15])))
    else None
  }

  /** The segment stamp loses nothing: reading it back gives the clock reading. */
  lemma StampRoundTrip(dt: DateTime)
    requires Valid(dt)
    ensures ParseStamp(Stamp(dt)) == Some(dt)
  {
    var s := Stamp(dt);
    assert s[0..4] == PadDigits(dt.year, 4);
    assert s[4..6] == PadDigits(dt.month, 2);
    assert s[6..8] == PadDigits(dt.day, 2);
    assert s[9..11] == PadDigits(dt.hour, 2);
    assert s[11..13] == PadDigits(dt.minute, 2);
    assert s[13..15] == PadDigits(dt.second, 2);
    assert s[..8] == s[0..4] + s[4..6] + s[6..8];
    assert s[9..] == s[9..11] + s[11..13] + s[13..15];
  }

  const FilenamePrefix := "jetsoncam-"
  const FilenameSuffix := ".mp4"

  /** The segment file name "jetsoncam-YYYYMMDD-HHMMSS.mp4". */
  function VideoFilename(dt: DateTime): (name: string)
    requires Valid(dt)
    ensures |name| == 29
    ensures StartsWith(name, FilenamePrefix) && EndsWith(name, FilenameSuffix)
    ensures name[10..25] == Stamp(dt) && name[18] == '-'
  {
    FilenamePrefix + Stamp(dt) + FilenameSuffix
  }

  /** Reads a segment file name back into the clock reading it was made from. */
  function ParseVideoFilename(name: string): Option<DateTime> {
    if |name| == 29 && StartsWith(name, FilenamePrefix) && EndsWith(name, FilenameSuffix)
    then ParseStamp(name[10..25])
    else None
  }

  lemma VideoFilenameRoundTrip(dt: DateTime)
    requires Valid(dt)
    ensures ParseVideoFilename(VideoFilename(dt)) == Some(dt)
  {
    StampRoundTrip(dt);
  }

  /** Segment names are collision-free at one-second granularity: two different
      clock readings never produce the same file name. */
  lemma VideoFilenameInjective(a: DateTime, b: DateTime)
    requires Valid(a) && Valid(b)
    ensures VideoFilename(a) == VideoFilename(b) <==> a == b
  {
    if VideoFilename(a) == VideoFilename(b) {
      VideoFilenameRoundTrip(a);
      VideoFilenameRoundTrip(b);
    }
  }
}

=== FILE: common.dfy ===
/** Shared vocabulary: an optional value, Python truthiness of optional
    strings, Python slice semantics on strings, and `str.split`/`str.join`
    on a single separator character. */
module Common {

  /** The conventional Some/None datatype; `None` stands for Python's `None`
      or for a dictionary key that is absent. */
  datatype Option<+T> = None | Some(value: T) {
    /** `value` when present, `default` otherwise (Python's `d.get(k, default)`). */
    function GetOr(default: T): T {
      match this
      case Some(v) => v
      case None => default
    }
  }

  /** Python truthiness of an optional string: present and non-empty. */
  predicate Truthy(o: Option<string>) {
    o.Some? && o.value != ""
  }

  /** Python's f-string rendering of an optional string: `None` prints as "None". */
  function StrOf(o: Option<string>): string {
    match o
    case Some(s) => s
    case None => "None"
  }

  predicate StartsWith(s: string, prefix: string) {
    |prefix| <= |s| && s[..|prefix|] == prefix
  }

  predicate EndsWith(s: string, suffix: string) {
    |suffix| <= |s| && s[|s| - |suffix|..] == suffix
  }

  /** Python's `t in s` for strings: `t` occurs as a contiguous block of `s`. */
  predicate Contains(s: string, t: string)
    decreases |s|
  {
    StartsWith(s, t) || (|s| > 0 && Contains(s[1..], t))
  }

  /** Python's `s.index(c)`: the first position of `c` in `s`. */
  function IndexOf(s: string, c: char): (i: nat)
    requires c in s
    ensures i < |s| && s[i] == c
    ensures c !in s[..i]
  {
    if s[0] == c then 0
    else
      assert s == [s[0]] + s[1..];
      var j := IndexOf(s[1..], c);
      assert s[..j + 1] == [s[0]] + s[1..][..j];
      j + 1
  }

  /** Python's `s[:k]` for any integer `k`: a negative bound counts from the end. */
  function PyPrefix(s: string, k: int): (r: string)
    ensures |r| <= |s|
    ensures r == s[..|r|]
  {
    if k >= 0 then (if k <= |s| then s[..k] else s)
    else if |s| + k >= 0 then s[..|s| + k]
    else ""
  }

  /** Python's `s[k:]` for any integer `k`. */
  function PySuffix(s: string, k: int): (r: string)
    ensures |r| <= |s|
    ensures r == s[|s| - |r|..]
  {
    if k >= 0 then (if k <= |s| then s[k..] else "")
    else if |s| + k >= 0 then s[|s| + k..]
    else s
  }

  /** Number of occurrences of `c` in `s`. */
  function CountChar(s: string, c: char): nat {
    if |s| == 0 then 0
    else (if s[0] == c then 1 else 0) + CountChar(s[1..], c)
  }

  lemma {:induction false} CountCharAppend(a: string, b: string, c: char)
    ensures CountChar(a + b, c) == CountChar(a, c) + CountChar(b, c)
  {
    if |a| == 0 {
      assert a + b == b;
    } else {
      assert (a + b)[1..] == a[1..] + b;
      CountCharAppend(a[1..], b, c);
    }
  }

  lemma {:induction false} CountCharAbsent(s: string, c: char)
    ensures c !in s <==> CountChar(s, c) == 0
  {
    if |s| > 0 {
      assert s == [s[0]] + s[1..];
      CountCharAbsent(s[1..], c);
    }
  }

  /** Python's `s.split(c)` for a one-character separator. */
  function Split(s: string, c: char): (parts: seq<string>)
    ensures |parts| >= 1
    ensures forall i :: 0 <= i < |parts| ==> c !in parts[i]
    decreases |s|
  {
    if c in s then
      var i := IndexOf(s, c);
      [s[..i]] + Split(s[i + 1..], c)
    else [s]
  }

  /** Python's `c.join(parts)` for a one-character separator. */
  function Join(parts: seq<string>, c: char): string {
    if |parts| == 0 then ""
    else if |parts| == 1 then parts[0]
    else parts[0] + [c] + Join(parts[1..], c)
  }

  /** Joining the pieces of a split gives back the original string. */
  lemma {:induction false} JoinSplit(s: string, c: char)
    ensures Join(Split(s, c), c) == s
    decreases |s|
  {
    if c in s {
      var i := IndexOf(s, c);
      JoinSplit(s[i + 1..], c);
      var rest := Split(s[i + 1..], c);
      assert Split(s, c) == [s[..i]] + rest;
      assert ([s[..i]] + rest)[1..] == rest;
      assert s == s[..i] + [c] + s[i + 1..];
    }
  }

  /** Splitting a join of separator-free pieces gives back the pieces. */
  lemma {:induction false} SplitJoin(parts: seq<string>, c: char)
    requires |parts| >= 1
    requires forall i :: 0 <= i < |parts| ==> c !in parts[i]
    ensures Split(Join(parts, c), c) == parts
    decreases |parts|
  {
    if |parts| > 1 {
      SplitAtFirst(parts[0], c, Join(parts[1..], c));
      SplitJoin(parts[1..], c);
      assert parts == [parts[0]] + parts[1..];
    } else {
      assert Join(parts, c) == parts[0];
    }
  }

  /** The first separator of `p + [c] + rest`, when `p` has none, ends the first piece. */
  lemma SplitAtFirst(p: string, c: char, rest: string)
    requires c !in p
    ensures Split(p + [c] + rest, c) == [p] + Split(rest, c)
  {
    var s := p + [c] + rest;
    assert s[|p|] == c;
    assert s[..|p|] == p;
    assert s[|p| + 1..] == rest;
  }

  /** A split has one more piece than the string has separators. */
  lemma {:induction false} SplitCount(s: string, c: char)
    ensures |Split(s, c)| == CountChar(s, c) + 1
    decreases |s|
  {
    if c in s {
      var i := IndexOf(s, c);
      SplitCount(s[i + 1..], c);
      assert s == s[..i] + ([c] + s[i + 1..]);
      CountCharAppend(s[..i], [c] + s[i + 1..], c);
      CountCharAbsent(s[..i], c);
      assert ([c] + s[i + 1..])[1..] == s[i + 1..];
    } else {
      CountCharAbsent(s, c);
    }
  }

  /** ASCII lower-casing (Python's `str.lower` restricted to ASCII letters). */
  function Lower(s: string): (r: string)
    ensures |r| == |s|
    ensures forall i :: 0 <= i < |s| ==> !('A' <= r[i] <= 'Z')
    ensures forall i :: 0 <= i < |s| && !('A' <= s[i] <= 'Z') ==> r[i] == s[i]
  {
    if |s| == 0 then ""
    else [LowerChar(s[0])] + Lower(s[1..])
  }

  function LowerChar(ch: char): char {
    if 'A' <= ch <= 'Z' then (ch as int - 'A' as int + 'a' as int) as char else ch
  }

  /** Python's `a <= b` on strings: lexicographic by code point. */
  predicate LexLe(a: string, b: string) {
    if |a| == 0 then true
    else if |b| == 0 then false
    else if a[0] != b[0] then a[0] < b[0]
    else LexLe(a[1..], b[1..])
  }

  /** Python's `a < b` on strings. */
  predicate LexLess(a: string, b: string) {
    LexLe(a, b) && a != b
  }

  lemma {:induction false} LexLeTotal(a: string, b: string)
    ensures LexLe(a, b) || LexLe(b, a)
  {
    if |a| > 0 && |b| > 0 && a[0] == b[0] {
      LexLeTotal(a[1..], b[1..]);
    }
  }

  lemma ConcatAssoc<T>(a: seq<T>, b: seq<T>, c: seq<T>)
    ensures a + (b + c) == (a + b) + c
  {
  }

  lemma HeadTail<T>(s: seq<T>)
    requires |s| > 0
    ensures [s[0]] + s[1..] == s
  {
  }

  /** The elements of `s` that satisfy `p`, in order. */
  function Select<T>(s: seq<T>, p: T -> bool): seq<T> {
    if |s| == 0 then []
    else (if p(s[0]) then [s[0]] else []) + Select(s[1..], p)
  }

  lemma SelectCons<T>(h: T, rest: seq<T>, p: T -> bool)
    ensures Select([h] + rest, p) == (if p(h) then [h] else []) + Select(rest, p)
  {
    assert ([h] + rest)[0] == h && ([h] + rest)[1..] == rest;
  }

  lemma {:induction false} SelectAppend<T>(a: seq<T>, b: seq<T>, p: T -> bool)
    ensures Select(a + b, p) == Select(a, p) + Select(b, p)
  {
    if |a| == 0 {
      assert a + b == b;
    } else {
      SelectAppend(a[1..], b, p);
      assert a + b == [a[0]] + (a[1..] + b);
      SelectCons(a[0], a[1..] + b, p);
      assert a == [a[0]] + a[1..];
      SelectCons(a[0], a[1..], p);
    }
  }

  lemma {:induction false} SelectNone<T>(s: seq<T>, p: T -> bool)
    ensures (forall k :: 0 <= k < |s| ==> !p(s[k])) ==> Select(s, p) == []
  {
    if |s| > 0 {
      SelectNone(s[1..], p);
      assert forall k :: 0 <= k < |s[1..]| ==> s[1..][k] == s[k + 1];
    }
  }

  lemma {:induction false} LexLeReflexive(a: string)
    ensures LexLe(a, a)
  {
    if |a| > 0 {
      LexLeReflexive(a[1..]);
    }
  }

  lemma {:induction false} LexLeTransitive(a: string, b: string, c: string)
    requires LexLe(a, b) && LexLe(b, c)
    ensures LexLe(a, c)
  {
    if |a| > 0 && |b| > 0 && |c| > 0 && a[0] == b[0] && b[0] == c[0] {
      LexLeTransitive(a[1..], b[1..], c[1..]);
    }
  }

  lemma {:induction false} LexLeAntisymmetric(a: string, b: string)
    requires LexLe(a, b) && LexLe(b, a)
    ensures a == b
  {
    if |a| > 0 && |b| > 0 {
      LexLeAntisymmetric(a[1..], b[1..]);
      assert a == [a[0]] + a[1..] && b == [b[0]] + b[1..];
    }
  }
}

=== FILE: coordinates.dfy ===
/** NMEA "DDMM.MMMM" coordinate arithmetic shared by the two coordinate
    parsers of the dashcam (the GPS reader's and the utility module's), and
    the (latitude, longitude) sample type with its arithmetic mean. */
module Coordinates {
  import opened Common
  import opened Numbers

  /** Python's `direction in ['S', 'W']`: the southern and western hemispheres are negative. */
  predicate IsNegativeHemisphere(dir: string) {
    dir == "S" || dir == "W"
  }

  function Signed(v: real, dir: string): real {
    if IsNegativeHemisphere(dir) then -v else v
  }

  /** `int(degText) + float(minText) / 60`, signed by hemisphere; `None` when
      either conversion raises. */
  function DegreesMinutes(degText: string, minText: string, dir: string): (r: Option<real>)
    ensures r.Some? <==> ParseInt(degText).Some? && ParseFloat(minText).Some?
  {
    match ParseInt(degText)
    case None => None
    case Some(deg) =>
      match ParseFloat(minText)
      case None => None
      case Some(minutes) => Some(Signed(deg as real + minutes / 60.0, dir))
  }

  /** The unsigned value a "DDMM.MMMM" text denotes: whole degrees `deg`,
      two minute digits `mm` and the decimal fraction `frac` of a minute. */
  function DdmmValue(deg: string, mm: string, frac: string): real
    requires AllDigits(deg) && AllDigits(mm) && AllDigits(frac)
  {
    DigitsValue(deg) as real + DecimalValue(mm, frac) / 60.0
  }

  /** `int(deg) + float(mm.frac) / 60` is the DDMM.MMMM value. */
  lemma DegreesMinutesOfDdmm(deg: string, mm: string, frac: string, dir: string)
    requires AllDigits(deg) && |deg| > 0 && AllDigits(mm) && |mm| == 2 && AllDigits(frac)
    ensures DegreesMinutes(deg, mm + "." + frac, dir) == Some(Signed(DdmmValue(deg, mm, frac), dir))
  {
    ParseFloatDecimal(mm, frac);
  }

  /** In "DDMM.MMMM" the first '.' follows the digits. */
  lemma DotPosition(digits: string, frac: string)
    requires AllDigits(digits)
    ensures '.' in digits + "." + frac
    ensures IndexOf(digits + "." + frac, '.') == |digits|
  {
    var c := digits + "." + frac;
    assert c[|digits|] == '.';
    assert c[..|digits|] == digits;
    assert '.' !in digits;
  }

  datatype Coord = Coord(lat: real, lon: real)

  function SumLat(buf: seq<Coord>): real {
    if |buf| == 0 then 0.0 else SumLat(buf[..|buf| - 1]) + buf[|buf| - 1].lat
  }

  function SumLon(buf: seq<Coord>): real {
    if |buf| == 0 then 0.0 else SumLon(buf[..|buf| - 1]) + buf[|buf| - 1].lon
  }

  /** Python's `sum(c[k] for c in buf) / len(buf)` for both components. */
  function Mean(buf: seq<Coord>): Coord
    requires |buf| > 0
  {
    Coord(SumLat(buf) / |buf| as real, SumLon(buf) / |buf| as real)
  }

  /** All samples lie in the latitude band [lo, hi]. */
  predicate LatWithin(buf: seq<Coord>, lo: real, hi: real) {
    forall i :: 0 <= i < |buf| ==> lo <= buf[i].lat <= hi
  }

  predicate LonWithin(buf: seq<Coord>, lo: real, hi: real) {
    forall i :: 0 <= i < |buf| ==> lo <= buf[i].lon <= hi
  }

  lemma {:induction false} SumLatBounds(buf: seq<Coord>, lo: real, hi: real)
    requires LatWithin(buf, lo, hi)
    ensures |buf| as real * lo <= SumLat(buf) <= |buf| as real * hi
  {
    if |buf| > 0 {
      SumLatBounds(buf[..|buf| - 1], lo, hi);
    }
  }

  lemma {:induction false} SumLonBounds(buf: seq<Coord>, lo: real, hi: real)
    requires LonWithin(buf, lo, hi)
    ensures |buf| as real * lo <= SumLon(buf) <= |buf| as real * hi
  {
    if |buf| > 0 {
      SumLonBounds(buf[..|buf| - 1], lo, hi);
    }
  }

  /** Smoothing never leaves the bounding box of the samples it averages. */
  lemma MeanWithinBounds(buf: seq<Coord>, latLo: real, latHi: real, lonLo: real, lonHi: real)
    requires |buf| > 0
    requires LatWithin(buf, latLo, latHi) && LonWithin(buf, lonLo, lonHi)
    ensures latLo <= Mean(buf).lat <= latHi
    ensures lonLo <= Mean(buf).lon <= lonHi
  {
    MeanLatWithin(buf, latLo, latHi);
    MeanLonWithin(buf, lonLo, lonHi);
  }

  lemma MeanLatWithin(buf: seq<Coord>, lo: real, hi: real)
    requires |buf| > 0 && LatWithin(buf, lo, hi)
    ensures lo <= SumLat(buf) / |buf| as real <= hi
  {
    SumLatBounds(buf, lo, hi);
    DivideBounds(SumLat(buf), |buf| as real, lo, hi);
  }

  lemma MeanLonWithin(buf: seq<Coord>, lo: real, hi: real)
    requires |buf| > 0 && LonWithin(buf, lo, hi)
    ensures lo <= SumLon(buf) / |buf| as real <= hi
  {
    SumLonBounds(buf, lo, hi);
    DivideBounds(SumLon(buf), |buf| as real, lo, hi);
  }

  lemma DivideBounds(s: real, n: real, lo: real, hi: real)
    requires n > 0.0 && n * lo <= s <= n * hi
    ensures lo <= s / n <= hi
  {
    assert s / n * n == s;
  }
}

=== FILE: detector.dfy ===
/** The AI detector: one inference pass combines the plate detector's
    candidates with the vehicle classifier's attributes, and a small state
    machine holds the single input frame slot and the published detections.
    The detector and the classifier are parameters: `detect` yields the
    candidate list of a frame, or `None` where it raises; `classify` yields
    the classifier's dictionary for a candidate's region of a frame (the
    frame and the box), or `None` where processing that candidate raises. */
module Detector {
  import opened Common

  /** `confidence_threshold` of `AIDetector()`. */
  const DefaultThreshold: real := 0.5
  /** `classification.get('confidence', 0.5)`: the value used when the key is absent. */
  const MissingConfidence: real := 0.5

  datatype BBox = BBox(x1: int, y1: int, x2: int, y2: int)

  /** The `Detection` record. */
  datatype Detection = Detection(
    licensePlate: Option<string>,
    vehicleType: Option<string>,
    color: Option<string>,
    make: Option<string>,
    model: Option<string>,
    confidence: real,
    bbox: BBox,
    timestamp: string)

  /** The classifier's dictionary as read through `dict.get`: an absent key and
      a key holding `None` both read as `None`; `confidence = None` means the
      key is absent. */
  datatype Classification = Classification(
    color: Option<string>,
    make: Option<string>,
    model: Option<string>,
    confidence: Option<real>)

  /** What `VehicleClassifier.classify` returns when it fails internally. */
  const FailedClassification := Classification(None, None, None, Some(0.0))

  function Min(a: real, b: real): (m: real)
    ensures m <= a && m <= b && (m == a || m == b)
  {
    if a <= b then a else b
  }

  /** One kept candidate updated from its classification. */
  function Enrich(d: Detection, c: Classification): (e: Detection)
    ensures e.color == c.color && e.make == c.make && e.model == c.model
    ensures e.confidence <= d.confidence && e.confidence <= c.confidence.GetOr(MissingConfidence)
    ensures e.confidence == d.confidence || e.confidence == c.confidence.GetOr(MissingConfidence)
    ensures e.licensePlate == d.licensePlate && e.vehicleType == d.vehicleType
    ensures e.bbox == d.bbox && e.timestamp == d.timestamp
  {
    d.(color := c.color, make := c.make, model := c.model,
       confidence := Min(d.confidence, c.confidence.GetOr(MissingConfidence)))
  }

  /** The candidates at or above the threshold, in their original order. */
  function Kept(cands: seq<Detection>, threshold: real): (k: seq<Detection>)
    ensures |k| <= |cands|
    ensures forall i :: 0 <= i < |k| ==> k[i] in cands && k[i].confidence >= threshold
  {
    if |cands| == 0 then []
    else
      var last := cands[|cands| - 1];
      Kept(cands[..|cands| - 1], threshold) + (if last.confidence < threshold then [] else [last])
  }

  /** Filtering distributes over concatenation: the kept candidates of a
      listing are those of its first part followed by those of the rest. */
  lemma {:induction false} KeptAppend(a: seq<Detection>, b: seq<Detection>, threshold: real)
    ensures Kept(a + b, threshold) == Kept(a, threshold) + Kept(b, threshold)
    decreases |b|
  {
    if |b| > 0 {
      var b' := b[..|b| - 1];
      assert (a + b)[..|a + b| - 1] == a + b';
      KeptAppend(a, b', threshold);
    } else {
      assert a + b == a;
    }
  }

  /** A single candidate is kept exactly when it reaches the threshold. */
  lemma KeptSingle(d: Detection, threshold: real)
    ensures Kept([d], threshold) == if d.confidence >= threshold then [d] else []
  {
    assert [d][..0] == [];
  }

  /** The loop of `_run_inference` over a candidate list, as a recursive
      reference: `None` when classifying some kept candidate raises. */
  function Pass(cands: seq<Detection>, threshold: real, classify: BBox -> Option<Classification>): Option<seq<Detection>>
  {
    if |cands| == 0 then Some([])
    else
      var last := cands[|cands| - 1];
      match Pass(cands[..|cands| - 1], threshold, classify)
      case None => None
      case Some(out) =>
        if last.confidence < threshold then Some(out)
        else match classify(last.bbox)
          case None => None
          case Some(c) => Some(out + [Enrich(last, c)])
  }

  /** Every kept candidate's classification succeeded. */
  predicate AllClassified(kept: seq<Detection>, classify: BBox -> Option<Classification>) {
    forall i :: 0 <= i < |kept| ==> classify(kept[i].bbox).Some?
  }

  /** A pass fails exactly when some kept candidate cannot be classified, and
      otherwise yields each kept candidate, in order, enriched by its classification. */
  lemma {:induction false} PassMeaning(cands: seq<Detection>, threshold: real, classify: BBox -> Option<Classification>)
    ensures var kept := Kept(cands, threshold);
      Pass(cands, threshold, classify).Some? <==> AllClassified(kept, classify)
    ensures var kept := Kept(cands, threshold);
      Pass(cands, threshold, classify).Some? ==>
        var out := Pass(cands, threshold, classify).value;
        && |out| == |kept|
        && forall i :: 0 <= i < |out| ==> out[i] == Enrich(kept[i], classify(kept[i].bbox).value)
  {
    if |cands| > 0 {
      var init := cands[..|cands| - 1];
      PassMeaning(init, threshold, classify);
      var kInit := Kept(init, threshold);
      var kept := Kept(cands, threshold);
      var last := cands[|cands| - 1];
      if last.confidence < threshold {
        assert kept == kInit;
      } else {
        assert kept == kInit + [last];
        if AllClassified(kInit, classify) && classify(last.bbox).Some? {
          assert AllClassified(kept, classify) by {
            forall i | 0 <= i < |kept| ensures classify(kept[i].bbox).Some? {
              if i < |kInit| {
                assert kept[i] == kInit[i];
              }
            }
          }
        } else if !AllClassified(kInit, classify) {
          var j :| 0 <= j < |kInit| && classify(kInit[j].bbox).None?;
          assert kept[j] == kInit[j];
        } else {
          assert kept[|kInit|] == last;
        }
      }
    }
  }

  /** The classifier applied to the regions of one frame. */
  function OnFrame<F>(classify: (F, BBox) -> Option<Classification>, frame: F): BBox -> Option<Classification> {
    b => classify(frame, b)
  }

  /** `_run_inference`: `None` from `detect` or a failed pass gives `[]`. */
  function Inference<F>(frame: F, detect: F -> Option<seq<Detection>>, classify: (F, BBox) -> Option<Classification>,
                        threshold: real): seq<Detection>
  {
    match detect(frame)
    case None => []
    case Some(cands) =>
      match Pass(cands, threshold, OnFrame(classify, frame))
      case None => []
      case Some(out) => out
  }

  /** Once a prefix of the candidates has failed, the whole pass fails. */
  lemma {:induction false} PassFailureSticks(cands: seq<Detection>, n: nat, threshold: real,
                                             classify: BBox -> Option<Classification>)
    requires n <= |cands|
    requires Pass(cands[..n], threshold, classify).None?
    ensures Pass(cands, threshold, classify).None?
    decreases |cands| - n
  {
    if n < |cands| {
      assert cands[..n + 1][..n] == cands[..n];
      PassFailureSticks(cands, n + 1, threshold, classify);
    } else {
      assert cands[..n] == cands;
    }
  }

  /** `_run_inference` as the loop it is: skip below-threshold candidates,
      classify and enrich the others, and give up with `[]` on the first failure. */
  method RunInference<F>(frame: F, detect: F -> Option<seq<Detection>>, classify: (F, BBox) -> Option<Classification>,
                         threshold: real) returns (out: seq<Detection>)
    ensures out == Inference(frame, detect, classify, threshold)
    ensures |out| <= (if detect(frame).Some? then |detect(frame).value| else 0)
  {
    var found := detect(frame);
    if found.None? {
      return [];
    }
    var cands := found.value;
    out := [];
    var i := 0;
    while i < |cands|
      invariant 0 <= i <= |cands|
      invariant Pass(cands[..i], threshold, OnFrame(classify, frame)) == Some(out)
      invariant |out| <= i
    {
      var d := cands[i];
      assert cands[..i + 1][..i] == cands[..i];
      if d.confidence < threshold {
        i := i + 1;
        continue;
      }
      var c := classify(frame, d.bbox);
      if c.None? {
        PassFailureSticks(cands, i + 1, threshold, OnFrame(classify, frame));
        return [];
      }
      out := out + [Enrich(d, c.value)];
      i := i + 1;
    }
    assert cands[..i] == cands;
  }

  /** Everything published comes from a candidate at or above the threshold,
      with the classifier's attributes and a confidence no higher than either
      source's; the order of the candidates is kept. */
  lemma InferenceOutputs<F>(frame: F, detect: F -> Option<seq<Detection>>, classify: (F, BBox) -> Option<Classification>,
                            threshold: real)
    ensures var out := Inference(frame, detect, classify, threshold);
      out != [] ==> && detect(frame).Some?
                    && AllClassified(Kept(detect(frame).value, threshold), OnFrame(classify, frame))
                    && |out| == |Kept(detect(frame).value, threshold)|
    ensures var out := Inference(frame, detect, classify, threshold);
      forall i :: 0 <= i < |out| ==>
        var k := Kept(detect(frame).value, threshold)[i];
        var c := classify(frame, k.bbox).value;
        && k in detect(frame).value
        && k.confidence >= threshold
        && out[i].licensePlate == k.licensePlate && out[i].bbox == k.bbox
        && out[i].color == c.color && out[i].make == c.make && out[i].model == c.model
        && out[i].confidence <= k.confidence && out[i].confidence <= c.confidence.GetOr(MissingConfidence)
  {
    if detect(frame).Some? {
      PassMeaning(detect(frame).value, threshold, OnFrame(classify, frame));
    }
  }

  /** A candidate whose classification failed internally is still published,
      with confidence 0 (for a non-negative threshold). */
  lemma FailedClassificationGivesZero(d: Detection, threshold: real)
    requires 0.0 <= threshold <= d.confidence
    ensures Enrich(d, FailedClassification).confidence == 0.0
    ensures Enrich(d, FailedClassification).color.None? && Enrich(d, FailedClassification).make.None?
  {
  }

  /** Two results of the loop joined: a failure on either side fails the whole. */
  function Then(p: Option<seq<Detection>>, q: Option<seq<Detection>>): Option<seq<Detection>> {
    if p.Some? && q.Some? then Some(p.value + q.value) else None
  }

  /** The loop over `a + b` is the loop over `a`, continued over `b`. */
  lemma {:induction false} PassAppend(a: seq<Detection>, b: seq<Detection>, threshold: real,
                                      classify: BBox -> Option<Classification>)
    ensures Pass(a + b, threshold, classify) == Then(Pass(a, threshold, classify), Pass(b, threshold, classify))
    decreases |b|
  {
    if |b| > 0 {
      var b' := b[..|b| - 1];
      assert (a + b)[..|a + b| - 1] == a + b';
      assert (a + b)[|a + b| - 1] == b[|b| - 1];
      PassAppend(a, b', threshold, classify);
      var last := b[|b| - 1];
      var pa, pb := Pass(a, threshold, classify), Pass(b', threshold, classify);
      if pa.Some? && pb.Some? && last.confidence >= threshold && classify(last.bbox).Some? {
        var e := Enrich(last, classify(last.bbox).value);
        assert pa.value + pb.value + [e] == pa.value + (pb.value + [e]);
      }
    } else {
      assert a + b == a;
      if Pass(a, threshold, classify).Some? {
        assert Pass(a, threshold, classify).value + [] == Pass(a, threshold, classify).value;
      }
    }
  }

  /** A candidate below the threshold, wherever it stands, is dropped without
      asking the classifier: the pass is the same whatever the classifier
      would say about it, and the same as without the candidate. */
  lemma BelowThresholdNotClassified(before: seq<Detection>, d: Detection, after: seq<Detection>,
                                    threshold: real, classify: BBox -> Option<Classification>)
    requires d.confidence < threshold
    ensures Pass(before + [d] + after, threshold, classify) == Pass(before + after, threshold, classify)
  {
    PassAppend(before + [d], after, threshold, classify);
    PassAppend(before, [d], threshold, classify);
    PassAppend(before, after, threshold, classify);
    assert [d][..0] == [];
  }

  // ---------------------------------------------------------------------
  // The inference thread's state
  // ---------------------------------------------------------------------

  datatype State<F> = State(running: bool, currentFrame: Option<F>, latest: seq<Detection>, threshold: real)

  function Init<F>(threshold: real): (st: State<F>)
    ensures !st.running && st.currentFrame.None? && st.latest == [] && st.threshold == threshold
  {
    State(false, None, [], threshold)
  }

  /** `set_input_frame`: the single slot holds the newest frame only. */
  function SetInputFrame<F>(st: State<F>, frame: F): (r: State<F>)
    ensures r.currentFrame == Some(frame)
    ensures r == st.(currentFrame := Some(frame))
  {
    st.(currentFrame := Some(frame))
  }

  /** Overwriting the slot forgets the earlier frame. */
  lemma SetInputFrameOverwrites<F>(st: State<F>, a: F, b: F)
    ensures SetInputFrame(SetInputFrame(st, a), b) == SetInputFrame(st, b)
  {
  }

  /** One iteration of `_inference_loop` past its rate limit: the new state and
      the list handed to the callback, if it is called. */
  datatype Step<F> = Step(state: State<F>, callback: Option<seq<Detection>>)

  function InferenceStep<F>(st: State<F>, detect: F -> Option<seq<Detection>>,
                            classify: (F, BBox) -> Option<Classification>): (r: Step<F>)
    ensures st.currentFrame.None? ==> r == Step(st, None)
    ensures st.currentFrame.Some? ==>
      r.state == st.(latest := Inference(st.currentFrame.value, detect, classify, st.threshold))
    ensures r.callback.Some? <==> st.currentFrame.Some? && r.state.latest != []
    ensures r.callback.Some? ==> r.callback.value == r.state.latest
    ensures r.state.currentFrame == st.currentFrame
  {
    match st.currentFrame
    case None => Step(st, None)
    case Some(frame) =>
      var ds := Inference(frame, detect, classify, st.threshold);
      Step(st.(latest := ds), if ds != [] then Some(ds) else None)
  }

  /** `get_latest_detections`: a copy of the published list. */
  function GetLatestDetections<F>(st: State<F>): seq<Detection> {
    st.latest
  }

  /** A pass replaces the published list wholesale: afterwards readers see
      exactly that pass's result, nothing from earlier passes. */
  lemma LatestIsLastPass<F>(st: State<F>, frame: F, detect: F -> Option<seq<Detection>>,
                            classify: (F, BBox) -> Option<Classification>)
    ensures GetLatestDetections(InferenceStep(SetInputFrame(st, frame), detect, classify).state)
         == Inference(frame, detect, classify, st.threshold)
  {
  }

  /** `start`: succeeds only when not already running. */
  function Start<F>(st: State<F>): (r: (State<F>, bool))
    ensures r.1 <==> !st.running
    ensures r.0.running
    ensures r.0 == st.(running := true)
  {
    if st.running then (st, false) else (st.(running := true), true)
  }

  function Stop<F>(st: State<F>): (r: State<F>)
    ensures !r.running && r == st.(running := false)
  {
    st.(running := false)
  }
}

=== FILE: eventstore.dfy ===
/** The vehicle event store: the SQL text and parameter list `search_events`
    builds, and the `vehicle_events` table as an in-memory sequence of rows
    with its uniqueness constraint and the age-based delete. Running SQL is
    not modelled: a query's rows are a parameter. */
module EventStore {
  import opened Common
  import opened Numbers
  import Clock

  // ---------------------------------------------------------------------
  // Query construction
  // ---------------------------------------------------------------------

  /** A bound parameter of a prepared statement. */
  datatype Param = PText(text: string) | PInt(n: int)

  /** A piece of SQL text: literal text, or a `?` placeholder. */
  datatype Token = Text(text: string) | Placeholder

  /** The SQL text of a token sequence. */
  function Render(ts: seq<Token>): string {
    if |ts| == 0 then "" else (if ts[0].Text? then ts[0].text else "?") + Render(ts[1..])
  }

  /** Number of placeholders. */
  function Holes(ts: seq<Token>): nat {
    if |ts| == 0 then 0 else (if ts[0].Placeholder? then 1 else 0) + Holes(ts[1..])
  }

  /** No literal piece contains a '?' of its own. */
  predicate Plain(ts: seq<Token>) {
    forall t :: t in ts && t.Text? ==> '?' !in t.text
  }

  lemma {:induction false} RenderAppend(a: seq<Token>, b: seq<Token>)
    ensures Render(a + b) == Render(a) + Render(b)
    ensures Holes(a + b) == Holes(a) + Holes(b)
  {
    if |a| > 0 {
      assert (a + b)[1..] == a[1..] + b;
      RenderAppend(a[1..], b);
    } else {
      assert a + b == b;
    }
  }

  /** The '?' characters of the rendered text are exactly the placeholders. */
  lemma {:induction false} RenderCount(ts: seq<Token>)
    requires Plain(ts)
    ensures CountChar(Render(ts), '?') == Holes(ts)
  {
    if |ts| > 0 {
      var head := if ts[0].Text? then ts[0].text else "?";
      assert ts[0] in ts;
      RenderCount(ts[1..]);
      CountCharAppend(head, Render(ts[1..]), '?');
      if ts[0].Text? {
        CountCharAbsent(head, '?');
      } else {
        assert "?"[1..] == "";
      }
    }
  }

  /** A prepared statement: its SQL as tokens, and the bound parameters. */
  datatype Query = Query(tokens: seq<Token>, params: seq<Param>) {
    function Sql(): string { Render(tokens) }
  }

  /** The keyword arguments of `search_events`; `None` is Python's `None`. */
  datatype Filter = Filter(
    startDate: Option<string>,
    endDate: Option<string>,
    licensePlate: Option<string>,
    color: Option<string>,
    make: Option<string>,
    model: Option<string>,
    limit: int)

  const DefaultLimit: int := 100

  const SelectAll := "SELECT * FROM vehicle_events WHERE 1=1"
  const StartClause := " AND timestamp >= "
  const EndClause := " AND timestamp <= "
  const PlateClause := " AND license_plate LIKE "
  const DescOpen := " AND ("
  const DescCondition := "car_description LIKE "
  const DescOr := " OR "
  const DescClose := ")"
  const OrderClause := " ORDER BY timestamp DESC LIMIT "

  /** None of the fixed SQL fragments contains a '?'. */
  lemma FragmentsPlain()
    ensures '?' !in SelectAll && '?' !in StartClause && '?' !in EndClause && '?' !in PlateClause
    ensures '?' !in DescOpen && '?' !in DescCondition && '?' !in DescOr && '?' !in DescClose
    ensures '?' !in OrderClause
  {
    SelectPlain();
    FilterFragmentsPlain();
    DescFragmentsPlain();
    OrderPlain();
  }

  lemma SelectPlain() ensures '?' !in SelectAll {}
  lemma FilterFragmentsPlain() ensures '?' !in StartClause && '?' !in EndClause && '?' !in PlateClause {}
  lemma DescFragmentsPlain()
    ensures '?' !in DescOpen && '?' !in DescCondition && '?' !in DescOr && '?' !in DescClose
  {}
  lemma OrderPlain() ensures '?' !in OrderClause {}

  /** `clause ?` when `cond` holds. */
  function Clause(cond: bool, clause: string): seq<Token> {
    if cond then [Text(clause), Placeholder] else []
  }

  /** `[p]` when `cond` holds. */
  function ParamIf(cond: bool, p: Param): seq<Param> {
    if cond then [p] else []
  }

  /** `'%' + v + '%'`: a LIKE pattern matching `v` anywhere. */
  function Like(v: string): string {
    "%" + v + "%"
  }

  /** The patterns of the description conditions, one per truthy attribute, in
      color, make, model order. */
  function DescParams(f: Filter): (ps: seq<Param>)
    ensures |ps| <= 3
    ensures |ps| == 0 <==> !Truthy(f.color) && !Truthy(f.make) && !Truthy(f.model)
  {
    ParamIf(Truthy(f.color), PText(Like(f.color.GetOr(""))))
      + ParamIf(Truthy(f.make), PText(Like(f.make.GetOr(""))))
      + ParamIf(Truthy(f.model), PText(Like(f.model.GetOr(""))))
  }

  /** `' OR '.join(desc_conditions)` for `n` conditions. */
  function DescConditions(n: nat): (ts: seq<Token>)
    requires n >= 1
  {
    if n == 1 then [Text(DescCondition), Placeholder]
    else DescConditions(n - 1) + [Text(DescOr), Text(DescCondition), Placeholder]
  }

  /** The parenthesised OR group, present when there is at least one condition. */
  function DescGroup(n: nat): seq<Token> {
    if n == 0 then [] else [Text(DescOpen)] + DescConditions(n) + [Text(DescClose)]
  }

  /** `search_events`' statement: the filters in the order start, end, plate,
      description group, then the ordering and the limit. */
  function SearchQuery(f: Filter): (q: Query)
    ensures |q.params| >= 1 && q.params[|q.params| - 1] == PInt(f.limit)
  {
    Query(
      ShapeTokens(ShapeOf(f)),
      ParamIf(Truthy(f.startDate), PText(f.startDate.GetOr("") + " 00:00:00"))
        + ParamIf(Truthy(f.endDate), PText(f.endDate.GetOr("") + " 23:59:59"))
        + ParamIf(Truthy(f.licensePlate), PText(Like(f.licensePlate.GetOr(""))))
        + DescParams(f)
        + [PInt(f.limit)])
  }

  lemma {:induction false} DescConditionsShape(n: nat)
    requires n >= 1
    ensures Plain(DescConditions(n)) && Holes(DescConditions(n)) == n
  {
    FragmentsPlain();
    if n > 1 {
      DescConditionsShape(n - 1);
      RenderAppend(DescConditions(n - 1), [Text(DescOr), Text(DescCondition), Placeholder]);
      assert Holes([Text(DescOr), Text(DescCondition), Placeholder]) == 1;
    } else {
      assert Holes([Placeholder]) == 1;
    }
  }

  lemma ClauseShape(cond: bool, clause: string)
    requires '?' !in clause
    ensures Plain(Clause(cond, clause)) && Holes(Clause(cond, clause)) == if cond then 1 else 0
  {
    if cond {
      assert Clause(cond, clause)[1..] == [Placeholder] && [Placeholder][1..] == [];
    }
  }

  lemma DescGroupShape(n: nat)
    ensures Plain(DescGroup(n)) && Holes(DescGroup(n)) == n
  {
    if n > 0 {
      FragmentsPlain();
      DescConditionsShape(n);
      RenderAppend([Text(DescOpen)], DescConditions(n));
      RenderAppend([Text(DescOpen)] + DescConditions(n), [Text(DescClose)]);
    }
  }

  /** The statement's tokens for the filters in effect. */
  function ShapeTokens(sh: Shape): seq<Token> {
    [Text(SelectAll)] + FilterTokens(sh) + [Text(OrderClause), Placeholder]
  }

  /** The conditions between the selection and the ordering. */
  function FilterTokens(sh: Shape): seq<Token> {
    Clause(sh.start, StartClause)
      + Clause(sh.end, EndClause)
      + Clause(sh.plate, PlateClause)
      + DescGroup(sh.descConditions)
  }

  /** One placeholder per filter in effect, one per description condition, and
      one for the limit. */
  lemma ShapeTokensHoles(sh: Shape)
    ensures Plain(ShapeTokens(sh))
    ensures Holes(ShapeTokens(sh)) == (if sh.start then 1 else 0) + (if sh.end then 1 else 0)
                                     + (if sh.plate then 1 else 0) + sh.descConditions + 1
  {
    SelectPlain();
    OrderPlain();
    var tail := [Text(OrderClause), Placeholder];
    FilterTokensHoles(sh);
    assert Holes(tail) == 1 by {
      assert tail[1..] == [Placeholder] && [Placeholder][1..] == [];
    }
    assert Holes([Text(SelectAll)]) == 0;
    RenderAppend([Text(SelectAll)], FilterTokens(sh));
    RenderAppend([Text(SelectAll)] + FilterTokens(sh), tail);
  }

  lemma FilterTokensHoles(sh: Shape)
    ensures Plain(FilterTokens(sh))
    ensures Holes(FilterTokens(sh)) == (if sh.start then 1 else 0) + (if sh.end then 1 else 0)
                                      + (if sh.plate then 1 else 0) + sh.descConditions
  {
    FilterFragmentsPlain();
    var c1 := Clause(sh.start, StartClause);
    var c2 := Clause(sh.end, EndClause);
    var c3 := Clause(sh.plate, PlateClause);
    ClauseShape(sh.start, StartClause);
    ClauseShape(sh.end, EndClause);
    ClauseShape(sh.plate, PlateClause);
    DescGroupShape(sh.descConditions);
    RenderAppend(c1, c2);
    RenderAppend(c1 + c2, c3);
    RenderAppend(c1 + c2 + c3, DescGroup(sh.descConditions));
  }

  /** The token list of the search has one placeholder per parameter and no stray '?'. */
  lemma SearchTokens(f: Filter)
    ensures Plain(SearchQuery(f).tokens) && Holes(SearchQuery(f).tokens) == |SearchQuery(f).params|
  {
    ShapeTokensHoles(ShapeOf(f));
    SearchParams(f);
  }

  /** The statement text has exactly one '?' per parameter: every filter value
      is bound, none is spliced into the text. */
  lemma SearchQueryBalanced(f: Filter)
    ensures CountChar(SearchQuery(f).Sql(), '?') == |SearchQuery(f).params|
  {
    SearchTokens(f);
    RenderCount(SearchQuery(f).tokens);
  }

  /** The statement starts with the selection and ends with the ordering and
      the limit placeholder. */
  lemma SearchQueryFrame(f: Filter)
    ensures StartsWith(SearchQuery(f).Sql(), SelectAll)
    ensures EndsWith(SearchQuery(f).Sql(), OrderClause + "?")
  {
    RenderFrame(SelectAll, FilterTokens(ShapeOf(f)), OrderClause);
  }

  /** A statement made of a leading text, any middle, and a trailing text with
      one placeholder renders as that text, the middle, then the trailing text and '?'. */
  lemma RenderFrame(head: string, mid: seq<Token>, last: string)
    ensures var sql := Render([Text(head)] + mid + [Text(last), Placeholder]);
      StartsWith(sql, head) && EndsWith(sql, last + "?")
  {
    var tail := [Text(last), Placeholder];
    RenderAppend([Text(head)], mid);
    RenderAppend([Text(head)] + mid, tail);
    assert Render([Text(head)]) == head;
    assert Render(tail) == last + "?" by {
      assert tail[1..] == [Placeholder] && [Placeholder][1..] == [];
    }
    var sql := head + Render(mid) + (last + "?");
    assert sql[..|head|] == head;
    assert sql[|sql| - |last + "?"|..] == last + "?";
  }

  /** Which filters are in effect: the only thing the SQL text depends on. */
  datatype Shape = Shape(start: bool, end: bool, plate: bool, descConditions: nat)

  function ShapeOf(f: Filter): Shape {
    Shape(Truthy(f.startDate), Truthy(f.endDate), Truthy(f.licensePlate), |DescParams(f)|)
  }

  /** Filter values never reach the SQL text (they travel only as parameters),
      so two searches with the same filters in effect run the same statement. */
  lemma SqlDependsOnlyOnShape(f: Filter, g: Filter)
    requires ShapeOf(f) == ShapeOf(g)
    ensures SearchQuery(f).Sql() == SearchQuery(g).Sql()
  {
  }

  /** The parameters, in order: start bound, end bound, plate pattern, the
      description patterns, the limit, each present exactly when its filter is truthy. */
  lemma SearchParams(f: Filter)
    ensures var ps := SearchQuery(f).params;
      |ps| == (if Truthy(f.startDate) then 1 else 0) + (if Truthy(f.endDate) then 1 else 0)
            + (if Truthy(f.licensePlate) then 1 else 0) + |DescParams(f)| + 1
    ensures var ps := SearchQuery(f).params;
      Truthy(f.startDate) ==> ps[0] == PText(f.startDate.value + " 00:00:00")
    ensures var ps := SearchQuery(f).params; var i := if Truthy(f.startDate) then 1 else 0;
      Truthy(f.endDate) ==> ps[i] == PText(f.endDate.value + " 23:59:59")
    ensures var ps := SearchQuery(f).params;
            var i := (if Truthy(f.startDate) then 1 else 0) + (if Truthy(f.endDate) then 1 else 0);
      Truthy(f.licensePlate) ==> ps[i] == PText("%" + f.licensePlate.value + "%")
    ensures var ps := SearchQuery(f).params;
            var i := (if Truthy(f.startDate) then 1 else 0) + (if Truthy(f.endDate) then 1 else 0)
                   + (if Truthy(f.licensePlate) then 1 else 0);
      ps[i..|ps| - 1] == DescParams(f)
  {
  }

  /** `search_events`: `run` stands for executing the statement, `None` when it raises. */
  function SearchEvents<R>(f: Filter, run: Query -> Option<seq<R>>): (rows: seq<R>)
    ensures run(SearchQuery(f)).None? ==> rows == []
    ensures run(SearchQuery(f)).Some? ==> rows == run(SearchQuery(f)).value
  {
    run(SearchQuery(f)).GetOr([])
  }

  /** `get_events_by_date`: the date is both bounds. */
  function EventsByDateQuery(date: string, limit: int): (q: Query)
    ensures date != "" ==> q.params == [PText(date + " 00:00:00"), PText(date + " 23:59:59"), PInt(limit)]
    ensures date == "" ==> q.params == [PInt(limit)]
  {
    SearchQuery(Filter(Some(date), Some(date), None, None, None, None, limit))
  }

  /** `get_events_by_license_plate`: only the plate pattern. */
  function EventsByPlateQuery(plate: string, limit: int): (q: Query)
    ensures plate != "" ==> q.params == [PText("%" + plate + "%"), PInt(limit)]
    ensures plate == "" ==> q.params == [PInt(limit)]
  {
    SearchQuery(Filter(None, None, Some(plate), None, None, None, limit))
  }

  // ---------------------------------------------------------------------
  // The vehicle_events table
  // ---------------------------------------------------------------------

  /** The columns a caller supplies; `id` and `created_at` are the database's. */
  datatype Event = Event(
    timestamp: string,
    videoFilename: Option<string>,
    lat: Option<real>,
    lon: Option<real>,
    licensePlate: Option<string>,
    carDescription: Option<string>,
    confidence: real)

  datatype Row = Row(id: nat, event: Event)

  datatype Table = Table(rows: seq<Row>, nextId: nat)

  /** `UNIQUE(timestamp, video_filename, license_plate)` under SQLite's rule
      that NULLs are distinct: events without a plate never collide. */
  predicate Collide(a: Event, b: Event) {
    a.timestamp == b.timestamp && a.videoFilename == b.videoFilename
    && a.licensePlate.Some? && a.licensePlate == b.licensePlate
  }

  /** What every state of the table satisfies: no two rows collide, every row
      has a file name (NOT NULL), ids are below the next id, and rows are kept
      in increasing id order (AUTOINCREMENT). */
  predicate Valid(t: Table) {
    && NoCollisions(t.rows)
    && Increasing(t.rows)
    && (forall i :: 0 <= i < |t.rows| ==> t.rows[i].event.videoFilename.Some? && t.rows[i].id < t.nextId)
  }

  /** Ids strictly increase along the rows. */
  predicate Increasing(rows: seq<Row>) {
    forall i, j :: 0 <= i < j < |rows| ==> rows[i].id < rows[j].id
  }

  /** Rows in increasing id order are determined by which rows they hold. */
  lemma {:induction false} IncreasingSameMembersEqual(a: seq<Row>, b: seq<Row>)
    requires Increasing(a) && Increasing(b)
    requires forall x :: x in a <==> x in b
    ensures a == b
  {
    SameMembersEmpty(a, b);
    if |a| > 0 {
      HeadLeast(a);
      HeadLeast(b);
      assert a[0] in b && b[0] in a;
      var i :| 0 <= i < |b| && b[i] == a[0];
      assert b[i] == b[0];
      forall x ensures x in a[1..] <==> x in b[1..] {
        if x in a[1..] {
          var k :| 1 <= k < |a| && a[k] == x;
        }
        if x in b[1..] {
          var k :| 1 <= k < |b| && b[k] == x;
        }
        assert x in a <==> x == a[0] || x in a[1..];
        assert x in b <==> x == b[0] || x in b[1..];
      }
      IncreasingSameMembersEqual(a[1..], b[1..]);
      assert a == [a[0]] + a[1..] && b == [b[0]] + b[1..];
    }
  }

  lemma SameMembersEmpty(a: seq<Row>, b: seq<Row>)
    requires forall x :: x in a <==> x in b
    ensures |a| == 0 <==> |b| == 0
  {
    if |a| > 0 {
      assert a[0] in a;
    }
    if |b| > 0 {
      assert b[0] in b;
    }
  }

  /** The first row has the least id. */
  lemma HeadLeast(rows: seq<Row>)
    requires Increasing(rows) && |rows| > 0
    ensures forall x :: x in rows ==> rows[0].id <= x.id
  {
    forall x | x in rows ensures rows[0].id <= x.id {
      var k :| 0 <= k < |rows| && rows[k] == x;
    }
  }

  function Empty(): (t: Table)
    ensures Valid(t) && t.rows == []
  {
    Table([], 1)
  }

  /** `log_vehicle_event`: `reachable` is whether the database could be opened.
      A missing file name or a collision is an IntegrityError: `False`, table unchanged. */
  function LogVehicleEvent(t: Table, e: Event, reachable: bool): (r: (Table, bool))
    requires Valid(t)
    ensures Valid(r.0)
    ensures r.1 <==> reachable && e.videoFilename.Some?
                     && forall i :: 0 <= i < |t.rows| ==> !Collide(t.rows[i].event, e)
    ensures !r.1 ==> r.0 == t
    ensures r.1 ==> r.0.rows == t.rows + [Row(t.nextId, e)]
  {
    if !reachable || e.videoFilename.None? then (t, false)
    else if exists i :: 0 <= i < |t.rows| && Collide(t.rows[i].event, e) then (t, false)
    else (Table(t.rows + [Row(t.nextId, e)], t.nextId + 1), true)
  }

  /** Logging the same plate sighting twice stores it once. */
  lemma DuplicateRejected(t: Table, e: Event)
    requires Valid(t) && e.licensePlate.Some?
    ensures var (t1, ok1) := LogVehicleEvent(t, e, true);
            LogVehicleEvent(t1, e, true) == (t1, false)
  {
    var (t1, ok1) := LogVehicleEvent(t, e, true);
    if ok1 {
      assert t1.rows[|t.rows|].event == e;
    }
  }

  /** Sightings without a plate are never duplicates of each other. */
  lemma PlatelessAlwaysStored(t: Table, e: Event)
    requires Valid(t) && e.licensePlate.None? && e.videoFilename.Some?
    ensures LogVehicleEvent(t, e, true).1
  {
  }

  /** `delete_old_events` deletes rows whose timestamp text is below this. */
  function CutoffText(cutoff: Clock.DateTime): string
    requires Clock.Valid(cutoff)
  {
    Clock.DateText(cutoff) + " 00:00:00"
  }

  function KeepNewer(rows: seq<Row>, bound: string): (r: seq<Row>)
    ensures |r| <= |rows|
    ensures forall x :: x in r <==> x in rows && !LexLess(x.event.timestamp, bound)
  {
    if |rows| == 0 then []
    else
      var rest := KeepNewer(rows[1..], bound);
      assert forall x :: x in rows <==> x == rows[0] || x in rows[1..];
      if LexLess(rows[0].event.timestamp, bound) then rest else [rows[0]] + rest
  }

  /** No two rows collide. */
  predicate NoCollisions(rows: seq<Row>) {
    forall i, j :: 0 <= i < j < |rows| ==> !Collide(rows[i].event, rows[j].event)
  }

  lemma IncreasingTail(rows: seq<Row>)
    requires Increasing(rows) && |rows| > 0
    ensures Increasing(rows[1..])
  {
    forall i, j | 0 <= i < j < |rows| - 1 ensures rows[1..][i].id < rows[1..][j].id {
      assert rows[1..][i] == rows[i + 1] && rows[1..][j] == rows[j + 1];
    }
  }

  lemma IncreasingCons(h: Row, rest: seq<Row>)
    requires Increasing(rest)
    requires forall x :: x in rest ==> h.id < x.id
    ensures Increasing([h] + rest)
  {
    var r := [h] + rest;
    forall i, j | 0 <= i < j < |r| ensures r[i].id < r[j].id {
      assert r[j] == rest[j - 1];
      if i > 0 {
        assert r[i] == rest[i - 1];
      }
    }
  }

  /** Dropping rows keeps ids increasing. */
  lemma {:induction false} KeepNewerIncreasing(rows: seq<Row>, bound: string)
    requires Increasing(rows)
    ensures Increasing(KeepNewer(rows, bound))
  {
    if |rows| > 0 {
      var tail := rows[1..];
      IncreasingTail(rows);
      KeepNewerIncreasing(tail, bound);
      var rest := KeepNewer(tail, bound);
      if !LexLess(rows[0].event.timestamp, bound) {
        forall x | x in rest ensures rows[0].id < x.id {
          var k :| 0 <= k < |tail| && tail[k] == x;
          assert rows[k + 1] == x;
        }
        IncreasingCons(rows[0], rest);
      }
    }
  }

  /** Dropping rows never creates a collision. */
  lemma {:induction false} KeepNewerNoCollisions(rows: seq<Row>, bound: string)
    requires NoCollisions(rows)
    ensures NoCollisions(KeepNewer(rows, bound))
  {
    if |rows| > 0 {
      var tail := rows[1..];
      assert NoCollisions(tail) by {
        forall i, j | 0 <= i < j < |tail| ensures !Collide(tail[i].event, tail[j].event) {
          assert tail[i] == rows[i + 1] && tail[j] == rows[j + 1];
        }
      }
      KeepNewerNoCollisions(tail, bound);
      var rest := KeepNewer(tail, bound);
      if !LexLess(rows[0].event.timestamp, bound) {
        var r := [rows[0]] + rest;
        forall i, j | 0 <= i < j < |r| ensures !Collide(r[i].event, r[j].event) {
          if i == 0 {
            assert r[j] == rest[j - 1] && rest[j - 1] in tail;
            var k :| 0 <= k < |tail| && tail[k] == rest[j - 1];
            assert rows[k + 1] == r[j];
          } else {
            assert r[i] == rest[i - 1] && r[j] == rest[j - 1];
          }
        }
      }
    }
  }

  /** `delete_old_events`: remove the rows stamped before midnight starting
      the cutoff day, and report how many went. `cutoff` is the current time
      less the retention period; `reachable` is whether the database could be
      opened (otherwise nothing is deleted and 0 is reported). */
  function DeleteOldEvents(t: Table, cutoff: Clock.DateTime, reachable: bool): (r: (Table, nat))
    requires Valid(t) && Clock.Valid(cutoff)
    ensures Valid(r.0)
    ensures !reachable ==> r == (t, 0)
    ensures r.0.nextId == t.nextId
    ensures reachable ==> forall x :: x in r.0.rows <==> x in t.rows && !LexLess(x.event.timestamp, CutoffText(cutoff))
    ensures r.1 == |t.rows| - |r.0.rows|
  {
    if !reachable then (t, 0)
    else
      var kept := KeepNewer(t.rows, CutoffText(cutoff));
      KeepNewerNoCollisions(t.rows, CutoffText(cutoff));
      KeepNewerIncreasing(t.rows, CutoffText(cutoff));
      (Table(kept, t.nextId), |t.rows| - |kept|)
  }

  /** The rows left by `delete_old_events` are exactly the table's rows from
      the cutoff day on, in id order: any id-ordered list of those rows is it. */
  lemma DeleteOldEventsDetermined(t: Table, cutoff: Clock.DateTime, rows: seq<Row>)
    requires Valid(t) && Clock.Valid(cutoff) && Increasing(rows)
    requires forall x :: x in rows <==> x in t.rows && !LexLess(x.event.timestamp, CutoffText(cutoff))
    ensures DeleteOldEvents(t, cutoff, true).0.rows == rows
  {
    IncreasingSameMembersEqual(DeleteOldEvents(t, cutoff, true).0.rows, rows);
  }

  /** For events stamped by the dashcam ("%Y-%m-%d %H:%M:%S"), the delete is a
      date comparison: an event goes exactly when its day precedes the cutoff day. */
  lemma DeleteByDay(dt: Clock.DateTime, cutoff: Clock.DateTime)
    requires Clock.Valid(dt) && Clock.Valid(cutoff)
    ensures LexLess(Clock.DateTimeText(dt), CutoffText(cutoff)) <==> LexLess(Clock.DateText(dt), Clock.DateText(cutoff))
  {
    var a := Clock.DateText(dt);
    var b := Clock.DateText(cutoff);
    var s := Clock.DateTimeText(dt);
    var c := CutoffText(cutoff);
    assert s == a + (" " + Clock.TimeText(dt));
    assert c == b + " 00:00:00";
    if a == b {
      assert LexLe(" 00:00:00", " " + Clock.TimeText(dt)) by {
        PointwiseLe(" 00:00:00", " " + Clock.TimeText(dt));
      }
      LexLeCommonPrefix(a, " 00:00:00", " " + Clock.TimeText(dt));
      if s == c {
        assert s[11..] == c[11..];
      }
      LexLeAntisymmetricStrings(s, c);
    } else {
      LexLeTotal(a, b);
      if LexLe(a, b) {
        LexLeDiffers(a, b, " " + Clock.TimeText(dt), " 00:00:00");
      } else {
        LexLeDiffers(b, a, " 00:00:00", " " + Clock.TimeText(dt));
        LexLeAntisymmetricStrings(s, c);
      }
    }
  }

  lemma LexLeAntisymmetricStrings(a: string, b: string)
    ensures LexLe(a, b) && LexLe(b, a) ==> a == b
  {
    if LexLe(a, b) && LexLe(b, a) {
      LexLeAntisymmetric(a, b);
    }
  }

  /** Position by position no larger means no larger. */
  lemma {:induction false} PointwiseLe(a: string, b: string)
    requires |a| <= |b| && forall i :: 0 <= i < |a| ==> a[i] <= b[i]
    ensures LexLe(a, b)
  {
    if |a| > 0 {
      PointwiseLe(a[1..], b[1..]);
    }
  }

  /** A common prefix does not change the order. */
  lemma {:induction false} LexLeCommonPrefix(p: string, x: string, y: string)
    ensures LexLe(p + x, p + y) <==> LexLe(x, y)
  {
    if |p| > 0 {
      assert (p + x)[1..] == p[1..] + x && (p + y)[1..] == p[1..] + y;
      LexLeCommonPrefix(p[1..], x, y);
    } else {
      assert p + x == x && p + y == y;
    }
  }

  /** Two different texts of the same length decide the order of anything they prefix. */
  lemma {:induction false} LexLeDiffers(a: string, b: string, x: string, y: string)
    requires |a| == |b| && a != b && LexLe(a, b)
    ensures LexLe(a + x, b + y) && a + x != b + y && !LexLe(b + x, a + y)
  {
    assert |a| > 0;
    if a[0] == b[0] {
      assert a == [a[0]] + a[1..] && b == [b[0]] + b[1..];
      LexLeDiffers(a[1..], b[1..], x, y);
      assert (a + x)[1..] == a[1..] + x && (b + y)[1..] == b[1..] + y;
      assert (b + x)[1..] == b[1..] + x && (a + y)[1..] == a[1..] + y;
    } else {
      assert (a + x)[0] == a[0] && (b + y)[0] == b[0];
    }
  }
}

=== FILE: gps.dfy ===
/** The GPS reader: NMEA 0183 GGA and RMC sentences update a position state,
    a bounded buffer of recent fixes feeds a moving average, and readers
    take snapshots of the state. The serial port, the reading thread and the
    lock are not modelled: each received line is one call of `ParseSentence`. */
module Gps {
  import opened Common
  import opened Numbers
  import opened Coordinates
  import Clock
  import Utils

  /** `GPSReader(buffer_size=10)`. */
  const DefaultBufferSize: nat := 10
  /** Smoothed values appear once this many fixes are buffered. */
  const SmoothingMinimum: nat := 5
  /** `wait_for_fix` wants at least this many satellites. */
  const MinSatellites: int := 4

  datatype State = State(
    latitude: Option<real>,
    longitude: Option<real>,
    timestamp: Option<string>,
    altitude: Option<real>,
    speed: Option<real>,
    satellites: Option<int>,
    fixQuality: Option<int>,
    buffer: seq<Coord>,
    bufferSize: nat,
    smoothedLat: Option<real>,
    smoothedLon: Option<real>,
    running: bool)

  /** A freshly constructed reader: nothing known yet. */
  function Init(bufferSize: nat): (st: State)
    ensures Inv(st) && st.buffer == [] && !st.running
    ensures st.latitude.None? && st.smoothedLat.None? && st.fixQuality.None?
  {
    State(None, None, None, None, None, None, None, [], bufferSize, None, None, false)
  }

  /** What every reachable state satisfies: the buffer respects its bound,
      the newest buffered fix is the raw position, and the smoothed position
      is the mean of the whole buffer once it holds five fixes, and absent before. */
  ghost predicate Inv(st: State) {
    && |st.buffer| <= st.bufferSize
    && (|st.buffer| > 0 ==>
          st.latitude == Some(st.buffer[|st.buffer| - 1].lat)
          && st.longitude == Some(st.buffer[|st.buffer| - 1].lon))
    && (|st.buffer| >= SmoothingMinimum ==>
          st.smoothedLat == Some(Mean(st.buffer).lat)
          && st.smoothedLon == Some(Mean(st.buffer).lon))
    && (|st.buffer| < SmoothingMinimum ==> st.smoothedLat.None? && st.smoothedLon.None?)
  }

  // ---------------------------------------------------------------------
  // Coordinates
  // ---------------------------------------------------------------------

  /** `_parse_coordinate`: "DDMM.MMMM" with a hemisphere letter to signed degrees. */
  function ParseCoordinate(coord: string, dir: string): (r: Option<real>)
    ensures coord == "" || dir == "" || '.' !in coord ==> r == None
  {
    if coord == "" || dir == "" || '.' !in coord then None
    else
      var dot := IndexOf(coord, '.');
      DegreesMinutes(PyPrefix(coord, dot - 2), PySuffix(coord, dot - 2), dir)
  }

  /** Degrees, two minute digits, '.', a minute fraction: the decoded value,
      negated exactly for the 'S' and 'W' hemispheres. */
  lemma ParseCoordinateDecodes(deg: string, mm: string, frac: string, dir: string)
    requires AllDigits(deg) && |deg| > 0 && AllDigits(mm) && |mm| == 2 && AllDigits(frac)
    requires dir != ""
    ensures ParseCoordinate(deg + mm + "." + frac, dir) == Some(Signed(DdmmValue(deg, mm, frac), dir))
  {
    var c := deg + mm + "." + frac;
    var dot := |deg| + 2;
    assert '.' in c && IndexOf(c, '.') == dot by {
      DotPosition(deg + mm, frac);
      assert c == (deg + mm) + "." + frac;
    }
    assert PyPrefix(c, dot - 2) == deg && PySuffix(c, dot - 2) == mm + "." + frac;
    DegreesMinutesOfDdmm(deg, mm, frac, dir);
  }

  /** With fewer than two characters before the '.', Python's `s[:dot-2]`
      counts from the end of the text; whatever it yields, the text is rejected. */
  lemma DotTooEarlyRejected(coord: string, dir: string)
    requires '.' in coord && IndexOf(coord, '.') < 2
    ensures ParseCoordinate(coord, dir) == None
  {
    var dot: int := IndexOf(coord, '.');
    var m := |coord| + dot - 2;
    if m > dot {
      var degText := PyPrefix(coord, dot - 2);
      assert degText == coord[..m];
      assert degText[dot] == '.';
      assert ParseInt(degText) == None;
    } else if m <= 0 {
      assert PyPrefix(coord, dot - 2) == "";
    } else {
      assert m == 1 && dot == 1 && |coord| == 2;
      assert PySuffix(coord, dot - 2) == ".";
      assert ParseFloat(".") == None by {
        assert IndexOf(".", '.') == 0;
      }
    }
  }

  /** On texts of five or more characters containing '.', the reader's parser
      and the utility module's parser agree. */
  lemma ParsersAgree(coord: string, dir: string)
    requires '.' in coord && |coord| >= 5
    ensures ParseCoordinate(coord, dir) == Utils.ParseGpsCoordinate(Some(coord), Some(dir))
  {
  }

  // ---------------------------------------------------------------------
  // Sentences
  // ---------------------------------------------------------------------

  /** `sentence[:sentence.index('*')]` when a '*' is present. */
  function StripChecksum(line: string): (s: string)
    ensures '*' !in s && StartsWith(line, s)
    ensures '*' !in line ==> s == line
  {
    if '*' in line then line[..IndexOf(line, '*')] else line
  }

  /** Python's `int(f) if f else 0`; `None` where `int` raises. */
  function FieldInt(f: string): (r: Option<int>)
    ensures f == "" ==> r == Some(0)
    ensures f != "" ==> r == ParseInt(f)
  {
    if f == "" then Some(0) else ParseInt(f)
  }

  /** The position update of a GGA fix: raw position, bounded buffer, smoothing. */
  function AddFix(st: State, lat: real, lon: real): (r: State)
    requires Inv(st)
    ensures Inv(r)
    ensures r.latitude == Some(lat) && r.longitude == Some(lon)
    ensures r.buffer == BoundedAppend(st.buffer, Coord(lat, lon), st.bufferSize)
    ensures r == st.(latitude := r.latitude, longitude := r.longitude, buffer := r.buffer,
                     smoothedLat := r.smoothedLat, smoothedLon := r.smoothedLon)
  {
    var buf := BoundedAppend(st.buffer, Coord(lat, lon), st.bufferSize);
    var st1 := st.(latitude := Some(lat), longitude := Some(lon), buffer := buf);
    if |buf| >= SmoothingMinimum then
      var m := Mean(buf);
      st1.(smoothedLat := Some(m.lat), smoothedLon := Some(m.lon))
    else st1
  }

  /** `deque(maxlen=size).append(x)`: the newest `size` of the old items and `x`. */
  function BoundedAppend<T>(buf: seq<T>, x: T, size: nat): (r: seq<T>)
    requires |buf| <= size
    ensures |r| == if |buf| < size then |buf| + 1 else size
    ensures size > 0 ==> r[|r| - 1] == x
    ensures forall i :: 0 <= i < |r| - 1 ==> r[i] == buf[|buf| - |r| + 1 + i]
  {
    var b := buf + [x];
    if |b| > size then b[|b| - size..] else b
  }

  /** `_parse_gga`: `parts` are the comma-separated fields, `today` is the date
      the reading thread would read from the clock. Python's exceptions are
      caught inside: a short sentence (field 9 is read before any write) or a
      fix or satellite count that `int` rejects leaves the state as it was. */
  function ParseGga(st: State, parts: seq<string>, today: Clock.DateTime): (r: State)
    requires Inv(st) && Clock.Valid(today)
    ensures Inv(r)
    ensures |parts| < 10 ==> r == st
    ensures |parts| >= 10 && (FieldInt(parts[6]).None? || FieldInt(parts[7]).None?) ==> r == st
    ensures |parts| >= 10 && FieldInt(parts[6]).Some? && FieldInt(parts[7]).Some? ==>
      r == RecordTime(RecordAltitude(
             RecordPosition(st.(fixQuality := FieldInt(parts[6]), satellites := FieldInt(parts[7])),
                            ParseCoordinate(parts[2], parts[3]), ParseCoordinate(parts[4], parts[5])),
             parts[9]), parts[1], today)
  {
    if |parts| < 9 then st
    else
      var fix := FieldInt(parts[6]);
      var sats := FieldInt(parts[7]);
      if fix.None? || sats.None? || |parts| < 10 then st
      else
        var lat := ParseCoordinate(parts[2], parts[3]);
        var lon := ParseCoordinate(parts[4], parts[5]);
        var st1 := st.(fixQuality := fix, satellites := sats);
        RecordTime(RecordAltitude(RecordPosition(st1, lat, lon), parts[9]), parts[1], today)
  }

  /** The position part of a GGA: only a fix of quality 1 or better with both
      coordinates parsed moves the position and enters the buffer. */
  function RecordPosition(st: State, lat: Option<real>, lon: Option<real>): (r: State)
    requires Inv(st) && st.fixQuality.Some?
    ensures Inv(r)
    ensures lat.Some? && lon.Some? && st.fixQuality.value >= 1 ==>
      r.latitude == lat && r.longitude == lon
      && r.buffer == BoundedAppend(st.buffer, Coord(lat.value, lon.value), st.bufferSize)
    ensures !(lat.Some? && lon.Some? && st.fixQuality.value >= 1) ==> r == st
    ensures r.fixQuality == st.fixQuality && r.satellites == st.satellites
    ensures r.altitude == st.altitude && r.timestamp == st.timestamp && r.speed == st.speed
    ensures r.running == st.running && r.bufferSize == st.bufferSize
  {
    if lat.Some? && lon.Some? && st.fixQuality.value >= 1 then AddFix(st, lat.value, lon.value)
    else st
  }

  /** Altitude from field 9, kept as it was when the field is empty or `float` rejects it. */
  function RecordAltitude(st: State, text: string): (r: State)
    requires Inv(st)
    ensures Inv(r)
    ensures r == st.(altitude := r.altitude)
    ensures r.altitude != st.altitude ==> r.altitude == ParseFloat(text) && text != ""
    ensures ParseFloat(text).Some? ==> r.altitude == ParseFloat(text)
  {
    if text != "" && ParseFloat(text).Some? then st.(altitude := ParseFloat(text)) else st
  }

  /** Today's date followed by the first eight characters of the UTC time field. */
  function RecordTime(st: State, text: string, today: Clock.DateTime): (r: State)
    requires Inv(st) && Clock.Valid(today)
    ensures Inv(r)
    ensures r == st.(timestamp := r.timestamp)
    ensures text == "" ==> r == st
    ensures text != "" ==>
      && r.timestamp.Some? && 11 < |r.timestamp.value| <= 19
      && r.timestamp.value[..10] == Clock.DateText(today)
      && StartsWith(text, r.timestamp.value[11..])
    ensures text != "" ==> r.timestamp == Some(Clock.DateText(today) + " " + PyPrefix(text, 8))
  {
    if text != "" then st.(timestamp := Some(Clock.DateText(today) + " " + PyPrefix(text, 8))) else st
  }

  /** A GGA with a valid fix and two readable coordinates moves the position
      and records fix quality and satellite count; speed is never touched. */
  lemma GgaWithFix(st: State, parts: seq<string>, today: Clock.DateTime)
    requires Inv(st) && Clock.Valid(today)
    requires |parts| >= 10
    requires FieldInt(parts[6]).Some? && FieldInt(parts[6]).value >= 1 && FieldInt(parts[7]).Some?
    requires ParseCoordinate(parts[2], parts[3]).Some? && ParseCoordinate(parts[4], parts[5]).Some?
    ensures var r := ParseGga(st, parts, today);
      && r.fixQuality == FieldInt(parts[6]) && r.satellites == FieldInt(parts[7])
      && r.latitude == ParseCoordinate(parts[2], parts[3])
      && r.longitude == ParseCoordinate(parts[4], parts[5])
      && r.buffer == BoundedAppend(st.buffer,
           Coord(ParseCoordinate(parts[2], parts[3]).value, ParseCoordinate(parts[4], parts[5]).value),
           st.bufferSize)
      && r.speed == st.speed && r.running == st.running
  {
  }

  /** A well-formed GGA without a valid fix (quality 0, an empty quality field,
      or an unreadable coordinate) records quality and satellites but leaves
      the position and the buffer alone. */
  lemma GgaWithoutFix(st: State, parts: seq<string>, today: Clock.DateTime)
    requires Inv(st) && Clock.Valid(today)
    requires |parts| >= 10 && FieldInt(parts[6]).Some? && FieldInt(parts[7]).Some?
    requires FieldInt(parts[6]).value < 1
          || ParseCoordinate(parts[2], parts[3]).None? || ParseCoordinate(parts[4], parts[5]).None?
    ensures var r := ParseGga(st, parts, today);
      && r.fixQuality == FieldInt(parts[6]) && r.satellites == FieldInt(parts[7])
      && r.latitude == st.latitude && r.longitude == st.longitude && r.buffer == st.buffer
      && r.smoothedLat == st.smoothedLat && r.smoothedLon == st.smoothedLon
  {
  }

  /** `_parse_rmc`: only the speed, and only from a parsable field 7. */
  function ParseRmc(st: State, parts: seq<string>): (r: State)
    ensures r == st.(speed := r.speed)
    ensures r.speed != st.speed ==> |parts| >= 9 && r.speed == ParseFloat(parts[7])
    ensures |parts| >= 9 && ParseFloat(parts[7]).Some? ==> r.speed == ParseFloat(parts[7])
  {
    if |parts| >= 9 && parts[7] != "" && ParseFloat(parts[7]).Some? then st.(speed := ParseFloat(parts[7]))
    else st
  }

  /** The sentence type: the first field without its leading '$'. */
  function Tag(line: string): string {
    PySuffix(Split(StripChecksum(line), ',')[0], 1)
  }

  /** `_parse_nmea_sentence` on one received line. */
  function ParseSentence(st: State, line: string, today: Clock.DateTime): (r: State)
    requires Inv(st) && Clock.Valid(today)
    ensures Inv(r)
    ensures !StartsWith(line, "$") ==> r == st
    ensures Tag(line) != "GPGGA" && Tag(line) != "GPRMC" ==> r == st
    ensures r.running == st.running && r.bufferSize == st.bufferSize
  {
    if !StartsWith(line, "$") then st
    else
      var parts := Split(StripChecksum(line), ',');
      var tag := PySuffix(parts[0], 1);
      if tag == "GPGGA" then ParseGga(st, parts, today)
      else if tag == "GPRMC" then ParseRmc(st, parts)
      else st
  }

  /** Everything from the first '*' on (the checksum) is ignored, and never checked. */
  lemma ChecksumIgnored(st: State, body: string, checksum: string, today: Clock.DateTime)
    requires Inv(st) && Clock.Valid(today)
    requires '*' !in body
    ensures ParseSentence(st, body + "*" + checksum, today) == ParseSentence(st, body, today)
  {
    var line := body + "*" + checksum;
    assert line[|body|] == '*' && line[..|body|] == body;
    assert IndexOf(line, '*') == |body|;
    assert StripChecksum(line) == body;
    if |body| > 0 {
      assert StartsWith(line, "$") <==> StartsWith(body, "$");
    }
  }

  // ---------------------------------------------------------------------
  // Snapshots
  // ---------------------------------------------------------------------

  /** The dictionary `get_current_data` returns. */
  datatype Snapshot = Snapshot(
    latitude: Option<real>,
    longitude: Option<real>,
    smoothedLatitude: Option<real>,
    smoothedLongitude: Option<real>,
    timestamp: Option<string>,
    altitude: Option<real>,
    speed: Option<real>,
    satellites: Option<int>,
    fixQuality: Option<int>,
    hasFix: bool)

  /** `get_current_data`. */
  function GetCurrentData(st: State): (d: Snapshot)
    ensures d.hasFix <==> st.fixQuality.Some? && st.fixQuality.value >= 1
    ensures d.latitude == st.latitude && d.longitude == st.longitude
    ensures d.smoothedLatitude == st.smoothedLat && d.smoothedLongitude == st.smoothedLon
    ensures d.satellites == st.satellites && d.fixQuality == st.fixQuality
  {
    Snapshot(st.latitude, st.longitude, st.smoothedLat, st.smoothedLon, st.timestamp,
             st.altitude, st.speed, st.satellites, st.fixQuality,
             st.fixQuality.Some? && st.fixQuality.value >= 1)
  }

  /** The success test polled by `wait_for_fix`. */
  predicate FixAcquired(d: Snapshot) {
    d.hasFix && d.satellites.Some? && d.satellites.value >= MinSatellites
  }

  /** A fix is acquired exactly when the quality is at least 1 and four or more satellites are in view. */
  lemma FixAcquiredIff(st: State)
    ensures FixAcquired(GetCurrentData(st)) <==>
      st.fixQuality.Some? && st.fixQuality.value >= 1 && st.satellites.Some? && st.satellites.value >= 4
  {
  }

  datatype Position = Position(lat: Option<real>, lon: Option<real>)

  /** `get_position`: smoothed when both smoothed values exist, else raw when
      both exist, else `(None, None)`. */
  function GetPosition(st: State): (p: Position)
    ensures p.lat.Some? <==> p.lon.Some?
    ensures p.lat.Some? ==> p.lat == st.smoothedLat || p.lat == st.latitude
    ensures st.smoothedLat.Some? && st.smoothedLon.Some? ==> p == Position(st.smoothedLat, st.smoothedLon)
    ensures p.lat.None? ==> (st.smoothedLat.None? || st.smoothedLon.None?) && (st.latitude.None? || st.longitude.None?)
  {
    if st.smoothedLat.Some? && st.smoothedLon.Some? then Position(st.smoothedLat, st.smoothedLon)
    else if st.latitude.Some? && st.longitude.Some? then Position(st.latitude, st.longitude)
    else Position(None, None)
  }

  /** Once a fix is buffered, a position is always available: the newest raw
      fix while fewer than five are buffered, their mean from then on. */
  lemma PositionAfterFix(st: State)
    requires Inv(st) && |st.buffer| > 0
    ensures |st.buffer| < SmoothingMinimum ==>
      GetPosition(st) == Position(Some(st.buffer[|st.buffer| - 1].lat), Some(st.buffer[|st.buffer| - 1].lon))
    ensures |st.buffer| >= SmoothingMinimum ==>
      GetPosition(st) == Position(Some(Mean(st.buffer).lat), Some(Mean(st.buffer).lon))
  {
  }

  /** The reported position never leaves the bounding box of the buffered fixes. */
  lemma PositionWithinBuffer(st: State, latLo: real, latHi: real, lonLo: real, lonHi: real)
    requires Inv(st) && |st.buffer| > 0
    requires LatWithin(st.buffer, latLo, latHi) && LonWithin(st.buffer, lonLo, lonHi)
    ensures var p := GetPosition(st);
      p.lat.Some? && latLo <= p.lat.value <= latHi && lonLo <= p.lon.value <= lonHi
  {
    if |st.buffer| >= SmoothingMinimum {
      MeanWithinBounds(st.buffer, latLo, latHi, lonLo, lonHi);
    } else {
      var i := |st.buffer| - 1;
      assert latLo <= st.buffer[i].lat <= latHi && lonLo <= st.buffer[i].lon <= lonHi;
    }
  }

  // ---------------------------------------------------------------------
  // Lifecycle
  // ---------------------------------------------------------------------

  /** `start`: `connected` is whether the serial port opened. */
  function Start(st: State, connected: bool): (r: (State, bool))
    ensures r.1 <==> !st.running && connected
    ensures r.0.running == (st.running || connected)
    ensures r.0 == st.(running := r.0.running)
  {
    if st.running then (st, false)
    else if !connected then (st, false)
    else (st.(running := true), true)
  }

  /** `stop`: the reader is no longer running; the position state is kept. */
  function Stop(st: State): (r: State)
    ensures !r.running && r == st.(running := false)
  {
    st.(running := false)
  }
}

=== FILE: numbers.dfy ===
/** Decimal text and numbers: the subset of Python's `int(str)` and
    `float(str)` that the dashcam feeds them (an optional sign followed by
    ASCII digits, with at most one decimal point for `float`), read exactly
    into `int` and `real`, and the decimal renderings `str(n)` and
    zero-padded `%02d`-style fields. */
module Numbers {
  import opened Common

  predicate IsDigit(ch: char) {
    '0' <= ch <= '9'
  }

  predicate AllDigits(s: string) {
    forall i :: 0 <= i < |s| ==> IsDigit(s[i])
  }

  function DigitValue(ch: char): nat
    requires IsDigit(ch)
  {
    ch as int - '0' as int
  }

  function DigitChar(d: nat): (ch: char)
    requires d < 10
    ensures IsDigit(ch) && DigitValue(ch) == d
  {
    ('0' as int + d) as char
  }

  /** The value of a string of decimal digits, most significant first. */
  function DigitsValue(s: string): nat
    requires AllDigits(s)
  {
    if |s| == 0 then 0
    else DigitsValue(s[..|s| - 1]) * 10 + DigitValue(s[|s| - 1])
  }

  function Pow10(n: nat): (p: nat)
    ensures p >= 1
  {
    if n == 0 then 1 else 10 * Pow10(n - 1)
  }

  /** A digit string is worth less than ten to the power of its length. */
  lemma {:induction false} DigitsValueBound(s: string)
    requires AllDigits(s)
    ensures DigitsValue(s) < Pow10(|s|)
  {
    if |s| > 0 {
      DigitsValueBound(s[..|s| - 1]);
    }
  }

  /** Python's `int(s)` on sign-and-digits text; `None` where Python raises ValueError. */
  function ParseInt(s: string): (r: Option<int>)
    ensures AllDigits(s) && s != "" ==> r == Some(DigitsValue(s))
    ensures r.Some? ==> s != "" && (IsDigit(s[0]) || s[0] == '-' || s[0] == '+')
    ensures r.Some? ==> forall i :: 1 <= i < |s| ==> IsDigit(s[i])
  {
    if |s| > 0 && (s[0] == '-' || s[0] == '+') then
      var body := s[1..];
      if |body| > 0 && AllDigits(body) then
        Some(if s[0] == '-' then -(DigitsValue(body) as int) else DigitsValue(body))
      else None
    else if |s| > 0 && AllDigits(s) then Some(DigitsValue(s))
    else None
  }

  /** `int()` accepts exactly an optional sign followed by at least one digit,
      and gives the signed decimal value. */
  lemma ParseIntMeaning(s: string)
    ensures ParseInt(s).Some? <==>
      || (s != "" && AllDigits(s))
      || (|s| >= 2 && (s[0] == '-' || s[0] == '+') && AllDigits(s[1..]))
    ensures |s| >= 2 && (s[0] == '-' || s[0] == '+') && AllDigits(s[1..]) ==>
      ParseInt(s) == Some(if s[0] == '-' then -(DigitsValue(s[1..]) as int) else DigitsValue(s[1..]) as int)
  {
  }

  /** The value of `intPart.fracPart` written in decimal. */
  function DecimalValue(intPart: string, fracPart: string): real
    requires AllDigits(intPart) && AllDigits(fracPart)
  {
    DigitsValue(intPart) as real + DigitsValue(fracPart) as real / Pow10(|fracPart|) as real
  }

  /** Unsigned decimal text: digits with at most one '.', and at least one digit. */
  function ParseUnsignedDecimal(s: string): Option<real> {
    if '.' in s then
      var d := IndexOf(s, '.');
      var ip := s[..d];
      var fp := s[d + 1..];
      if AllDigits(ip) && AllDigits(fp) && |ip| + |fp| > 0 then Some(DecimalValue(ip, fp))
      else None
    else if |s| > 0 && AllDigits(s) then Some(DigitsValue(s) as real)
    else None
  }

  /** Python's `float(s)` on signed decimal text, read exactly. */
  function ParseFloat(s: string): (r: Option<real>)
    ensures r.Some? ==> exists k :: 0 <= k < |s| && IsDigit(s[k])
  {
    if |s| > 0 && (s[0] == '-' || s[0] == '+') then
      match ParseUnsignedDecimal(s[1..])
      case Some(v) => Some(if s[0] == '-' then -v else v)
      case None => None
    else ParseUnsignedDecimal(s)
  }

  /** Decimal reading of `intPart + "." + fracPart`. */
  lemma ParseFloatDecimal(intPart: string, fracPart: string)
    requires AllDigits(intPart) && AllDigits(fracPart) && |intPart| > 0
    ensures ParseFloat(intPart + "." + fracPart) == Some(DecimalValue(intPart, fracPart))
  {
    var s := intPart + "." + fracPart;
    assert s[|intPart|] == '.';
    assert s[..|intPart|] == intPart;
    assert '.' !in intPart;
    var d := IndexOf(s, '.');
    assert d == |intPart|;
    assert s[d + 1..] == fracPart;
    assert IsDigit(s[0]);
  }

  /** Python's `str(n)` for a natural number. */
  function NatToString(n: nat): (s: string)
    ensures |s| >= 1 && AllDigits(s)
    ensures DigitsValue(s) == n
  {
    if n < 10 then [DigitChar(n)]
    else
      var s := NatToString(n / 10) + [DigitChar(n % 10)];
      assert s[..|s| - 1] == NatToString(n / 10);
      s
  }

  /** Python's `str(n)` for an integer. */
  function IntToString(n: int): string {
    if n < 0 then "-" + NatToString(-n) else NatToString(n)
  }

  /** `int(str(n)) == n`: decimal rendering and Python's integer parse are inverse. */
  lemma IntToStringRoundTrip(n: int)
    ensures ParseInt(IntToString(n)) == Some(n)
  {
    if n < 0 {
      var s := IntToString(n);
      assert s[1..] == NatToString(-n);
      assert s[0] == '-';
    }
  }

  /** No character of `str(n)` is any of the given separators. */
  lemma IntToStringChars(n: int, ch: char)
    requires !IsDigit(ch) && ch != '-'
    ensures ch !in IntToString(n)
  {
    var digits := NatToString(if n < 0 then -n else n);
    assert ch !in digits;
  }

  /** The `w`-digit zero-padded rendering of `n` (strftime's `%02d`, `%04d`). */
  function PadDigits(n: nat, w: nat): (s: string)
    requires n < Pow10(w)
    ensures |s| == w && AllDigits(s)
    ensures DigitsValue(s) == n
  {
    if w == 0 then ""
    else
      var s := PadDigits(n / 10, w - 1) + [DigitChar(n % 10)];
      assert s[..|s| - 1] == PadDigits(n / 10, w - 1);
      s
  }
}

=== FILE: recorder.dfy ===
/** The video recorder: the encoder command lines, encoder and camera
    selection, the close protocol, segment rotation, one iteration of the
    recording loop, and the text lines of the frame overlay. The camera, the
    ffmpeg process and the clock are parameters: what a call to them would
    return is passed in. */
module Recorder {
  import opened Common
  import opened Numbers
  import Clock

  // ---------------------------------------------------------------------
  // Encoder command lines
  // ---------------------------------------------------------------------

  /** `f'{width}x{height}'`. */
  function VideoSize(width: int, height: int): string {
    IntToString(width) + "x" + IntToString(height)
  }

  /** The input half shared by both encoders: raw BGR frames of the configured
      size and rate read from standard input. */
  function InputArgs(width: int, height: int, fps: int): (args: seq<string>)
    ensures |args| == 11 && args[0] == "ffmpeg" && args[10] == "-"
  {
    ["ffmpeg", "-f", "rawvideo", "-pixel_format", "bgr24", "-video_size", VideoSize(width, height),
     "-framerate", IntToString(fps), "-i", "-"]
  }

  /** `_get_ffmpeg_command`: NVENC hardware H.264 at a variable 5000k bitrate. */
  function HardwareCommand(width: int, height: int, fps: int, output: string): (cmd: seq<string>)
    ensures |cmd| == 21 && cmd[..11] == InputArgs(width, height, fps) && cmd[20] == output
    ensures cmd[11..13] == ["-c:v", "h264_nvenc"]
  {
    var input := InputArgs(width, height, fps);
    var codec := ["-c:v", "h264_nvenc", "-preset", "default", "-rc:v", "vbr", "-b:v", "5000k", "-y", output];
    assert (input + codec)[..11] == input && (input + codec)[11..13] == codec[..2];
    input + codec
  }

  /** `_get_ffmpeg_command_fallback`: software libx264 at constant quality 23. */
  function FallbackCommand(width: int, height: int, fps: int, output: string): (cmd: seq<string>)
    ensures |cmd| == 19 && cmd[..11] == InputArgs(width, height, fps) && cmd[18] == output
    ensures cmd[11..13] == ["-c:v", "libx264"]
  {
    var input := InputArgs(width, height, fps);
    var codec := ["-c:v", "libx264", "-preset", "fast", "-crf", "23", "-y", output];
    assert (input + codec)[..11] == input && (input + codec)[11..13] == codec[..2];
    input + codec
  }

  /** The two command lines read the same input, write the same file, and
      differ in the codec; the size argument reads back as the configured
      width and height, and the rate argument as the configured rate. */
  lemma CommandsAgree(width: int, height: int, fps: int, output: string)
    ensures var hw := HardwareCommand(width, height, fps, output);
            var sw := FallbackCommand(width, height, fps, output);
      && hw[..11] == sw[..11]
      && hw[|hw| - 1] == sw[|sw| - 1] == output
      && hw[12] != sw[12]
    ensures Split(VideoSize(width, height), 'x') == [IntToString(width), IntToString(height)]
    ensures ParseInt(IntToString(width)) == Some(width) && ParseInt(IntToString(height)) == Some(height)
    ensures ParseInt(InputArgs(width, height, fps)[8]) == Some(fps)
  {
    CodecsDiffer(width, height, fps, output);
    VideoSizeSplits(width, height);
    IntToStringRoundTrip(width);
    IntToStringRoundTrip(height);
    assert ParseInt(InputArgs(width, height, fps)[8]) == Some(fps) by {
      assert InputArgs(width, height, fps)[8] == IntToString(fps);
      IntToStringRoundTrip(fps);
    }
  }

  lemma CodecsDiffer(width: int, height: int, fps: int, output: string)
    ensures var hw := HardwareCommand(width, height, fps, output);
            var sw := FallbackCommand(width, height, fps, output);
      && hw[..11] == sw[..11]
      && hw[|hw| - 1] == sw[|sw| - 1] == output
      && hw[12] != sw[12]
  {
    var hw := HardwareCommand(width, height, fps, output);
    var sw := FallbackCommand(width, height, fps, output);
    assert hw[12] == hw[11..13][1] == "h264_nvenc" && sw[12] == sw[11..13][1] == "libx264";
    assert hw[12][0] == 'h' && sw[12][0] == 'l';
  }

  lemma VideoSizeSplits(width: int, height: int)
    ensures Split(VideoSize(width, height), 'x') == [IntToString(width), IntToString(height)]
  {
    IntToStringChars(width, 'x');
    IntToStringChars(height, 'x');
    SplitJoin([IntToString(width), IntToString(height)], 'x');
    assert Join([IntToString(width), IntToString(height)], 'x') == VideoSize(width, height) by {
      assert [IntToString(width), IntToString(height)][1..] == [IntToString(height)];
    }
  }

  /** A running ffmpeg process and the command line it was started with. */
  datatype Encoder = Encoder(command: seq<string>)

  /** `_start_ffmpeg_encoder`: `launches(cmd)` is whether `Popen(cmd)` succeeds.
      The software command is tried only when the hardware one fails. */
  function StartEncoder(width: int, height: int, fps: int, output: string,
                        launches: seq<string> -> bool): (e: Option<Encoder>)
    ensures var hw := HardwareCommand(width, height, fps, output);
            var sw := FallbackCommand(width, height, fps, output);
      && (launches(hw) ==> e == Some(Encoder(hw)))
      && (!launches(hw) && launches(sw) ==> e == Some(Encoder(sw)))
      && (e.None? <==> !launches(hw) && !launches(sw))
  {
    var hw := HardwareCommand(width, height, fps, output);
    var sw := FallbackCommand(width, height, fps, output);
    if launches(hw) then Some(Encoder(hw))
    else if launches(sw) then Some(Encoder(sw))
    else None
  }

  // ---------------------------------------------------------------------
  // Camera
  // ---------------------------------------------------------------------

  /** `_get_camera_source` tries these device indices in order. */
  const CameraIndices: seq<nat> := [0, 1, 2, 3]

  /** `_get_camera_source`: `opens(k)` is whether device `k` opens (an exception
      counts as not opening). The first index that opens is used. */
  method GetCameraSource(opens: nat -> bool) returns (cam: Option<nat>)
    ensures cam.Some? ==> cam.value in CameraIndices && opens(cam.value)
    ensures cam.Some? ==> forall k :: 0 <= k < cam.value ==> !opens(k)
    ensures cam.None? <==> forall k :: 0 <= k < |CameraIndices| ==> !opens(CameraIndices[k])
  {
    var i := 0;
    while i < |CameraIndices|
      invariant 0 <= i <= |CameraIndices|
      invariant forall k :: 0 <= k < i ==> !opens(CameraIndices[k])
      invariant forall k :: 0 <= k < i ==> !opens(k)
    {
      assert CameraIndices[i] == i;
      if opens(CameraIndices[i]) {
        return Some(CameraIndices[i]);
      }
      i := i + 1;
    }
    return None;
  }

  // ---------------------------------------------------------------------
  // Recorder state
  // ---------------------------------------------------------------------

  datatype Config = Config(outputDir: string, width: int, height: int, fps: int, segmentDuration: real)

  /** `VideoRecorder()` defaults. */
  const DefaultConfig := Config("/videos", 1920, 1080, 30, 300.0)

  /** `camera` is the opened device index; `segmentStart` is the `time.time()`
      reading when the current segment began. */
  datatype State = State(
    config: Config,
    running: bool,
    writer: Option<Encoder>,
    camera: Option<nat>,
    currentFilename: Option<string>,
    segmentStart: Option<real>,
    frameCount: nat)

  function Init(config: Config): (st: State)
    ensures !st.running && st.writer.None? && st.camera.None? && st.frameCount == 0
  {
    State(config, false, None, None, None, None, 0)
  }

  /** Side effects on the process and the device, in the order they happen. */
  datatype Action = CloseStdin | WaitEncoder(timeout: nat) | KillEncoder | ReleaseCamera

  /** How closing the encoder went: `stdin.close()` may raise, and so may
      `wait(timeout=5)` when the process outlives the timeout. */
  datatype CloseOutcome = Closed | StdinFailed | WaitTimedOut

  /** `_close_encoder` waits this long (seconds) before giving up. */
  const CloseTimeout: nat := 5

  /** `_close_encoder`: nothing without a writer; otherwise close stdin, wait a
      bounded time, kill only if either step raised, and always drop the writer. */
  function CloseEncoder(st: State, outcome: CloseOutcome): (r: (State, seq<Action>))
    ensures r.0 == st.(writer := None)
    ensures st.writer.None? ==> r.1 == []
    ensures st.writer.Some? ==> |r.1| >= 2 && r.1[0] == CloseStdin
    ensures KillEncoder in r.1 <==> st.writer.Some? && outcome != Closed
    ensures WaitEncoder(CloseTimeout) in r.1 <==> st.writer.Some? && outcome != StdinFailed
    ensures forall a :: a in r.1 ==> a != ReleaseCamera
  {
    if st.writer.None? then (st, [])
    else
      var trace := match outcome
        case Closed => [CloseStdin, WaitEncoder(CloseTimeout)]
        case StdinFailed => [CloseStdin, KillEncoder]
        case WaitTimedOut => [CloseStdin, WaitEncoder(CloseTimeout), KillEncoder];
      (st.(writer := None), trace)
  }

  /** `_close_camera`: release and forget the device if one is open. */
  function CloseCamera(st: State): (r: (State, seq<Action>))
    ensures r.0 == st.(camera := None)
    ensures r.1 == (if st.camera.Some? then [ReleaseCamera] else [])
  {
    if st.camera.Some? then (st.(camera := None), [ReleaseCamera]) else (st, [])
  }

  /** The outcomes of the outside world that one segment start or one frame depends on. */
  datatype World = World(clock: Clock.DateTime, time: real, close: CloseOutcome, launches: seq<string> -> bool)

  /** `_start_new_segment`: close the old encoder, name the new segment after
      the clock, restart the segment clock and the frame count, and start an
      encoder writing to `<output_dir>/<name>`. */
  function StartNewSegment(st: State, w: World): (r: (State, seq<Action>))
    requires Clock.Valid(w.clock)
    ensures r.0.currentFilename == Some(Clock.VideoFilename(w.clock))
    ensures Clock.ParseVideoFilename(r.0.currentFilename.value) == Some(w.clock)
    ensures r.0.segmentStart == Some(w.time) && r.0.frameCount == 0
    ensures r.0.writer == StartEncoder(st.config.width, st.config.height, st.config.fps,
                                       st.config.outputDir + "/" + r.0.currentFilename.value, w.launches)
    ensures r.0.running == st.running && r.0.camera == st.camera && r.0.config == st.config
    ensures r.1 == CloseEncoder(st, w.close).1
  {
    var (closed, trace) := CloseEncoder(st, w.close);
    var name := Clock.VideoFilename(w.clock);
    Clock.VideoFilenameRoundTrip(w.clock);
    var writer := StartEncoder(st.config.width, st.config.height, st.config.fps,
                               st.config.outputDir + "/" + name, w.launches);
    (closed.(currentFilename := Some(name), segmentStart := Some(w.time), frameCount := 0, writer := writer), trace)
  }

  /** The camera read and the encoder write of one iteration. `writeOk` is
      whether writing the frame to the encoder's stdin succeeded. */
  datatype FrameOutcome = FrameOutcome(readOk: bool, writeOk: bool)

  /** Whether a segment started at `start` has run its course at `now`. */
  predicate SegmentExpired(st: State, now: real)
    requires st.segmentStart.Some?
  {
    now - st.segmentStart.value >= st.config.segmentDuration
  }

  /** One iteration of `_recording_loop` once the first segment has started:
      a failed read changes nothing; a failed write starts a new segment before
      the frame is counted; the frame is counted; an expired segment is rotated.
      All clock readings of one iteration are taken to be `w.time`. */
  function FrameStep(st: State, f: FrameOutcome, w: World): (r: (State, seq<Action>))
    requires st.segmentStart.Some? && Clock.Valid(w.clock)
    ensures r.0.segmentStart.Some?
    ensures !f.readOk ==> r == (st, [])
    ensures r.0.running == st.running && r.0.camera == st.camera && r.0.config == st.config
  {
    if !f.readOk then (st, [])
    else
      var (st1, t1) := if st.writer.Some? && !f.writeOk then StartNewSegment(st, w) else (st, []);
      var st2 := st1.(frameCount := st1.frameCount + 1);
      if SegmentExpired(st2, w.time) then
        var (st3, t3) := StartNewSegment(st2, w);
        (st3, t1 + t3)
      else (st2, t1)
  }

  /** A good frame written to the encoder in an unexpired segment is counted,
      and nothing else changes. */
  lemma FrameCounted(st: State, f: FrameOutcome, w: World)
    requires st.segmentStart.Some? && Clock.Valid(w.clock)
    requires f.readOk && (st.writer.None? || f.writeOk) && !SegmentExpired(st, w.time)
    ensures FrameStep(st, f, w) == (st.(frameCount := st.frameCount + 1), [])
  {
  }

  /** An expired segment is closed and replaced: the frame just read was the
      last of the old segment, and the new one starts empty at `w.time`. */
  lemma ExpiredSegmentRotates(st: State, f: FrameOutcome, w: World)
    requires st.segmentStart.Some? && Clock.Valid(w.clock)
    requires f.readOk && (st.writer.None? || f.writeOk) && SegmentExpired(st, w.time)
    ensures var (r, trace) := FrameStep(st, f, w);
      && r.frameCount == 0 && r.segmentStart == Some(w.time)
      && r.currentFilename == Some(Clock.VideoFilename(w.clock))
      && trace == CloseEncoder(st, w.close).1
  {
  }

  /** A write error moves the frame count to the new segment: it restarts at 1
      (unless the segment duration is not positive and the new segment expires at once). */
  lemma WriteErrorRotates(st: State, w: World)
    requires st.segmentStart.Some? && Clock.Valid(w.clock)
    requires st.writer.Some? && st.config.segmentDuration > 0.0
    ensures var (r, trace) := FrameStep(st, FrameOutcome(true, false), w);
      && r.frameCount == 1 && r.segmentStart == Some(w.time)
      && r.currentFilename == Some(Clock.VideoFilename(w.clock))
      && CloseStdin in trace
  {
  }

  /** After any iteration the current segment has not yet run its course,
      provided segments have a positive duration: rotation happens as soon as
      a frame arrives at or after the deadline. */
  lemma SegmentAgeBounded(st: State, f: FrameOutcome, w: World)
    requires st.segmentStart.Some? && Clock.Valid(w.clock)
    requires st.config.segmentDuration > 0.0 && f.readOk
    ensures var r := FrameStep(st, f, w).0;
      w.time - r.segmentStart.value < st.config.segmentDuration
  {
  }

  /** `_recording_loop` up to its loop: open a camera, or stop running when
      none opens; otherwise start the first segment. */
  method BeginRecording(st: State, opens: nat -> bool, w: World) returns (r: State, trace: seq<Action>)
    requires Clock.Valid(w.clock)
    ensures r.camera.None? ==> forall k :: 0 <= k < 4 ==> !opens(k)
    ensures r.camera.None? ==> r == st.(camera := None, running := false) && trace == []
    ensures r.camera.Some? ==>
      && r.running == st.running && r.config == st.config
      && opens(r.camera.value) && r.camera.value < 4
      && (forall k :: 0 <= k < r.camera.value ==> !opens(k))
      && r.frameCount == 0 && r.segmentStart == Some(w.time)
      && r.currentFilename == Some(Clock.VideoFilename(w.clock))
      && r.writer == StartEncoder(st.config.width, st.config.height, st.config.fps,
                                  st.config.outputDir + "/" + Clock.VideoFilename(w.clock), w.launches)
      && trace == CloseEncoder(st, w.close).1
  {
    var cam := GetCameraSource(opens);
    if cam.None? {
      assert forall k :: 0 <= k < 4 ==> !opens(k) by {
        forall k | 0 <= k < 4 ensures !opens(k) {
          assert CameraIndices[k] == k;
        }
      }
      return st.(camera := None, running := false), [];
    }
    var st1 := st.(camera := cam);
    var next := StartNewSegment(st1, w);
    r, trace := next.0, next.1;
  }

  /** The camera `BeginRecording` picks is determined: two indices that both
      open with no opening index below them are the same. */
  lemma FirstOpeningUnique(opens: nat -> bool, a: nat, b: nat)
    requires opens(a) && forall k :: 0 <= k < a ==> !opens(k)
    requires opens(b) && forall k :: 0 <= k < b ==> !opens(k)
    ensures a == b
  {
  }

  /** `start`: succeeds only from the stopped state. */
  function Start(st: State): (r: (State, bool))
    ensures r.1 <==> !st.running
    ensures r.0 == st.(running := true)
  {
    if st.running then (st, false) else (st.(running := true), true)
  }

  /** `stop`: not running, no encoder, no camera. */
  function Stop(st: State, close: CloseOutcome): (r: (State, seq<Action>))
    ensures !r.0.running && r.0.writer.None? && r.0.camera.None?
    ensures r.0 == st.(running := false, writer := None, camera := None)
    ensures ReleaseCamera in r.1 <==> st.camera.Some?
    ensures CloseStdin in r.1 <==> st.writer.Some?
  {
    var st1 := st.(running := false);
    var (st2, t2) := CloseEncoder(st1, close);
    var (st3, t3) := CloseCamera(st2);
    (st3, t2 + t3)
  }

  /** A second `stop` does nothing at all. */
  lemma StopIdempotent(st: State, first: CloseOutcome, second: CloseOutcome)
    ensures var once := Stop(st, first).0;
      Stop(once, second) == (once, [])
  {
  }

  // ---------------------------------------------------------------------
  // Overlay
  // ---------------------------------------------------------------------

  /** One entry of `vehicle_detections`; `description = None` means the key is absent. */
  datatype OverlayVehicle = OverlayVehicle(licensePlate: Option<string>, description: Option<string>, confidence: real)

  /** The overlay dictionary. An outer `None` is an absent key; for the
      coordinates an inner `None` is a present key holding `None`. */
  datatype OverlayData = OverlayData(
    timestamp: Option<string>,
    gpsLat: Option<Option<real>>,
    gpsLon: Option<Option<real>>,
    vehicleDetections: Option<seq<OverlayVehicle>>)

  /** A text line of the overlay. GPS coordinates are kept as numbers: their
      six-decimal rendering is not modelled. */
  datatype Line = TextLine(text: string) | GpsLine(lat: real, lon: real)

  /** At most this many vehicles are written on a frame. */
  const MaxVehicleLines: nat := 3

  /** "Vehicle: <description or Unknown>", then " [<plate>]" for a non-empty plate. */
  function VehicleLine(v: OverlayVehicle): (s: string)
    ensures StartsWith(s, "Vehicle: " + v.description.GetOr("Unknown"))
    ensures Truthy(v.licensePlate) <==> EndsWith(s, "]") && |s| > |"Vehicle: " + v.description.GetOr("Unknown")|
  {
    var text := "Vehicle: " + v.description.GetOr("Unknown");
    if Truthy(v.licensePlate) then
      var s := text + " [" + v.licensePlate.value + "]";
      assert s[..|text|] == text;
      s
    else text
  }

  /** The plate appears in brackets after the description, and the line can
      be read back: the text between " [" and the final ']' is the plate. */
  lemma VehicleLineText(v: OverlayVehicle)
    ensures var text := "Vehicle: " + v.description.GetOr("Unknown");
      Truthy(v.licensePlate) ==> VehicleLine(v) == text + " [" + v.licensePlate.value + "]"
    ensures var text := "Vehicle: " + v.description.GetOr("Unknown");
      !Truthy(v.licensePlate) ==> VehicleLine(v) == text
    ensures var s, n := VehicleLine(v), |"Vehicle: " + v.description.GetOr("Unknown")|;
      Truthy(v.licensePlate) ==> s[n..n + 2] == " [" && s[n + 2..|s| - 1] == v.licensePlate.value
  {
    var text := "Vehicle: " + v.description.GetOr("Unknown");
    if Truthy(v.licensePlate) {
      var s := text + " [" + v.licensePlate.value + "]";
      assert s[|text|..|text| + 2] == " [";
      assert s[|text| + 2..|s| - 1] == v.licensePlate.value;
    }
  }

  function TimeLines(d: OverlayData): seq<Line> {
    if d.timestamp.Some? then [TextLine("Time: " + d.timestamp.value)] else []
  }

  function GpsLines(d: OverlayData): seq<Line> {
    if d.gpsLat.Some? && d.gpsLon.Some? then
      if d.gpsLat.value.Some? && d.gpsLon.value.Some? then [GpsLine(d.gpsLat.value.value, d.gpsLon.value.value)]
      else [TextLine("GPS: No Fix")]
    else []
  }

  function VehicleLines(vs: seq<OverlayVehicle>): (lines: seq<Line>)
    ensures |lines| == |vs|
    ensures forall i :: 0 <= i < |vs| ==> lines[i] == TextLine(VehicleLine(vs[i]))
  {
    if |vs| == 0 then [] else [TextLine(VehicleLine(vs[0]))] + VehicleLines(vs[1..])
  }

  /** The text lines `_apply_overlay` draws, top to bottom. */
  function OverlayLines(d: OverlayData): (lines: seq<Line>)
    ensures |lines| <= 2 + MaxVehicleLines
  {
    var shown := if d.vehicleDetections.Some? then PyPrefix3(d.vehicleDetections.value) else [];
    TimeLines(d) + GpsLines(d) + VehicleLines(shown)
  }

  /** `detections[:3]`. */
  function PyPrefix3(vs: seq<OverlayVehicle>): (r: seq<OverlayVehicle>)
    ensures |r| == if |vs| < MaxVehicleLines then |vs| else MaxVehicleLines
    ensures r == vs[..|r|]
  {
    if |vs| <= MaxVehicleLines then vs else vs[..MaxVehicleLines]
  }

  /** The overlay's layout: a time line exactly when a timestamp is given, first;
      a GPS line exactly when both coordinate keys are present, next ("No Fix"
      when either holds `None`); then one line per vehicle for the first three. */
  lemma OverlayLayout(d: OverlayData)
    ensures var lines := OverlayLines(d);
            var t := if d.timestamp.Some? then 1 else 0;
            var g := if d.gpsLat.Some? && d.gpsLon.Some? then 1 else 0;
            var vs := if d.vehicleDetections.Some? then d.vehicleDetections.value else [];
            var n := if |vs| < MaxVehicleLines then |vs| else MaxVehicleLines;
      && |lines| == t + g + n
      && (d.timestamp.Some? ==> lines[0] == TextLine("Time: " + d.timestamp.value))
      && (g == 1 ==> (lines[t] == TextLine("GPS: No Fix")
                      <==> d.gpsLat.value.None? || d.gpsLon.value.None?))
      && (forall i :: 0 <= i < n ==> lines[t + g + i] == TextLine(VehicleLine(vs[i])))
  {
    var vs := if d.vehicleDetections.Some? then d.vehicleDetections.value else [];
    var shown := PyPrefix3(vs);
    var tl, gl, vl := TimeLines(d), GpsLines(d), VehicleLines(shown);
    assert OverlayLines(d) == tl + gl + vl;
    forall i | 0 <= i < |shown| ensures (tl + gl + vl)[|tl| + |gl| + i] == TextLine(VehicleLine(vs[i])) {
      assert (tl + gl + vl)[|tl| + |gl| + i] == vl[i];
    }
  }
}

=== FILE: utils.dfy ===
/** The utility module of the dashcam: its stand-alone coordinate parser
    and smoother, human-readable byte sizes, disk-usage percentages, the
    configuration store and the segment file name. */
module Utils {
  import opened Common
  import opened Numbers
  import opened Coordinates
  import Clock

  // ---------------------------------------------------------------------
  // Coordinates
  // ---------------------------------------------------------------------

  /** `parse_gps_coordinate`: unlike the GPS reader's parser it accepts `None`
      arguments, rejects texts shorter than five characters, and reads a
      text without '.' as degrees followed by a seven-character minutes field. */
  function ParseGpsCoordinate(coord: Option<string>, dir: Option<string>): (r: Option<real>)
    ensures !Truthy(coord) || !Truthy(dir) ==> r == None
    ensures Truthy(coord) && |coord.value| < 5 ==> r == None
  {
    if !Truthy(coord) || !Truthy(dir) then None
    else
      var c := coord.value;
      if |c| < 5 then None
      else if '.' in c then
        var dot := IndexOf(c, '.');
        DegreesMinutes(PyPrefix(c, dot - 2), PySuffix(c, dot - 2), dir.value)
      else DegreesMinutes(PyPrefix(c, -7), PySuffix(c, -7), dir.value)
  }

  /** A "DDMM.MMMM" text of at least five characters decodes to degrees plus
      minutes over sixty, negative exactly for the 'S' and 'W' hemispheres. */
  lemma ParseGpsCoordinateDecodes(deg: string, mm: string, frac: string, dir: string)
    requires AllDigits(deg) && |deg| > 0 && AllDigits(mm) && |mm| == 2 && AllDigits(frac)
    requires |deg| + |frac| >= 2 && dir != ""
    ensures ParseGpsCoordinate(Some(deg + mm + "." + frac), Some(dir))
         == Some(Signed(DdmmValue(deg, mm, frac), dir))
  {
    var c := deg + mm + "." + frac;
    var dot := |deg| + 2;
    assert '.' in c && IndexOf(c, '.') == dot by {
      DotPosition(deg + mm, frac);
      assert c == (deg + mm) + "." + frac;
    }
    assert PyPrefix(c, dot - 2) == deg && PySuffix(c, dot - 2) == mm + "." + frac;
    DegreesMinutesOfDdmm(deg, mm, frac, dir);
  }

  /** Without a '.', a text of five to seven characters has no degrees part
      (`coord[:-7]` is empty), so it is rejected, e.g. "invalid". */
  lemma DotlessShortRejected(c: string, dir: string)
    requires '.' !in c && 5 <= |c| <= 7
    ensures ParseGpsCoordinate(Some(c), Some(dir)) == None
  {
    assert PyPrefix(c, -7) == "";
  }

  /** The worked example "3723.2475" N: about 37.387458 (to within 1e-4 degrees). */
  lemma ParseGpsCoordinateNorth()
    ensures var r := ParseGpsCoordinate(Some("3723.2475"), Some("N"));
      r.Some? && 37.387458 - 0.0001 < r.value < 37.387458 + 0.0001
  {
    Split3723("N");
    Value3723();
  }

  /** "3723.2475" S is negative. */
  lemma ParseGpsCoordinateSouth()
    ensures var r := ParseGpsCoordinate(Some("3723.2475"), Some("S"));
      r.Some? && r.value < 0.0
  {
    Split3723("S");
    Value3723();
  }

  /** The worked example "12158.3416" W: about -121.972360. */
  lemma ParseGpsCoordinateWest()
    ensures var r := ParseGpsCoordinate(Some("12158.3416"), Some("W"));
      r.Some? && -121.972360 - 0.0001 < r.value < -121.972360 + 0.0001
  {
    var deg, mm, frac := "121", "58", "3416";
    assert "12158.3416" == deg + mm + "." + frac;
    ParseGpsCoordinateDecodes(deg, mm, frac, "W");
    Value12158();
  }

  lemma Split3723(dir: string)
    requires dir != ""
    ensures ParseGpsCoordinate(Some("3723.2475"), Some(dir)) == Some(Signed(DdmmValue("37", "23", "2475"), dir))
  {
    var deg, mm, frac := "37", "23", "2475";
    assert "3723.2475" == deg + mm + "." + frac;
    ParseGpsCoordinateDecodes(deg, mm, frac, dir);
  }

  lemma Value3723()
    ensures DdmmValue("37", "23", "2475") == 37.0 + (23.0 + 2475.0 / 10000.0) / 60.0
  {
    assert DigitsValue("37") == 37 by {
      assert "37"[..1] == "3";
      assert "3"[..0] == "";
    }
    assert DigitsValue("23") == 23 by {
      assert "23"[..1] == "2";
      assert "2"[..0] == "";
    }
    assert DigitsValue("2475") == 2475 by {
      assert "2475"[..3] == "247";
      assert "247"[..2] == "24";
      assert "24"[..1] == "2";
      assert "2"[..0] == "";
    }
    assert Pow10(4) == 10000;
  }

  lemma Value12158()
    ensures DdmmValue("121", "58", "3416") == 121.0 + (58.0 + 3416.0 / 10000.0) / 60.0
  {
    assert DigitsValue("121") == 121 by {
      assert "121"[..2] == "12";
      assert "12"[..1] == "1";
      assert "1"[..0] == "";
    }
    assert DigitsValue("58") == 58 by {
      assert "58"[..1] == "5";
      assert "5"[..0] == "";
    }
    assert DigitsValue("3416") == 3416 by {
      assert "3416"[..3] == "341";
      assert "341"[..2] == "34";
      assert "34"[..1] == "3";
      assert "3"[..0] == "";
    }
    assert Pow10(4) == 10000;
  }

  /** Empty, missing and malformed inputs give `None`. */
  lemma ParseGpsCoordinateRejects()
    ensures ParseGpsCoordinate(Some(""), Some("N")) == None
    ensures ParseGpsCoordinate(None, Some("N")) == None
    ensures ParseGpsCoordinate(Some("invalid"), Some("N")) == None
    ensures ParseGpsCoordinate(Some("123"), None) == None
  {
    DotlessShortRejected("invalid", "N");
  }

  /** `smooth_gps_coordinates`: the mean of the last `size` samples, or `None`
      while fewer than `size` have arrived. */
  function SmoothGpsCoordinates(buf: seq<Coord>, size: nat): (r: Option<Coord>)
    requires size >= 1
    ensures r.None? <==> |buf| < size
    ensures r.Some? ==>
      && r.value.lat * size as real == SumLat(buf[|buf| - size..])
      && r.value.lon * size as real == SumLon(buf[|buf| - size..])
  {
    if |buf| < size then None
    else
      var w := buf[|buf| - size..];
      assert SumLat(w) / size as real * size as real == SumLat(w);
      assert SumLon(w) / size as real * size as real == SumLon(w);
      Some(Mean(w))
  }

  /** Only the newest `size` samples matter: older history is ignored. */
  lemma SmoothIgnoresOlderSamples(older: seq<Coord>, buf: seq<Coord>, size: nat)
    requires size >= 1 && |buf| >= size
    ensures SmoothGpsCoordinates(older + buf, size) == SmoothGpsCoordinates(buf, size)
  {
    var all := older + buf;
    assert all[|all| - size..] == buf[|buf| - size..];
  }

  /** The smoothed position lies within the bounding box of the samples. */
  lemma SmoothWithinBounds(buf: seq<Coord>, size: nat, latLo: real, latHi: real, lonLo: real, lonHi: real)
    requires size >= 1 && |buf| >= size
    requires LatWithin(buf, latLo, latHi) && LonWithin(buf, lonLo, lonHi)
    ensures var r := SmoothGpsCoordinates(buf, size);
      r.Some? && latLo <= r.value.lat <= latHi && lonLo <= r.value.lon <= lonHi
  {
    var w := buf[|buf| - size..];
    assert LatWithin(w, latLo, latHi) by {
      forall i | 0 <= i < |w| ensures latLo <= w[i].lat <= latHi {
        assert w[i] == buf[|buf| - size + i];
      }
    }
    assert LonWithin(w, lonLo, lonHi) by {
      forall i | 0 <= i < |w| ensures lonLo <= w[i].lon <= lonHi {
        assert w[i] == buf[|buf| - size + i];
      }
    }
    MeanWithinBounds(w, latLo, latHi, lonLo, lonHi);
  }

  // ---------------------------------------------------------------------
  // Byte sizes
  // ---------------------------------------------------------------------

  datatype ByteUnit = B | KB | MB | GB | TB | PB

  /** The position of a unit in B, KB, MB, GB, TB, PB. */
  function UnitIndex(u: ByteUnit): nat {
    match u
    case B => 0
    case KB => 1
    case MB => 2
    case GB => 3
    case TB => 4
    case PB => 5
  }

  function UnitAt(i: nat): (u: ByteUnit)
    requires i <= 5
    ensures UnitIndex(u) == i
  {
    [B, KB, MB, GB, TB, PB][i]
  }

  function Pow1024(n: nat): (p: real)
    ensures p >= 1.0
  {
    if n == 0 then 1.0 else 1024.0 * Pow1024(n - 1)
  }

  /** A size expressed in a unit; the `.2f` rendering is not modelled. */
  datatype Scaled = Scaled(value: real, unit: ByteUnit)

  /** The loop of `format_bytes` from unit `i` on, with `v` the size in that unit. */
  function ScaleFrom(b: real, v: real, i: nat): (r: Scaled)
    requires i <= 5 && v == b / Pow1024(i)
    ensures UnitIndex(r.unit) >= i
    ensures r.value == b / Pow1024(UnitIndex(r.unit))
    ensures r.unit != PB ==> r.value < 1024.0
    ensures forall k :: i <= k < UnitIndex(r.unit) ==> b / Pow1024(k) >= 1024.0
    decreases 5 - i
  {
    if i == 5 then Scaled(v, PB)
    else if v < 1024.0 then Scaled(v, UnitAt(i))
    else
      var p := Pow1024(i);
      assert v / 1024.0 == b / (1024.0 * p) by {
        assert v * p == b;
        assert (v / 1024.0) * (1024.0 * p) == v * p;
      }
      ScaleFrom(b, v / 1024.0, i + 1)
  }

  /** `format_bytes` (and the identical `_format_bytes` of the cleanup module):
      the first unit among B, KB, MB, GB, TB in which the size is below 1024,
      otherwise PB. */
  function FormatBytes(b: real): (r: Scaled)
    ensures r.value == b / Pow1024(UnitIndex(r.unit))
    ensures r.unit != PB ==> r.value < 1024.0
    ensures forall k :: 0 <= k < UnitIndex(r.unit) ==> b / Pow1024(k) >= 1024.0
  {
    ScaleFrom(b, b, 0)
  }

  /** 1024 bytes is "1.00 KB", 1024² is "1.00 MB" and 1024³ is "1.00 GB". */
  lemma FormatBytesExamples()
    ensures FormatBytes(1024.0) == Scaled(1.0, KB)
    ensures FormatBytes(1048576.0) == Scaled(1.0, MB)
    ensures FormatBytes(1073741824.0) == Scaled(1.0, GB)
    ensures FormatBytes(512.0) == Scaled(512.0, B)
  {
    UnitUnique(FormatBytes(1024.0), 1024.0, KB);
    UnitUnique(FormatBytes(1048576.0), 1048576.0, MB);
    UnitUnique(FormatBytes(1073741824.0), 1073741824.0, GB);
    UnitUnique(FormatBytes(512.0), 512.0, B);
  }

  /** The unit chosen is determined by the two defining conditions. */
  lemma UnitUnique(r: Scaled, b: real, u: ByteUnit)
    requires r == FormatBytes(b)
    requires u != PB ==> b / Pow1024(UnitIndex(u)) < 1024.0
    requires forall k :: 0 <= k < UnitIndex(u) ==> b / Pow1024(k) >= 1024.0
    ensures r.unit == u
  {
    assert UnitIndex(r.unit) == UnitIndex(u);
  }

  // ---------------------------------------------------------------------
  // Disk usage
  // ---------------------------------------------------------------------

  /** What `shutil.disk_usage` reports. */
  datatype DiskStat = DiskStat(total: nat, used: nat, free: nat)

  datatype Usage = Usage(total: nat, used: nat, free: nat, percentUsed: real, percentFree: real)

  /** `get_disk_usage`: the used share in percent (0 on a zero-sized disk) and its complement. */
  function ComputeUsage(st: DiskStat): (u: Usage)
    ensures u.total == st.total && u.used == st.used && u.free == st.free
    ensures u.percentUsed + u.percentFree == 100.0
    ensures st.total > 0 ==> u.percentUsed * st.total as real == st.used as real * 100.0
    ensures st.total == 0 ==> u.percentUsed == 0.0
    ensures st.used <= st.total ==> 0.0 <= u.percentUsed <= 100.0 && 0.0 <= u.percentFree <= 100.0
  {
    var p := if st.total > 0 then st.used as real / st.total as real * 100.0 else 0.0;
    Usage(st.total, st.used, st.free, p, 100.0 - p)
  }

  // ---------------------------------------------------------------------
  // Configuration
  // ---------------------------------------------------------------------

  /** `ConfigManager`: a dictionary of settings. */
  datatype Config<V> = Config(values: map<string, V>)

  /** `ConfigManager(config_dict)`: `config_dict or {}`. */
  function NewConfig<V>(initial: Option<map<string, V>>): (c: Config<V>)
    ensures initial.Some? ==> c.values == initial.value
    ensures initial.None? ==> c.values == map[]
  {
    Config(initial.GetOr(map[]))
  }

  /** `get(key, default)`: the stored value, or the default when the key is absent. */
  function Get<V>(c: Config<V>, key: string, default: V): (v: V)
    ensures key in c.values ==> v == c.values[key]
    ensures key !in c.values ==> v == default
  {
    if key in c.values then c.values[key] else default
  }

  /** `set(key, value)`. */
  function Set<V>(c: Config<V>, key: string, value: V): (c': Config<V>)
    ensures c'.values.Keys == c.values.Keys + {key}
  {
    Config(c.values[key := value])
  }

  /** After `set(k, v)`, `get(k)` is `v` whatever the default, and every other key reads as before. */
  lemma GetAfterSet<V>(c: Config<V>, key: string, value: V, other: string, default: V)
    ensures Get(Set(c, key, value), key, default) == value
    ensures other != key ==> Get(Set(c, key, value), other, default) == Get(c, other, default)
  {
  }

  // ---------------------------------------------------------------------
  // File names
  // ---------------------------------------------------------------------

  /** `get_formatted_timestamp`: fifteen characters with '-' at index 8. */
  function FormattedTimestamp(now: Clock.DateTime): (s: string)
    requires Clock.Valid(now)
    ensures |s| == 15 && s[8] == '-'
    ensures Clock.ParseStamp(s) == Some(now)
  {
    Clock.StampRoundTrip(now);
    Clock.Stamp(now)
  }

  /** `get_video_filename`: "jetsoncam-" + timestamp + ".mp4"; the directory argument is unused. */
  function GetVideoFilename(now: Clock.DateTime, videoDir: string): (name: string)
    requires Clock.Valid(now)
    ensures name == Clock.FilenamePrefix + FormattedTimestamp(now) + Clock.FilenameSuffix
    ensures Clock.ParseVideoFilename(name) == Some(now)
  {
    Clock.VideoFilenameRoundTrip(now);
    Clock.VideoFilename(now)
  }
}

=== FILE: web.dfy ===
/** The request handling of the web dashboard that decides something: the
    login gate, the video file guard, the listing flags, the cleanup action
    dispatch and the search limit. Requests are given as their parsed fields;
    sessions, templates and file streaming are not modelled. */
module Web {
  import opened Common
  import opened Numbers
  import Cleanup
  import EventStore

  // ---------------------------------------------------------------------
  // Login gate
  // ---------------------------------------------------------------------

  /** The outcome of a protected route: a redirect to the login page, or the
      route's own response. */
  datatype Gated<R> = RedirectToLogin | Handled(response: R)

  /** `_require_login`: `session` holds the keys of the session cookie. */
  function RequireLogin<R>(session: set<string>, route: () -> R): (g: Gated<R>)
    ensures g.RedirectToLogin? <==> "user" !in session
    ensures g.Handled? ==> g.response == route()
  {
    if "user" !in session then RedirectToLogin else Handled(route())
  }

  // ---------------------------------------------------------------------
  // Video files
  // ---------------------------------------------------------------------

  datatype VideoResponse =
    | InvalidFilename      // 400
    | VideoNotFound        // 404
    | SendVideo(path: string)

  /** `os.path.join(dir, name)` for a name without '/'. */
  function JoinPath(dir: string, name: string): (p: string)
    ensures EndsWith(p, name)
  {
    var prefix := if dir == "" || EndsWith(dir, "/") then dir else dir + "/";
    assert (prefix + name)[|prefix|..] == name;
    prefix + name
  }

  /** `get_video`: `onDisk` stands for `os.path.exists`. The traversal check
      comes before the file system is consulted. */
  function GetVideo(filename: string, videoDir: string, onDisk: string -> bool): (r: VideoResponse)
    ensures r == InvalidFilename <==> Contains(filename, "..") || '/' in filename
    ensures r == VideoNotFound <==>
      !Contains(filename, "..") && '/' !in filename && !onDisk(JoinPath(videoDir, filename))
    ensures r.SendVideo? ==> r.path == JoinPath(videoDir, filename) && onDisk(r.path)
  {
    if Contains(filename, "..") || '/' in filename then InvalidFilename
    else
      var path := JoinPath(videoDir, filename);
      if !onDisk(path) then VideoNotFound else SendVideo(path)
  }

  /** A served file lies directly inside the video directory: the path is the
      directory followed by a single name with no separator and no "..", so
      "../etc/passwd" or "sub/clip.mp4" is never served. */
  lemma ServedInsideDir(filename: string, videoDir: string, onDisk: string -> bool)
    requires GetVideo(filename, videoDir, onDisk).SendVideo?
    ensures var p := GetVideo(filename, videoDir, onDisk).path;
      var dir := if videoDir == "" || EndsWith(videoDir, "/") then videoDir else videoDir + "/";
      && p == dir + filename
      && '/' !in p[|dir|..]
      && !Contains(p[|dir|..], "..")
  {
    var dir := if videoDir == "" || EndsWith(videoDir, "/") then videoDir else videoDir + "/";
    assert (dir + filename)[|dir|..] == filename;
  }

  /** Any name that walks up the tree is refused, whatever exists on disk. */
  lemma TraversalRefused(name: string, videoDir: string, onDisk: string -> bool)
    ensures GetVideo("../" + name, videoDir, onDisk) == InvalidFilename
    ensures GetVideo(name + "/..", videoDir, onDisk) == InvalidFilename
  {
    assert ('/' in "../" + name) by { assert ("../" + name)[2] == '/'; }
    assert ('/' in name + "/..") by { assert (name + "/..")[|name|] == '/'; }
  }

  // ---------------------------------------------------------------------
  // Video listing
  // ---------------------------------------------------------------------

  /** A query-string argument: the value when given, else the default. */
  function Arg(args: map<string, string>, key: string, default: string): string {
    if key in args then args[key] else default
  }

  /** The flags of `/api/videos`. */
  datatype ListFlags = ListFlags(sortBy: string, descending: bool)

  /** `sort` defaults to "date"; `desc` (default "true") means descending
      exactly when it reads "true" ignoring case. */
  function VideoListFlags(args: map<string, string>): (f: ListFlags)
    ensures f.sortBy == Arg(args, "sort", "date")
    ensures f.descending <==> Lower(Arg(args, "desc", "true")) == "true"
  {
    ListFlags(Arg(args, "sort", "date"), Lower(Arg(args, "desc", "true")) == "true")
  }

  /** Without arguments the listing is newest first; any capitalisation of
      "true" keeps it descending, and anything else ("1", "yes", "") turns it ascending. */
  lemma VideoListFlagExamples()
    ensures VideoListFlags(map[]) == ListFlags("date", true)
    ensures VideoListFlags(map["desc" := "TRUE"]).descending
    ensures VideoListFlags(map["desc" := "True"]).descending
    ensures !VideoListFlags(map["desc" := "1"]).descending
    ensures !VideoListFlags(map["desc" := ""]).descending
  {
    assert Lower("true") == "true";
    assert Lower("TRUE") == "true";
    assert Lower("True") == "true";
    assert Lower("1") == "1";
  }

  /** `/api/videos`: the listing in the order the flags select. */
  function ApiVideos(args: map<string, string>, dir: Option<seq<Cleanup.Entry>>, render: real -> string): (vs: seq<Cleanup.VideoInfo>)
    ensures dir.None? ==> vs == []
    ensures dir.Some? ==> multiset(vs) == multiset(Cleanup.Infos(dir.value, render))
    ensures var f := VideoListFlags(args);
      Cleanup.Sorted(vs, Cleanup.ParseSortKey(f.sortBy), f.descending)
    ensures var f := VideoListFlags(args);
      dir.Some? && Cleanup.ParseSortKey(f.sortBy) == Cleanup.Unsorted ==> vs == Cleanup.Infos(dir.value, render)
  {
    var f := VideoListFlags(args);
    Cleanup.GetVideoList(dir, f.sortBy, f.descending, render)
  }

  /** With no arguments the dashboard lists the videos newest first. */
  lemma DefaultListingNewestFirst(dir: Option<seq<Cleanup.Entry>>, render: real -> string)
    ensures var vs := ApiVideos(map[], dir, render);
      forall i, j :: 0 <= i < j < |vs| ==> LexLe(vs[j].modifiedTime, vs[i].modifiedTime)
  {
    VideoListFlagExamples();
  }

  // ---------------------------------------------------------------------
  // JSON bodies
  // ---------------------------------------------------------------------

  /** A JSON value as Flask decodes it. */
  datatype Json = JNull | JBool(b: bool) | JInt(i: int) | JReal(r: real) | JString(s: string) | JOther

  /** `body.get(key, default)`. */
  function Get(body: map<string, Json>, key: string, default: Json): Json {
    if key in body then body[key] else default
  }

  /** Python's `float(v)`; `None` where it raises. */
  function ToFloat(v: Json): (r: Option<real>)
    ensures v.JReal? ==> r == Some(v.r)
    ensures v.JInt? ==> r == Some(v.i as real)
    ensures v.JNull? || v.JOther? ==> r.None?
  {
    match v
    case JNull => None
    case JBool(b) => Some(if b then 1.0 else 0.0)
    case JInt(i) => Some(i as real)
    case JReal(x) => Some(x)
    case JString(s) => ParseFloat(s)
    case JOther => None
  }

  /** Python's `int(x)` on a float: truncation toward zero. */
  function Trunc(x: real): (n: int)
    ensures x >= 0.0 ==> n as real <= x < n as real + 1.0
    ensures x < 0.0 ==> n as real - 1.0 < x <= n as real
  {
    if x >= 0.0 then x.Floor else -((-x).Floor)
  }

  /** Python's `int(v)`; `None` where it raises. */
  function ToInt(v: Json): (r: Option<int>)
    ensures v.JInt? ==> r == Some(v.i)
    ensures v.JNull? || v.JOther? ==> r.None?
  {
    match v
    case JNull => None
    case JBool(b) => Some(if b then 1 else 0)
    case JInt(i) => Some(i)
    case JReal(x) => Some(Trunc(x))
    case JString(s) => ParseInt(s)
    case JOther => None
  }

  // ---------------------------------------------------------------------
  // Cleanup action
  // ---------------------------------------------------------------------

  /** What `/api/cleanup` does. */
  datatype CleanupAction =
    | RunOldFiles              // cleanup_old_files()
    | RunBySize(target: real)  // cleanup_by_size(target)
    | ReportUsage              // get_disk_usage()
    | CleanupError             // 400: the body or the target could not be read

  /** `/api/cleanup`: `body` is `request.json`, `None` when the request has no JSON object. */
  function CleanupDispatch(body: Option<map<string, Json>>): (a: CleanupAction)
    ensures a == RunOldFiles <==> body.Some? && Get(body.value, "action", JString("check")) == JString("cleanup")
    ensures a.RunBySize? <==>
      body.Some? && Get(body.value, "action", JString("check")) == JString("cleanup_by_size")
      && ToFloat(Get(body.value, "target_percent", JReal(Cleanup.DefaultTargetFreePercent))).Some?
    ensures a.RunBySize? ==> a.target == ToFloat(Get(body.value, "target_percent", JReal(Cleanup.DefaultTargetFreePercent))).value
    ensures a == ReportUsage <==>
      body.Some? && Get(body.value, "action", JString("check")) != JString("cleanup")
      && Get(body.value, "action", JString("check")) != JString("cleanup_by_size")
  {
    if body.None? then CleanupError
    else
      var action := Get(body.value, "action", JString("check"));
      if action == JString("cleanup") then RunOldFiles
      else if action == JString("cleanup_by_size") then
        match ToFloat(Get(body.value, "target_percent", JReal(Cleanup.DefaultTargetFreePercent)))
        case Some(t) => RunBySize(t)
        case None => CleanupError
      else ReportUsage
  }

  /** Without a target the size cleanup aims at 15% free; an unknown or
      missing action only reports usage; an explicit null target is a 400. */
  lemma CleanupDispatchExamples()
    ensures CleanupDispatch(Some(map["action" := JString("cleanup_by_size")])) == RunBySize(15.0)
    ensures CleanupDispatch(Some(map["action" := JString("cleanup_by_size"), "target_percent" := JInt(20)])) == RunBySize(20.0)
    ensures CleanupDispatch(Some(map["action" := JString("cleanup_by_size"), "target_percent" := JNull])) == CleanupError
    ensures CleanupDispatch(Some(map[])) == ReportUsage
    ensures CleanupDispatch(Some(map["action" := JString("purge")])) == ReportUsage
  {
  }

  // ---------------------------------------------------------------------
  // Search
  // ---------------------------------------------------------------------

  /** A text filter of the search body: a string value, otherwise absent. */
  function TextField(body: map<string, Json>, key: string): Option<string> {
    if key in body && body[key].JString? then Some(body[key].s) else None
  }

  /** `/api/search` before the query runs: the filter to search with, or
      `None` for the 400 answer when there is no body or the limit is not a number. */
  function SearchRequest(body: Option<map<string, Json>>): (f: Option<EventStore.Filter>)
    ensures f.Some? <==> body.Some? && ToInt(Get(body.value, "limit", JInt(EventStore.DefaultLimit))).Some?
    ensures f.Some? ==> f.value.limit == ToInt(Get(body.value, "limit", JInt(EventStore.DefaultLimit))).value
    ensures f.Some? ==>
      && f.value.startDate == TextField(body.value, "start_date")
      && f.value.endDate == TextField(body.value, "end_date")
      && f.value.licensePlate == TextField(body.value, "license_plate")
    ensures f.Some? ==>
      && f.value.color == TextField(body.value, "color")
      && f.value.make == TextField(body.value, "make")
      && f.value.model == TextField(body.value, "model")
  {
    if body.None? then None
    else
      var b := body.value;
      match ToInt(Get(b, "limit", JInt(EventStore.DefaultLimit)))
      case None => None
      case Some(limit) =>
        Some(EventStore.Filter(TextField(b, "start_date"), TextField(b, "end_date"), TextField(b, "license_plate"),
                               TextField(b, "color"), TextField(b, "make"), TextField(b, "model"), limit))
  }

  /** The limit: 100 when absent, an integer as given, a float truncated
      toward zero, a numeric string read as an integer; null or "ten" is a 400. */
  lemma SearchLimitExamples()
    ensures SearchRequest(Some(map[])).value.limit == 100
    ensures SearchRequest(Some(map["limit" := JInt(5)])).value.limit == 5
    ensures SearchRequest(Some(map["limit" := JReal(-2.5)])).value.limit == -2
    ensures SearchRequest(Some(map["limit" := JString("25")])).value.limit == 25
    ensures SearchRequest(Some(map["limit" := JNull])).None?
    ensures SearchRequest(Some(map["limit" := JString("ten")])).None?
  {
    assert ParseInt("25") == Some(25) by {
      assert AllDigits("25");
      assert DigitsValue("25") == 25 by {
        assert "25"[..1] == "2";
        assert DigitsValue("2") == 2 by { assert "2"[..0] == ""; }
      }
    }
    assert ParseInt("ten") == None by {
      assert !IsDigit('t');
    }
    assert Trunc(-2.5) == -2 by {
      assert (2.5).Floor == 2;
    }
  }

  /** The search the request runs is the event store's statement for that
      filter, so its '?' placeholders always match its parameters. */
  lemma SearchRequestBalanced(body: Option<map<string, Json>>)
    requires SearchRequest(body).Some?
    ensures var q := EventStore.SearchQuery(SearchRequest(body).value);
      CountChar(q.Sql(), '?') == |q.params|
  {
    EventStore.SearchQueryBalanced(SearchRequest(body).value);
  }
}
